=== FILE: README.md ===
# Java-- compiler core, modelled in Dafny

A model of the compiler for Java--, a small teaching subset of Java, and proofs about that model. The compiler has three stages:

- **Semantic analysis.** The shared type resolution (`TypeUtils`, `AnalysisVisitor`) is used by the passes `CompatibleTypes`, `ArrayUsageCheck`, `MethodCallCheck` and `MethodStructure`. Each pass adds error reports.
- **OLLIR generation.** `OptUtils`, `OllirExprGeneratorVisitor` and `OllirGeneratorVisitor` lower the annotated tree to OLLIR, the course's three-address intermediate language. Two global counters name fresh temporaries (`tmpN`) and labels.
- **Jasmin generation.** `JasminGenerator` and `MyJasminUtils` turn the OLLIR class into Jasmin assembly. Along the way they track the operand-stack height and number the backend's own labels `MyLabelN` and `MySkipN`.

The tree, the symbol table, OLLIR code and Jasmin lines are immutable datatypes. Every visitor method is a pure function over them. An exception thrown by the Java code is an `Outcome.Crash` with a fault kind; reports are returned as values. The global counters are a `Counters` value threaded through the lowering, advanced where the visit methods call `getTemp` and `getLabel` (see "Left out" for the numbers the framework's re-walk adds).

One module per source file:

- `jmm`: the tree.
- `type_utils`: `TypeUtils`.
- `analysis`: `AnalysisVisitor`.
- One module per analysis pass.
- `opt_utils`: `OptUtils`.
- `ollir`: the OLLIR datatypes and the soundness invariant of emitted code.
- `ollir_expr`, `ollir_stmt`, `ollir_class`: the two generator visitors.
- `jasmin_ir`: OLLIR input and Jasmin output.
- `jasmin_utils`: `MyJasminUtils`.
- `jasmin_gen`: `JasminGenerator`.

`jasmin_machine` is not part of the compiler. It is a small reference semantics for the branch, `goto`, `ldc` and label instructions, after chapter 6 of the Java Virtual Machine Specification. The comparison code the backend emits is proved against it.

The main properties proved:

- **Fresh names.** Every lowering emits code whose labels are pairwise distinct and whose temporaries come from its own counter window. Control flow stays within the emitted code, and no `&&` instruction survives (`Ollir.Sound`). The same holds for the whole class, lowered with the corrected loop and call-statement lowering (see Findings).
- **Backend labels.** The backend's labels are distinct across the whole class, generated with the corrected operator and label code (see Findings).
- **Descriptors.** Jasmin type and method descriptors read back into the types they encode.
- **Stack tracking.** The tracked stack limit is the maximum prefix sum of the tracked stack deltas.
- **Comparisons.** The comparison skeletons compute the boolean they stand for.
- **Analysis reports.** Each analysis pass reports the cases the Java code reports, with the counts it produces. The call check is stated for the corrected parameter check (see Findings).

## Model

| member | source | states |
|---|---|---|
| Jmm.LocalDecls | src/main/pt/up/fe/comp2024/symboltable/JmmSymbolTableBuilder.java:103-111 | a method's locals are exactly its local declarations, none invented |
| Jmm.NameAttr | src/main/pt/up/fe/comp2024/analysis/AnalysisVisitor.java:115-119 | exactly variable references, `this` and object creations carry a `name` attribute; `this` is assumed to be named "this" (see "Left out") |
| Jmm.ValueAttr | src/main/pt/up/fe/comp2024/optimization/OllirGeneratorVisitor.java:160-165 | exactly integer and boolean literals carry a `value` attribute |
| Jmm.FirstSymbol | src/main/pt/up/fe/comp2024/analysis/AnalysisVisitor.java:127-142 | a name is found exactly when some symbol has it, and then with that symbol's type |
| Jmm.FirstSymbolAppend | src/main/pt/up/fe/comp2024/analysis/AnalysisVisitor.java:122-142 | searching parameters then locals then fields finds the earliest scope's symbol |
| Strings.NatToString | src/main/pt/up/fe/comp2024/optimization/OptUtils.java:30-33 | a number's text is a nonempty digit string, one digit exactly below 10 |
| Strings.IntToString | src/main/pt/up/fe/comp2024/optimization/OptUtils.java:30-33 | the text starts with a minus sign exactly for negative numbers |
| Strings.NatToStringInjective | src/main/pt/up/fe/comp2024/optimization/OptUtils.java:30-33 | two numbers with the same text are equal |
| Strings.IntToStringInjective | src/main/pt/up/fe/comp2024/optimization/OptUtils.java:30-33 | two integers with the same text are equal, negative ones included |
| Strings.PrefixedNamesDistinct | src/main/pt/up/fe/comp2024/optimization/OptUtils.java:25-33 | different numbers after one prefix give different names |
| Reports.CountOfAppend | src/main/pt/up/fe/comp2024/analysis/AnalysisVisitor.java:28-34 | reports of a kind in two lists add up |
| TypeUtils.FindAncestorOfKind | src/main/pt/up/fe/comp2024/ast/TypeUtils.java:22-31 | the nearest strict ancestor of the kind, and none exactly when no ancestor has it |
| TypeUtils.BinExprType | src/main/pt/up/fe/comp2024/ast/TypeUtils.java:54-61 | arithmetic gives int, `&&` and `<` give boolean, any other operator throws |
| TypeUtils.VarExprType | src/main/pt/up/fe/comp2024/ast/TypeUtils.java:63-92 | an imported name has the import's own type |
| TypeUtils.ImportSymbols | src/main/pt/up/fe/comp2024/ast/TypeUtils.java:66-71 | each import is seen as a symbol typed by its name, in order |
| TypeUtils.VarExprTypeIsFirstMatch | src/main/pt/up/fe/comp2024/ast/TypeUtils.java:63-92 | a reference has the type of the first symbol of its name across imports, parameters, fields, locals; `int` otherwise |
| TypeUtils.ExprType | src/main/pt/up/fe/comp2024/ast/TypeUtils.java:33-52 | which node kinds throw; literals, accesses, array creations, `new C()` and `this` have their fixed types; a variable has the type of the first symbol of its name, `int` when none; a call has the declared return type of its function |
| TypeUtils.AreTypesAssignable | src/main/pt/up/fe/comp2024/ast/TypeUtils.java:94-96 | a type is assignable exactly to itself and to the array or scalar type of the same name |
| Analysis.FromJava | src/main/pt/up/fe/comp2024/analysis/AnalysisVisitor.java:36-96 | a null Java type is Unknown; any other keeps its name and array flag |
| Analysis.ToJava | src/main/pt/up/fe/comp2024/analysis/AnalysisVisitor.java:36-96 | the Java type a resolved type stands for, null exactly for Unknown |
| Analysis.JavaViewRoundTrip | src/main/pt/up/fe/comp2024/analysis/AnalysisVisitor.java:36-96 | the two type views are inverse bijections |
| Analysis.WithArray | src/main/pt/up/fe/comp2024/analysis/AnalysisVisitor.java:60-64 | same name, given array flag |
| Analysis.TypeNodeType | src/main/pt/up/fe/comp2024/analysis/AnalysisVisitor.java:89-91 | the Java type of the node's name and array flag; the varargs flag is ignored |
| Analysis.GetType | src/main/pt/up/fe/comp2024/analysis/AnalysisVisitor.java:36-96 | literals, negations, field reads, operators and lengths have fixed types; `new C()`, `new T[n]` and `this` have their class types; variable reads and calls are resolved by GetVarType and ManageFunctionCall; typing only reports array-literal mismatches |
| Analysis.GetTypeParentheses | src/main/pt/up/fe/comp2024/analysis/AnalysisVisitor.java:56-57 | a parenthesised expression has exactly the typing of its inner expression |
| Analysis.GetTypeIndexing | src/main/pt/up/fe/comp2024/analysis/AnalysisVisitor.java:59-81 | an untyped base propagates; an array access gives the element type of an array base and Unknown otherwise; a length-style access crashes on an Unknown base and otherwise keeps the base's name as a scalar |
| Analysis.GetTypeArrayLiteral | src/main/pt/up/fe/comp2024/analysis/AnalysisVisitor.java:83-87 | an array literal is Unknown exactly when some element disagrees with the first, and otherwise an array of the first element's type name |
| Analysis.GetVarType | src/main/pt/up/fe/comp2024/analysis/AnalysisVisitor.java:109-143 | a field access is the field lookup; otherwise the type of the first symbol of the name across parameters, locals and fields, Unknown without a name; no reports |
| Analysis.LookupVar | src/main/pt/up/fe/comp2024/analysis/AnalysisVisitor.java:115-142 | the first symbol of the name across parameters, locals and fields; no type without a name |
| Analysis.FirstDeclared | src/main/pt/up/fe/comp2024/analysis/AnalysisVisitor.java:121-134 | nothing is found exactly when no parameter and no local has the name |
| Analysis.FirstDeclaredIsFirstMatch | src/main/pt/up/fe/comp2024/analysis/AnalysisVisitor.java:121-134 | the parameter-then-local search finds the type of the first parameter or local symbol of the name, varargs read as arrays |
| Analysis.GetFieldType | src/main/pt/up/fe/comp2024/analysis/AnalysisVisitor.java:97-107 | an untyped object crashes; a field of another class is the import placeholder; a field of the own class has the type of the first field of that name |
| Analysis.ManageFunctionCall | src/main/pt/up/fe/comp2024/analysis/AnalysisVisitor.java:145-154 | a receiver without type is a static call resolved by CheckStaticMethod, or a crash without a name; otherwise CheckInstanceMethod on the receiver's type, with the receiver's reports twice |
| Analysis.CheckInstanceMethod | src/main/pt/up/fe/comp2024/analysis/AnalysisVisitor.java:156-172 | own or super class: the declared return type; imported: the placeholder; an undeclared method of the own class with a superclass, or of the superclass: the placeholder; Unknown exactly for an undeclared own method without superclass or an unknown class |
| Analysis.CheckStaticMethod | src/main/pt/up/fe/comp2024/analysis/AnalysisVisitor.java:174-179 | the placeholder exactly when the class is imported, Unknown otherwise |
| Analysis.CheckArraySameType | src/main/pt/up/fe/comp2024/analysis/AnalysisVisitor.java:194-209 | an empty literal has no first child; only mismatch reports |
| Analysis.CheckArraySameTypeSound | src/main/pt/up/fe/comp2024/analysis/AnalysisVisitor.java:194-209 | the check holds exactly when every element is typed like the first |
| Analysis.NeighboursAgree | src/main/pt/up/fe/comp2024/analysis/AnalysisVisitor.java:197-208 | only mismatch reports; a failing loop's last report is the mismatch report it adds |
| Analysis.NeighboursAgreeSound | src/main/pt/up/fe/comp2024/analysis/AnalysisVisitor.java:197-208 | the loop succeeds exactly when all later elements have the type of the current one; a failure names a later element typed differently |
| Analysis.AllSameType | src/main/pt/up/fe/comp2024/analysis/AnalysisVisitor.java:188-192 | true exactly when every element has the expected type |
| Analysis.OnlyMismatchCountsNothingElse | src/main/pt/up/fe/comp2024/analysis/AnalysisVisitor.java:194-209 | typing reports never count as another kind |
| CompatibleTypes.BinaryOpFindings | src/main/pt/up/fe/comp2024/analysis/passes/CompatibleTypes.java:23-74 | `&&` reports unless both operands are boolean; other operators report a non-int operand and, independently, an array mixed with a scalar |
| CompatibleTypes.VisitBinaryOp | src/main/pt/up/fe/comp2024/analysis/passes/CompatibleTypes.java:23-74 | defined exactly when both operands type; the operands' typing reports, then the findings for their types; an operator error is reported exactly when there is a finding |
| CompatibleTypes.WellTypedOperandsPass | src/main/pt/up/fe/comp2024/analysis/passes/CompatibleTypes.java:23-74 | operands of the right primitive type are never reported |
| CompatibleTypes.LessThanOnBooleansReported | src/main/pt/up/fe/comp2024/analysis/passes/CompatibleTypes.java:23-74 | `<` on booleans is reported as non-integer operands |
| CompatibleTypes.AssignFindings | src/main/pt/up/fe/comp2024/analysis/passes/CompatibleTypes.java:76-126 | at most one report, none exactly when the assignment is accepted, a missing operand when either side is untyped |
| CompatibleTypes.VisitAssignStmt | src/main/pt/up/fe/comp2024/analysis/passes/CompatibleTypes.java:76-126 | defined exactly when target and value type; typing reports then the assignment findings; an error is reported exactly when the assignment is not accepted |
| CompatibleTypes.FindingsLeaveTyping | src/main/pt/up/fe/comp2024/analysis/passes/CompatibleTypes.java:23-126 | appending findings to typing reports keeps them mismatch-only exactly when there are no findings |
| CompatibleTypes.SubclassIntoSuperclassAccepted | src/main/pt/up/fe/comp2024/analysis/passes/CompatibleTypes.java:107-108 | a current-class value fits a superclass variable |
| CompatibleTypes.SuperclassIntoSubclassRejected | src/main/pt/up/fe/comp2024/analysis/passes/CompatibleTypes.java:76-126 | a superclass value does not fit a current-class variable |
| CompatibleTypes.IntIntoBooleanRejected | src/main/pt/up/fe/comp2024/analysis/passes/CompatibleTypes.java:76-126 | an int never fits a boolean variable |
| CompatibleTypes.ForeignAlwaysAccepted | src/main/pt/up/fe/comp2024/analysis/passes/CompatibleTypes.java:93-94 | the unknown-import placeholder is accepted on either side |
| ArrayUsageCheck.AccessFindings | src/main/pt/up/fe/comp2024/analysis/passes/ArrayUsageCheck.java:19-35 | one report for a non-array base, one for a non-int index, nothing else |
| ArrayUsageCheck.VisitArrayAccess | src/main/pt/up/fe/comp2024/analysis/passes/ArrayUsageCheck.java:19-35 | crashes exactly when base or index is untyped; otherwise typing reports then the findings |
| ArrayUsageCheck.IntArrayIndexedByLiteralPasses | src/main/pt/up/fe/comp2024/analysis/passes/ArrayUsageCheck.java:19-35 | `a[3]` on an `int[]` is not reported |
| ArrayUsageCheck.ScalarIndexedByBooleanReportedTwice | src/main/pt/up/fe/comp2024/analysis/passes/ArrayUsageCheck.java:19-35 | `a[true]` on an `int` gives both reports once |
| MethodCallCheck.VisitMethodDeclaration | src/main/pt/up/fe/comp2024/analysis/passes/MethodCallCheck.java:27-32 | one report exactly when the method is not declared |
| MethodCallCheck.MethodHeader | src/main/pt/up/fe/comp2024/analysis/passes/MethodCallCheck.java:47-50 | a method of the class with the called name; none exactly when no method has it |
| MethodCallCheck.VarArgsCheck | src/main/pt/up/fe/comp2024/analysis/passes/MethodCallCheck.java:86-89 | at most one mismatch and no other report kind; no mismatch exactly when every argument from the varargs position on has the element type |
| MethodCallCheck.PlainCheck | src/main/pt/up/fe/comp2024/analysis/passes/MethodCallCheck.java:90-92 | at most one mismatch and no other report kind; no mismatch exactly when the argument's type is the parameter's |
| MethodCallCheck.ParamCheck | src/main/pt/up/fe/comp2024/analysis/passes/MethodCallCheck.java:84-96 | a plain parameter reports a mismatch exactly when its argument's type differs, at most once; a varargs parameter reports none exactly when every remaining argument has its type |
| MethodCallCheck.CheckParamsAsWritten | src/main/pt/up/fe/comp2024/analysis/passes/MethodCallCheck.java:79-97 | as written, a call with fewer arguments than parameters always crashes |
| MethodCallCheck.CheckMethodCallParams | src/main/pt/up/fe/comp2024/analysis/passes/MethodCallCheck.java:79-97 | corrected: one "fewer arguments" report exactly for a short call, at most one mismatch per matched parameter |
| MethodCallCheck.MissingArgumentCrashesAsWritten | src/main/pt/up/fe/comp2024/analysis/passes/MethodCallCheck.java:79-97 | `foo()` against `foo(int a)` crashes as written and is reported once corrected |
| MethodCallCheck.VisitMethodCall | src/main/pt/up/fe/comp2024/analysis/passes/MethodCallCheck.java:34-45 | corrected: an untyped call reports a missing object once; a typed one to an undeclared method only its typing reports, to a declared one the typing reports then the parameter check |
| MethodCallCheck.NoObjectReportsFromParams | src/main/pt/up/fe/comp2024/analysis/passes/MethodCallCheck.java:79-97 | the parameter check never reports a missing object |
| MethodCallCheck.VisitReturnStmt | src/main/pt/up/fe/comp2024/analysis/passes/MethodCallCheck.java:52-68 | every return in a void method is reported; otherwise one report for an untyped and one for a mismatched value |
| MethodStructure.CheckReturnLast | src/main/pt/up/fe/comp2024/analysis/passes/MethodStructure.java:34-49 | crashes exactly for a method the table lacks; nothing reported exactly when void or ending in a return |
| MethodStructure.MisplacedVarArgs | src/main/pt/up/fe/comp2024/analysis/passes/MethodStructure.java:51-64 | zero exactly when varargs only appears last |
| MethodStructure.CheckVarArgsLast | src/main/pt/up/fe/comp2024/analysis/passes/MethodStructure.java:51-64 | one report per misplaced varargs parameter, nothing exactly when none is misplaced |
| MethodStructure.CheckMainHeader | src/main/pt/up/fe/comp2024/analysis/passes/MethodStructure.java:66-77 | nothing reported exactly for public static void; crashes for a public static method the table lacks |
| MethodStructure.CheckMainParams | src/main/pt/up/fe/comp2024/analysis/passes/MethodStructure.java:79-98 | a count report unless there is exactly one parameter; that one accepted exactly when it is a `String` array or varargs |
| MethodStructure.VisitMethod | src/main/pt/up/fe/comp2024/analysis/passes/MethodStructure.java:21-32 | crashes exactly for a method the table lacks; one misplaced-return report exactly for a non-void method not ending in a return; one report per misplaced varargs; for `main` only, the header, parameter-count and parameter-type reports; nothing else |
| MethodStructure.MainReports | src/main/pt/up/fe/comp2024/analysis/passes/MethodStructure.java:21-32 | for `main`: every kind counted as in VisitMethod, header and parameter reports included |
| MethodStructure.OtherReports | src/main/pt/up/fe/comp2024/analysis/passes/MethodStructure.java:21-32 | for any other method: every kind counted as in VisitMethod, no `main` reports |
| MethodStructure.VisitCounts | src/main/pt/up/fe/comp2024/analysis/passes/MethodStructure.java:21-32 | in the combined reports each of the five kinds is counted from the check that produces it, and the lengths add up |
| OptUtils.GetLabel | src/main/pt/up/fe/comp2024/optimization/OptUtils.java:21-23 | the current label number, the label counter up by one, temps untouched |
| OptUtils.GetNextTempNum | src/main/pt/up/fe/comp2024/optimization/OptUtils.java:35-40 | a fresh number one past the last, or the last again when special |
| OptUtils.GetTemp | src/main/pt/up/fe/comp2024/optimization/OptUtils.java:25-33 | the name starts with its prefix and the counter moves as for the number |
| OptUtils.TempNamesNeverRepeat | src/main/pt/up/fe/comp2024/optimization/OptUtils.java:25-40 | a fresh temp name is never handed out again later |
| OptUtils.OllirTypeName | src/main/pt/up/fe/comp2024/optimization/OptUtils.java:60-71 | `.i32`, `.bool`, `.V` for the primitives, `.` + name for a class |
| OptUtils.ToOllirType | src/main/pt/up/fe/comp2024/optimization/OptUtils.java:54-58 | null is `.V`, an array gets `.array` before its element spelling |
| OptUtils.ToOllirTypeNode | src/main/pt/up/fe/comp2024/optimization/OptUtils.java:42-52 | a type node's spelling starts with `.`; TypeSpellingsAgree relates it to the other overload |
| OptUtils.TypeSpellingsAgree | src/main/pt/up/fe/comp2024/optimization/OptUtils.java:42-58 | the two overloads agree on `int`, `String` and every scalar type |
| OptUtils.BooleanArraySpellingsDiffer | src/main/pt/up/fe/comp2024/optimization/OptUtils.java:42-58 | they disagree on `boolean[]` |
| OptUtils.MethodHasVarArgs | src/main/pt/up/fe/comp2024/optimization/OptUtils.java:73-87 | true exactly for a known method with parameters, no more than the arguments, whose last is an array |
| Ollir.LabelText | src/main/pt/up/fe/comp2024/optimization/OllirGeneratorVisitor.java:63-65 | a label's text begins with its kind's prefix |
| Ollir.LabelTextInjective | src/main/pt/up/fe/comp2024/optimization/OllirGeneratorVisitor.java:63-65 | different labels have different texts |
| Ollir.DefinedLabelsMembers | src/main/pt/up/fe/comp2024/optimization/OllirGeneratorVisitor.java:59-111 | a label is listed exactly when the code defines it |
| Ollir.AssignedTempsMembers | src/main/pt/up/fe/comp2024/optimization/OptUtils.java:25-40 | a temp is listed exactly when some instruction assigns it |
| Ollir.DistinctLabelTexts | src/main/pt/up/fe/comp2024/optimization/OllirGeneratorVisitor.java:59-111 | distinct label numbers give distinct label texts |
| Ollir.FreshSequence | src/main/pt/up/fe/comp2024/optimization/OptUtils.java:21-40 | code of consecutive counter windows is fresh together, in either order |
| Ollir.FreshQuiet | src/main/pt/up/fe/comp2024/optimization/OptUtils.java:21-40 | code without labels and temps is fresh in any window |
| Ollir.SoundSequence | src/main/pt/up/fe/comp2024/optimization/OllirGeneratorVisitor.java:386-437 | sound code of consecutive windows is sound together |
| Ollir.SoundAround | src/main/pt/up/fe/comp2024/optimization/OllirExprGeneratorVisitor.java:351-361 | a later skeleton around earlier code stays sound |
| Ollir.SoundInside | src/main/pt/up/fe/comp2024/optimization/OllirGeneratorVisitor.java:59-89 | later code inside an earlier skeleton stays sound |
| Ollir.SoundPlain | src/main/pt/up/fe/comp2024/optimization/OllirExprGeneratorVisitor.java:363-380 | straight-line code with window temps is sound |
| Ollir.SoundPrepend | src/main/pt/up/fe/comp2024/optimization/OllirExprGeneratorVisitor.java:129-148 | a plain instruction may precede sound later code |
| Ollir.SoundAppendAssign | src/main/pt/up/fe/comp2024/optimization/OllirExprGeneratorVisitor.java:363-380 | a plain assignment to the next temp may follow sound code |
| OllirExpr.Need | src/main/pt/up/fe/comp2024/optimization/OllirExprGeneratorVisitor.java:383-421 | reading a missing attribute throws; a present one is returned |
| OllirExpr.NonNull | src/main/pt/up/fe/comp2024/optimization/OllirExprGeneratorVisitor.java:59-70 | calling a method on a null type throws |
| OllirExpr.ParamIndex | src/main/pt/up/fe/comp2024/optimization/OllirExprGeneratorVisitor.java:314-321 | the 1-based position of the first parameter with the name, none exactly when no parameter has it |
| OllirExpr.LowerVarRef | src/main/pt/up/fe/comp2024/optimization/OllirExprGeneratorVisitor.java:383-421 | a field is read into a fresh temp by `getfield`; otherwise the name itself, with its parameter prefix, and no code |
| OllirExpr.Occurrences | src/main/pt/up/fe/comp2024/optimization/OllirExprGeneratorVisitor.java:150-182 | positive exactly when the name is imported |
| OllirExpr.AllocTarget | src/main/pt/up/fe/comp2024/optimization/OllirExprGeneratorVisitor.java:150-182 | an imported, super or own class is allocated as itself; any other as the own class |
| OllirExpr.Allocations | src/main/pt/up/fe/comp2024/optimization/OllirExprGeneratorVisitor.java:150-182 | only allocations and constructor calls, two per copy |
| OllirExpr.LowerNewObject | src/main/pt/up/fe/comp2024/optimization/OllirExprGeneratorVisitor.java:150-182 | a fresh temp receives a new object of the allocated class and its constructor runs; sound |
| OllirExpr.LowerFieldAccess | src/main/pt/up/fe/comp2024/optimization/OllirExprGeneratorVisitor.java:47-57 | crashes exactly for `length` on an unnamed receiver; the temp is assigned exactly for `length` |
| OllirExpr.AndSkeletonSound | src/main/pt/up/fe/comp2024/optimization/OllirExprGeneratorVisitor.java:351-361 | the `&&` skeleton's two labels and temp are fresh |
| OllirExpr.LowerExpr | src/main/pt/up/fe/comp2024/optimization/OllirExprGeneratorVisitor.java:30-45 | every expression lowers to sound code whose value is fresh |
| OllirExpr.LowerExprShape | src/main/pt/up/fe/comp2024/optimization/OllirExprGeneratorVisitor.java:423-431 | no value exactly for kinds without a visit; a fresh temp for operators, calls and accesses; literals as themselves |
| OllirExpr.DefaultVisit | src/main/pt/up/fe/comp2024/optimization/OllirExprGeneratorVisitor.java:423-431 | visiting children only moves the counters forward |
| OllirExpr.LowerBinary | src/main/pt/up/fe/comp2024/optimization/OllirExprGeneratorVisitor.java:341-381 | `&&` gives a boolean temp and takes two labels; other operators end in one assignment of that operator typed by its result type |
| OllirExpr.AndLowered | src/main/pt/up/fe/comp2024/optimization/OllirExprGeneratorVisitor.java:351-361 | the `&&` code is sound, boolean, and takes two labels |
| OllirExpr.AndCompSound | src/main/pt/up/fe/comp2024/optimization/OllirExprGeneratorVisitor.java:351-361 | the full `&&` code is sound and assigns its temp |
| OllirExpr.BinOpLowered | src/main/pt/up/fe/comp2024/optimization/OllirExprGeneratorVisitor.java:363-380 | both computations then one assignment into the next temp |
| OllirExpr.LowerNot | src/main/pt/up/fe/comp2024/optimization/OllirExprGeneratorVisitor.java:129-148 | the result temp is taken first; ends in its negation; no operand exactly for unlowered kinds |
| OllirExpr.NotAfter | src/main/pt/up/fe/comp2024/optimization/OllirExprGeneratorVisitor.java:129-148 | the operand's code, then the negation into the result |
| OllirExpr.LowerSizes | src/main/pt/up/fe/comp2024/optimization/OllirExprGeneratorVisitor.java:113-127 | one int temp per size, each a copy of its size |
| OllirExpr.LowerArrayLiteral | src/main/pt/up/fe/comp2024/optimization/OllirExprGeneratorVisitor.java:91-111 | an array of the literal's length allocated, copied into the literal's variable, then the elements |
| OllirExpr.LowerElements | src/main/pt/up/fe/comp2024/optimization/OllirExprGeneratorVisitor.java:97-101 | at least one instruction per element; sound |
| OllirExpr.LowerLength | src/main/pt/up/fe/comp2024/optimization/OllirExprGeneratorVisitor.java:72-89 | ends in the array length into a fresh int temp |
| OllirExpr.LowerAccess | src/main/pt/up/fe/comp2024/optimization/OllirExprGeneratorVisitor.java:59-70 | ends in the named, typed array read at the index into a fresh int temp |
| OllirExpr.CallHeads | src/main/pt/up/fe/comp2024/optimization/OllirExprGeneratorVisitor.java:207-224 | every receiver group names the receiver and function; a plain receiver unless the type class is imported or the super class |
| OllirExpr.KindFor | src/main/pt/up/fe/comp2024/optimization/OllirExprGeneratorVisitor.java:196-200 | `invokestatic` exactly for a receiver whose type is imported |
| OllirExpr.LowerCall | src/main/pt/up/fe/comp2024/optimization/OllirExprGeneratorVisitor.java:184-298 | a call lowers to sound code defining its fresh result |
| OllirExpr.LowerCallInvocation | src/main/pt/up/fe/comp2024/optimization/OllirExprGeneratorVisitor.java:184-298 | the kind, the return type, and one argument per parameter with the varargs array last, else one per argument |
| OllirExpr.CallLowered | src/main/pt/up/fe/comp2024/optimization/OllirExprGeneratorVisitor.java:191-194 | ends in the invocation into the temp taken after packing |
| OllirExpr.LowerArgs | src/main/pt/up/fe/comp2024/optimization/OllirExprGeneratorVisitor.java:227-292 | one value per argument; sound |
| OllirExpr.SpelledArg | src/main/pt/up/fe/comp2024/optimization/OllirExprGeneratorVisitor.java:232-239 | a variable is named with its parameter prefix and typed |
| OllirExpr.GenerateVarArgs | src/main/pt/up/fe/comp2024/optimization/OllirExprGeneratorVisitor.java:300-312 | an array sized to the trailing arguments is allocated, copied, and stored at consecutive indices |
| OllirExpr.VarargsStores | src/main/pt/up/fe/comp2024/optimization/OllirExprGeneratorVisitor.java:307-310 | one store per remaining argument, at consecutive indices |
| OllirStmt.StmtArg | src/main/pt/up/fe/comp2024/optimization/OllirGeneratorVisitor.java:207-262 | each argument kind's code and value, sound |
| OllirStmt.StmtArgsPassKept | src/main/pt/up/fe/comp2024/optimization/OllirGeneratorVisitor.java:207-262 | exactly the arguments with a branch pass a value |
| OllirStmt.StmtArgs | src/main/pt/up/fe/comp2024/optimization/OllirGeneratorVisitor.java:147-262 | the argument loop's code is sound in its counter window |
| OllirStmt.StmtCallee | src/main/pt/up/fe/comp2024/optimization/OllirGeneratorVisitor.java:116-145 | defined exactly for a typed, named receiver; `invokestatic` exactly when the receiver's name is its type's; the return type spelled from the table |
| OllirStmt.StmtKind | src/main/pt/up/fe/comp2024/optimization/OllirGeneratorVisitor.java:116-123 | `invokestatic` exactly when the receiver is named as its type |
| OllirStmt.StmtCall | src/main/pt/up/fe/comp2024/optimization/OllirGeneratorVisitor.java:113-272 | corrected call statement: sound |
| OllirStmt.StmtCallAsWritten | src/main/pt/up/fe/comp2024/optimization/OllirGeneratorVisitor.java:113-272 | as written: sound, with the unallocated varargs name |
| OllirStmt.StmtCallInvocation | src/main/pt/up/fe/comp2024/optimization/OllirGeneratorVisitor.java:113-272 | kind and return type; without varargs exactly the kept arguments |
| OllirStmt.StmtCallPacksVarargs | src/main/pt/up/fe/comp2024/optimization/OllirExprGeneratorVisitor.java:300-312 | corrected: kept leading arguments, then the array the code allocates and fills |
| OllirStmt.StmtCallAsWrittenInvocation | src/main/pt/up/fe/comp2024/optimization/OllirGeneratorVisitor.java:147-200 | as written: an uncreated varargs name first, then only leading arguments |
| OllirStmt.SumCallAsWritten | src/main/pt/up/fe/comp2024/optimization/OllirGeneratorVisitor.java:147-200 | `this.sum(1, 2);` loses both arguments and passes an array nothing creates |
| OllirStmt.StmtExpr | src/main/pt/up/fe/comp2024/optimization/OllirGeneratorVisitor.java:508-517 | corrected: an expression statement emits only its calls' code; sound |
| OllirStmt.LowerStmt | src/main/pt/up/fe/comp2024/optimization/OllirGeneratorVisitor.java:42-57 | corrected: every statement lowers to sound code |
| OllirStmt.LowerBlock | src/main/pt/up/fe/comp2024/optimization/OllirGeneratorVisitor.java:508-517 | corrected: a block's statements, in order; sound |
| OllirStmt.LowerAssign | src/main/pt/up/fe/comp2024/optimization/OllirGeneratorVisitor.java:284-349 | a field target gives `putfield`, others a store by name after the value; sound |
| OllirStmt.LowerReturn | src/main/pt/up/fe/comp2024/optimization/OllirGeneratorVisitor.java:351-375 | the value, then `ret` typed by the method's return type |
| OllirStmt.LowerIf | src/main/pt/up/fe/comp2024/optimization/OllirGeneratorVisitor.java:59-89 | corrected: three labels taken first, branches wrapped; sound |
| OllirStmt.IfSkeletonSound | src/main/pt/up/fe/comp2024/optimization/OllirGeneratorVisitor.java:59-89 | three distinct labels, every jump lands on one |
| OllirStmt.IfSound | src/main/pt/up/fe/comp2024/optimization/OllirGeneratorVisitor.java:59-89 | corrected: the whole `if` code is sound |
| OllirStmt.LowerWhile | src/main/pt/up/fe/comp2024/optimization/OllirGeneratorVisitor.java:91-111 | corrected loop: condition lowered afresh for the bottom test; sound |
| OllirStmt.WhileSound | src/main/pt/up/fe/comp2024/optimization/OllirGeneratorVisitor.java:91-111 | the corrected loop code is sound |
| OllirStmt.LowerWhileAsWritten | src/main/pt/up/fe/comp2024/optimization/OllirGeneratorVisitor.java:91-111 | as written: the condition's text emitted twice |
| OllirStmt.WhileAsWrittenRepeatsLabels | src/main/pt/up/fe/comp2024/optimization/OllirGeneratorVisitor.java:91-111 | a condition that defines labels makes the loop define them twice |
| OllirStmt.AndLoopAsWrittenClashes | src/main/pt/up/fe/comp2024/optimization/OllirGeneratorVisitor.java:91-111 | `while (true && false) {}` defines `true_N` twice as written |
| OllirStmt.AndLoopCorrectedSound | src/main/pt/up/fe/comp2024/optimization/OllirGeneratorVisitor.java:91-111 | the corrected loop lowers that statement soundly |
| OllirStmt.EmptyBlock | src/main/pt/up/fe/comp2024/optimization/OllirGeneratorVisitor.java:508-517 | an empty block emits nothing |
| OllirClass.ParamCode | src/main/pt/up/fe/comp2024/optimization/OllirGeneratorVisitor.java:377-384 | the parameter's name then its type spelling |
| OllirClass.ParamCodes | src/main/pt/up/fe/comp2024/optimization/OllirGeneratorVisitor.java:403-410 | one code per parameter, in order |
| OllirClass.Statements | src/main/pt/up/fe/comp2024/optimization/OllirGeneratorVisitor.java:419-427 | only statements, never more than the items |
| OllirClass.LowerBody | src/main/pt/up/fe/comp2024/optimization/OllirGeneratorVisitor.java:419-427 | corrected: a method body lowers soundly |
| OllirClass.BodySkipsDecls | src/main/pt/up/fe/comp2024/optimization/OllirGeneratorVisitor.java:419-427 | local declarations emit nothing and take no counter |
| OllirClass.LowerMethod | src/main/pt/up/fe/comp2024/optimization/OllirGeneratorVisitor.java:386-437 | corrected: a method succeeds exactly when its body does; sound |
| OllirClass.MethodEnding | src/main/pt/up/fe/comp2024/optimization/OllirGeneratorVisitor.java:413-431 | exactly a `.V` method ends with `ret.V` after its statements |
| OllirClass.VoidSpelling | src/main/pt/up/fe/comp2024/optimization/OptUtils.java:42-71 | exactly `void` and a class `V`, not arrays, are spelled `.V` |
| OllirClass.AllMatchAt | src/main/pt/up/fe/comp2024/optimization/OllirGeneratorVisitor.java:443-480 | members match their codes position by position |
| OllirClass.LowerMembers | src/main/pt/up/fe/comp2024/optimization/OllirGeneratorVisitor.java:443-480 | corrected: one matching code per member; all method bodies sound together |
| OllirClass.LowerProgram | src/main/pt/up/fe/comp2024/optimization/OllirGeneratorVisitor.java:490-506 | corrected: succeeds exactly when the members do; the class's code is sound |
| OllirClass.ProgramShape | src/main/pt/up/fe/comp2024/optimization/OllirGeneratorVisitor.java:443-506 | imports in order, the table's class name, `extends` exactly for a named super, one matching member per member |
| JasminUtils.Update | src/main/pt/up/fe/comp2024/backend/MyJasminUtils.java:265-268 | the pointer moves by the increment, the mark never falls and covers the pointer |
| JasminUtils.HighWater | src/main/pt/up/fe/comp2024/backend/MyJasminUtils.java:265-273 | the mark from zero is never negative |
| JasminUtils.TrackIsHighWater | src/main/pt/up/fe/comp2024/backend/MyJasminUtils.java:265-273 | the tracker's closed form: pointer plus sum, mark raised to the highest pointer |
| JasminUtils.TrackAppend | src/main/pt/up/fe/comp2024/backend/MyJasminUtils.java:265-268 | tracking two runs is tracking their concatenation |
| JasminUtils.HighWaterIsMaxPrefix | src/main/pt/up/fe/comp2024/backend/MyJasminUtils.java:265-273 | the mark is the maximum prefix sum, reached by some prefix |
| JasminUtils.LocalsNum | src/main/pt/up/fe/comp2024/backend/MyJasminUtils.java:255-263 | the distinct registers, register 0 always counted |
| JasminUtils.LocalsCoverContiguous | src/main/pt/up/fe/comp2024/backend/MyJasminUtils.java:255-263 | gap-free registers from 0 fit in the counted frame |
| JasminUtils.VarNumber | src/main/pt/up/fe/comp2024/backend/MyJasminUtils.java:82-88 | `_0` for `this`; the short form exactly for registers up to 3; a missing variable fails |
| JasminUtils.VarNumberDistinct | src/main/pt/up/fe/comp2024/backend/MyJasminUtils.java:82-88 | different registers give different suffixes |
| JasminUtils.SolveType | src/main/pt/up/fe/comp2024/backend/MyJasminUtils.java:63-80 | no report exactly for types with a descriptor |
| JasminUtils.ConvertClassName | src/main/pt/up/fe/comp2024/backend/MyJasminUtils.java:78-80 | `this` is the class being generated; any other name is kept |
| JasminUtils.SolveTypes | src/main/pt/up/fe/comp2024/backend/MyJasminUtils.java:198-210 | no report exactly when every type has a descriptor |
| JasminUtils.MethodDescriptor | src/main/pt/up/fe/comp2024/backend/MyJasminUtils.java:198-210 | starts with `(`; no report exactly when the return and every parameter type have a descriptor |
| JasminUtils.IndexOf | src/main/pt/up/fe/comp2024/backend/MyJasminUtils.java:63-76 | not a source operation: a helper of the reference decoder that reads back the descriptors `solveType` writes; it finds the first position holding the character, none when absent |
| JasminUtils.DescriptorRoundTrip | src/main/pt/up/fe/comp2024/backend/MyJasminUtils.java:63-80 | a field descriptor reads back as its type and leaves the rest |
| JasminUtils.StringDescriptorRoundTrip | src/main/pt/up/fe/comp2024/backend/MyJasminUtils.java:63-76 | the string descriptor reads back as `String` |
| JasminUtils.ClassDescriptorRoundTrip | src/main/pt/up/fe/comp2024/backend/MyJasminUtils.java:63-76 | `L<c>;` reads back as class `c` |
| JasminUtils.DescriptorsRoundTrip | src/main/pt/up/fe/comp2024/backend/MyJasminUtils.java:198-210 | parameter descriptors read back in order |
| JasminUtils.MethodDescriptorRoundTrip | src/main/pt/up/fe/comp2024/backend/MyJasminUtils.java:198-210 | a method descriptor reads back as its parameter and return types |
| JasminUtils.Store | src/main/pt/up/fe/comp2024/backend/MyJasminUtils.java:102-122 | succeeds exactly for a variable in the table |
| JasminUtils.StoreTracksJvm | src/main/pt/up/fe/comp2024/backend/MyJasminUtils.java:102-122 | one store line whose tracked delta is the JVM's effect; `iastore` exactly for int-like values into array variables |
| JasminUtils.BinOpcode | src/main/pt/up/fe/comp2024/backend/MyJasminUtils.java:220-236 | an opcode exactly for the eight handled operations |
| JasminUtils.BinOpcodeInjective | src/main/pt/up/fe/comp2024/backend/MyJasminUtils.java:220-236 | different operations get different opcodes |
| JasminUtils.OpcodeText | src/main/pt/up/fe/comp2024/backend/MyJasminUtils.java:220-236 | the opcode of a handled operation; `ERROR` exactly for the others |
| JasminUtils.AccessText | src/main/pt/up/fe/comp2024/backend/MyJasminUtils.java:35-38 | ends in a space; `protected ` exactly for protected and package-private access |
| JasminUtils.Reclaim | src/main/pt/up/fe/comp2024/backend/MyJasminUtils.java:124-196 | the slots given back: none for `invokespecial`, argc - 1 for `invokestatic`, argc for `invokevirtual`, argc - 2 for `new` of an object or array, none otherwise |
| JasminUtils.Skeleton | src/main/pt/up/fe/comp2024/backend/MyJasminUtils.java:238-249 | six lines: branch, `ldc 0`, `goto MySkipN`, `MyLabelN`, `ldc 1`, `MySkipN` |
| JasminUtils.SkeletonMarks | src/main/pt/up/fe/comp2024/backend/MyJasminUtils.java:238-249 | the two labels sit at lines 3 and 5 |
| JasminUtils.SkeletonComputes | src/main/pt/up/fe/comp2024/backend/MyJasminUtils.java:238-249 | the skeleton replaces the operands by 1 when the branch jumps and 0 otherwise |
| JasminGen.FreshMarksAppend | src/main/pt/up/fe/comp2024/backend/MyJasminUtils.java:238-249 | lines from consecutive label windows define distinct labels |
| JasminGen.SkeletonFresh | src/main/pt/up/fe/comp2024/backend/MyJasminUtils.java:238-249 | a skeleton defines exactly `MyLabelN` and `MySkipN` |
| JasminGen.LiteralCode | src/main/pt/up/fe/comp2024/backend/JasminGenerator.java:267-279 | one `ldc` line pushing one value; its argument is `m1` exactly for -1 |
| JasminGen.LiteralCodeInjective | src/main/pt/up/fe/comp2024/backend/JasminGenerator.java:267-279 | different literals load different constants |
| JasminGen.OperandCode | src/main/pt/up/fe/comp2024/backend/JasminGenerator.java:280-308 | `this` is `aload_0`; a typed variable is `iload` or `aload` with its register suffix and fails exactly when the variable is missing; a class or void operand is reported with no line |
| JasminGen.ArrayOperandCode | src/main/pt/up/fe/comp2024/backend/JasminGenerator.java:172-182 | reference and index leave one net value |
| JasminGen.Load | src/main/pt/up/fe/comp2024/backend/MyJasminUtils.java:90-100 | a recognized element leaves one more value |
| JasminGen.Apply | src/main/pt/up/fe/comp2024/backend/JasminGenerator.java:327-337 | the same without the element read |
| JasminGen.LoadAll | src/main/pt/up/fe/comp2024/backend/MyJasminUtils.java:198-210 | recognized elements leave one value each |
| JasminGen.ArrayDest | src/main/pt/up/fe/comp2024/backend/JasminGenerator.java:192-210 | an array destination pushes reference and index |
| JasminGen.EmitAssign | src/main/pt/up/fe/comp2024/backend/JasminGenerator.java:192-210 | labels fresh in the counter window |
| JasminGen.AssignBalanced | src/main/pt/up/fe/comp2024/backend/JasminGenerator.java:192-210 | an assignment leaves the tracked pointer where it was |
| JasminGen.BinaryOpLines | src/main/pt/up/fe/comp2024/backend/JasminGenerator.java:310-325 | corrected: exactly `<` and `>=` take one label window |
| JasminGen.EmitBinaryOp | src/main/pt/up/fe/comp2024/backend/JasminGenerator.java:310-325 | corrected: defined exactly when both operands load; their lines then the operator's lines; exactly `<` and `>=` take a label; net one value |
| JasminGen.BinaryOpComputes | src/main/pt/up/fe/comp2024/backend/JasminGenerator.java:310-325 | corrected `<` replaces its operands by whether `a < b` |
| JasminGen.BinaryOpAsWrittenStuck | src/main/pt/up/fe/comp2024/backend/JasminGenerator.java:310-325 | as written, `<` is an opcode without target and execution gets stuck |
| JasminGen.UnaryOpLines | src/main/pt/up/fe/comp2024/backend/JasminGenerator.java:212-222 | exactly `!` takes one label window |
| JasminGen.EmitUnaryOp | src/main/pt/up/fe/comp2024/backend/JasminGenerator.java:212-222 | exactly `!` takes a label; net one value |
| JasminGen.UnaryNotNegates | src/main/pt/up/fe/comp2024/backend/JasminGenerator.java:212-222 | `!` gives 1 exactly for 0 |
| JasminGen.ApplyBoth | src/main/pt/up/fe/comp2024/backend/JasminGenerator.java:360-405 | both operands push two values |
| JasminGen.CondCommand | src/main/pt/up/fe/comp2024/backend/JasminGenerator.java:373-384 | a compare with zero exactly when the literal looked at is 0; the chosen branch jumps exactly when the comparison holds, for the operands it compares |
| JasminGen.OpCondWith | src/main/pt/up/fe/comp2024/backend/JasminGenerator.java:360-405 | the net delta is the pushed values moved by the branch's adjustment |
| JasminGen.EmitOpCond | src/main/pt/up/fe/comp2024/backend/JasminGenerator.java:360-405 | corrected: the branch pops what the condition pushed, net zero |
| JasminGen.EmitOpCondAsWritten | src/main/pt/up/fe/comp2024/backend/JasminGenerator.java:360-405 | as written: the pointer ends 2 or 4 above where it started |
| JasminGen.OpCondDecides | src/main/pt/up/fe/comp2024/backend/JasminGenerator.java:360-405 | the emitted branch jumps exactly when the comparison holds |
| JasminGen.EmitSingleOpCond | src/main/pt/up/fe/comp2024/backend/JasminGenerator.java:250-265 | one operand pushed, no label defined |
| JasminGen.EmitGetField | src/main/pt/up/fe/comp2024/backend/JasminGenerator.java:240-248 | succeeds exactly for operand children whose object loads; net one value |
| JasminGen.EmitPutField | src/main/pt/up/fe/comp2024/backend/JasminGenerator.java:224-238 | object and value popped, net zero |
| JasminGen.FieldRef | src/main/pt/up/fe/comp2024/backend/JasminGenerator.java:230-246 | the operand names the object's class, `this` read as the class being generated, then `/`; a report exactly when the field type has no descriptor |
| JasminGen.EmitReturn | src/main/pt/up/fe/comp2024/backend/JasminGenerator.java:327-337 | a void return is one `return` line; a value return is the value's lines then `ireturn` or `areturn`, defined exactly when the value loads; a value return pushes one value |
| JasminGen.ArgTypes | src/main/pt/up/fe/comp2024/backend/MyJasminUtils.java:198-210 | each argument's type, in order |
| JasminGen.Receiver | src/main/pt/up/fe/comp2024/backend/MyJasminUtils.java:182-196 | requires a first operand, pushes one value |
| JasminGen.SpecialOwnerAsWritten | src/main/pt/up/fe/comp2024/backend/MyJasminUtils.java:151-166 | as written, a void `<init>` names the class being generated |
| JasminGen.SpecialOwner | src/main/pt/up/fe/comp2024/backend/MyJasminUtils.java:151-166 | corrected: an object receiver's own class |
| JasminGen.SpecialOwnerAsWrittenMisnames | src/main/pt/up/fe/comp2024/backend/MyJasminUtils.java:40-44 | `new B()` in class `A` runs `A`'s constructor as written, `B`'s corrected |
| JasminGen.CallCode | src/main/pt/up/fe/comp2024/backend/JasminGenerator.java:339-358 | corrected: a recognized call's net delta is its effect plus the reclaimed slots |
| JasminGen.InvokeLine | src/main/pt/up/fe/comp2024/backend/MyJasminUtils.java:168-196 | the invoke line moves nothing and defines no label |
| JasminGen.EmitCall | src/main/pt/up/fe/comp2024/backend/JasminGenerator.java:339-358 | corrected: a recognized call moves the pointer by its net effect |
| JasminGen.DroppedCallBalanced | src/main/pt/up/fe/comp2024/backend/JasminGenerator.java:155-160 | `pop` after an unused value leaves the pointer balanced |
| JasminGen.Dropped | src/main/pt/up/fe/comp2024/backend/JasminGenerator.java:155-160 | a non-void call is followed by one `pop` giving its slot back; anything else by nothing |
| JasminGen.EmitPlain | src/main/pt/up/fe/comp2024/backend/JasminGenerator.java:184-190 | corrected: no backend label defined |
| JasminGen.Emit | src/main/pt/up/fe/comp2024/backend/JasminGenerator.java:43-58 | corrected: labels numbered fresh from the counter, which only moves forward |
| JasminGen.LabelsAt | src/main/pt/up/fe/comp2024/backend/JasminGenerator.java:143-148 | corrected: every label marking the instruction is defined |
| JasminGen.FirstLabelAt | src/main/pt/up/fe/comp2024/backend/JasminGenerator.java:143-148 | as written: at most one label per instruction |
| JasminGen.BodyFrom | src/main/pt/up/fe/comp2024/backend/JasminGenerator.java:139-170 | corrected: the body's backend labels are fresh |
| JasminGen.BodyDefinesLabels | src/main/pt/up/fe/comp2024/backend/JasminGenerator.java:139-170 | the corrected body defines every label marking one of its instructions |
| JasminGen.StackLimit | src/main/pt/up/fe/comp2024/backend/JasminGenerator.java:165-167 | the stack limit is the maximum prefix sum of the method's deltas |
| JasminGen.MethodBody | src/main/pt/up/fe/comp2024/backend/JasminGenerator.java:139-170 | corrected body, labels fresh |
| JasminGen.MethodBodyAsWritten | src/main/pt/up/fe/comp2024/backend/JasminGenerator.java:139-170 | body as written, labels fresh |
| JasminGen.MethodBlock | src/main/pt/up/fe/comp2024/backend/JasminGenerator.java:115-170 | corrected: succeeds exactly when the body does; labels fresh |
| JasminGen.MethodLayout | src/main/pt/up/fe/comp2024/backend/JasminGenerator.java:115-170 | head, the limits from the body's maximum prefix sum and distinct registers, the body, `.end method` |
| JasminGen.MethodHead | src/main/pt/up/fe/comp2024/backend/JasminGenerator.java:119-137 | starts with `.method `; a report exactly when the return or a parameter type has no descriptor |
| JasminGen.LabelLostAsWritten | src/main/pt/up/fe/comp2024/backend/JasminGenerator.java:143-148 | for any two different labels on one instruction, as written the jump to the second has no target and the JVM semantics gets stuck |
| JasminGen.LabelsKept | src/main/pt/up/fe/comp2024/backend/JasminGenerator.java:143-148 | for any two different labels on one instruction, corrected, both are defined and the jump lands on the second |
| JasminGen.FieldLines | src/main/pt/up/fe/comp2024/backend/JasminGenerator.java:88-93 | one `.field` line per field, in order |
| JasminGen.NonConstruct | src/main/pt/up/fe/comp2024/backend/JasminGenerator.java:103 | exactly the methods that are not constructors |
| JasminGen.NonConstructAppend | src/main/pt/up/fe/comp2024/backend/JasminGenerator.java:103 | the kept methods stay in their order: filtering two runs is filtering each in turn |
| JasminGen.MethodsFrom | src/main/pt/up/fe/comp2024/backend/JasminGenerator.java:105-109 | corrected: the counter passes on, labels fresh across methods |
| JasminGen.ClassCode | src/main/pt/up/fe/comp2024/backend/JasminGenerator.java:79-112 | corrected: succeeds exactly when the methods do; backend labels distinct across the class |
| JasminGen.HeaderFresh | src/main/pt/up/fe/comp2024/backend/JasminGenerator.java:79-101 | the header defines no label |
| JasminGen.FieldLine | src/main/pt/up/fe/comp2024/backend/JasminGenerator.java:88-93 | starts with `.field `; a report exactly when the field type has no descriptor |
| JasminGen.SuperName | src/main/pt/up/fe/comp2024/backend/JasminGenerator.java:81-85 | `java/lang/Object` for a missing, empty or `Object` superclass, the superclass otherwise |
| JasminGen.ClassLayout | src/main/pt/up/fe/comp2024/backend/JasminGenerator.java:79-112 | class name, super, fields in order, the default constructor, then the methods |
| JasminGen.Build | src/main/pt/up/fe/comp2024/backend/JasminGenerator.java:68-76 | corrected: the code is cached and the first build succeeds exactly when class generation does |
| JasminGen.BuildIdempotent | src/main/pt/up/fe/comp2024/backend/JasminGenerator.java:68-76 | building twice changes nothing |

## Left out

- The visitor framework (`PreorderJmmVisitor`, `addVisit`) is not modelled. Each pass is a function over the nodes it visits.
- Which nodes the visitor reaches is not modelled either. The passes are stated per node.
- The expression visitor's re-walk is not modelled. `OllirExprGeneratorVisitor` extends `PreorderJmmVisitor` (OllirExprGeneratorVisitor.java:17). That framework class is not part of this model. After a registered visit it walks the node's children again and discards the results, and `getTemp`/`getLabel` advance during that walk too. So the Java code's temp and label numbers can run ahead of the model's: for `a + b + c` lowered from fresh counters the model ends with temp 2, and the Java code ends higher. `Sound` and `Fresh` are stated for the numbers the model assigns, not for the Java code's exact numbers.
- Two arrays can get the same name, and this is not modelled. An array literal is named `__varargs_array_N` from the label counter (OllirExprGeneratorVisitor.java:93). A packed varargs array gets the same prefix from the temp counter (OllirExprGeneratorVisitor.java:304). `VarargsTemp` and `LiteralArray` render alike, and `Fresh` tracks only `Temp` destinations. So when the two counters coincide, the model does not record that one array can overwrite the other, for example in `sum([1], 2)` against `int sum(int[] a, int... b)`.
- Jmm.NameAttr: the grammar is not part of this model. It is assumed to give a `this` expression the `name` attribute "this", as it does variable references. No cited line reads a name from `this`. If the grammar gives `this` no name, `this.f()` crashes in `Need` and `OllirStmt.StmtCallee` is undefined for it, where the model lowers the call.
- Text parsing is left out. This covers the grammar, the OLLIR parser, and `StringLines` splitting and indentation.
- Line and column numbers of reports are left out. A report is a stage plus a message kind.
- The OLLIR library's `toString` texts are not modelled. Call class and method names come from the instruction record.
- The OLLIR and Jasmin output is structured lines, not exact text. Whitespace and newlines are not modelled.
- `OllirExpr.LowerFieldAccess`: the Java code writes the field-style length as `arraylength(x.array.i32).i32.i32`, with the type suffix twice (OllirExprGeneratorVisitor.java:53). The model's `LengthOf` does not record the doubled suffix.
- Labels are in the label map's iteration order. Java's `HashMap` order is not modelled.
- The other analysis passes (`Duplicates`, `UndeclaredVariable`, `ThisUsageCheck`, `VarArgsUsageCheck`, `BooleanStatements`) are not modelled. They are context, not core.
- The symbol table builder is taken as an immutable record. Missing per-method entries read as empty lists.
- Four tracker behaviours are modelled as written:
  - `ldc -1` is written `ldc m1`.
  - `generateSingleOpCond` has no stack update.
  - A `new` is tracked as +2 against the JVM's +1.
  - A void call is tracked as +1.
- `>` is modelled as written: a bare `if_icmpgt` without skeleton.
- `Apply` on an array element in returns and in conditions omits `iaload`, as written.
- A non-void, non-object `invokespecial` return type makes `solveObjectClass` throw (MyJasminUtils.java:40-44). The type's text has no parentheses, so `substring` gets the end index -1. It is modelled as `Crash`.
- The OLLIR class name is taken equal to the table's class name.
- OllirGen's dangling field-assign text is modelled as an assignment with no right-hand side.
- JasminGen.AssignBalanced: stated only for assignment shapes whose destination agrees with its declaration.
- JasminGen.EmitSingleOpCond: the net delta is stated only for a single-operand condition, since other kinds are reported.
- OllirStmt.StmtExpr: models the corrected program; it lowers calls with StmtCall, whose as-written twin is StmtCallAsWritten.
- OllirStmt.LowerStmt: models the corrected program; it uses LowerWhile and StmtCall, whose as-written twins are LowerWhileAsWritten and StmtCallAsWritten.
- OllirStmt.LowerBlock: models the corrected program, through LowerStmt.
- OllirStmt.LowerIf: models the corrected program, through LowerStmt on its branches.
- OllirStmt.IfSound: states soundness of the corrected `if` code, through LowerStmt.
- OllirClass.LowerBody: models the corrected program, through LowerStmt.
- OllirClass.LowerMethod: models the corrected program, through LowerBody.
- OllirClass.LowerMembers: models the corrected program, through LowerMethod.
- OllirClass.LowerProgram: models the corrected program, through LowerMembers.
- MethodCallCheck.VisitMethodCall: models the corrected program; it uses CheckMethodCallParams, whose as-written twin is CheckParamsAsWritten.
- JasminGen.EmitBinaryOp: models the corrected program; it uses BinaryOpLines, whose as-written twin is BinaryOpLinesAsWritten.
- JasminGen.CallCode: models the corrected program; it uses SpecialOwner, whose as-written twin is SpecialOwnerAsWritten.
- JasminGen.EmitCall: models the corrected program, through CallCode.
- JasminGen.EmitPlain: models the corrected program; it uses EmitOpCond, whose as-written twin is EmitOpCondAsWritten.
- JasminGen.Emit: models the corrected program, through EmitPlain and EmitBinaryOp.
- JasminGen.BodyFrom: models the corrected program, through Emit and LabelsAt.
- JasminGen.MethodBlock: models the corrected program; it uses MethodBody, whose as-written twin is MethodBodyAsWritten.
- JasminGen.MethodBodyAsWritten: writes only the first label as written, but emits instructions through the corrected Emit.
- JasminGen.MethodsFrom: models the corrected program, through MethodBlock.
- JasminGen.ClassCode: models the corrected program, through MethodsFrom.
- JasminGen.Build: models the corrected program, through ClassCode.

## Findings

| source | as written | input that shows it | evidently intended | confidence | as-written member | corrected member |
|---|---|---|---|---|---|---|
| src/main/pt/up/fe/comp2024/analysis/passes/MethodCallCheck.java:79-97 | the guard compares the child count with `i + 1`, so it reads the child after the last argument | `foo()` against `foo(int a)` | report "fewer arguments" | high, not executed | MethodCallCheck.CheckParamsAsWritten, MethodCallCheck.MissingArgumentCrashesAsWritten | MethodCallCheck.CheckMethodCallParams |
| src/main/pt/up/fe/comp2024/optimization/OllirGeneratorVisitor.java:91-111 | the condition's code is built once and emitted twice | `while (true && false) {}` defines `true_N` twice | lower the condition again for the bottom test | high, not executed | OllirStmt.LowerWhileAsWritten, OllirStmt.AndLoopAsWrittenClashes | OllirStmt.LowerWhile, OllirStmt.AndLoopCorrectedSound |
| src/main/pt/up/fe/comp2024/optimization/OllirGeneratorVisitor.java:147-200 | a varargs call statement passes a `__varargs_array_` nothing creates and drops the trailing arguments | `this.sum(1, 2);` with `int sum(int... a)` | pack the trailing arguments as the expression lowering does | high, not executed | OllirStmt.StmtCallAsWritten, OllirStmt.SumCallAsWritten | OllirStmt.StmtCall, OllirStmt.StmtCallPacksVarargs |
| src/main/pt/up/fe/comp2024/backend/JasminGenerator.java:360-405 | the stack pointer goes up by 2 (or 1) after the branch that pops the compared values | `if (a < b)` leaves the tracked pointer 4 above its start | subtract what the branch pops | high, not executed | JasminGen.EmitOpCondAsWritten | JasminGen.EmitOpCond |
| src/main/pt/up/fe/comp2024/backend/JasminGenerator.java:310-325 | the comparison opcode and its target label land on separate lines | `a < b` as a value | one `if_icmplt MyLabelN` line | high, not executed | JasminGen.BinaryOpLinesAsWritten, JasminGen.BinaryOpAsWrittenStuck | JasminGen.BinaryOpLines, JasminGen.BinaryOpComputes |
| src/main/pt/up/fe/comp2024/backend/JasminGenerator.java:143-148 | only the first label marking an instruction is written | two different labels `la` and `lb` on one instruction, `goto lb` | write every label | high, not executed | JasminGen.MethodBodyAsWritten, JasminGen.LabelLostAsWritten | JasminGen.MethodBody, JasminGen.LabelsKept |
| src/main/pt/up/fe/comp2024/backend/MyJasminUtils.java:151-166 | `invokespecial` names the class from `<init>`'s void return, which becomes the class being generated | `new B()` inside class `A` | the receiver's class | medium, not executed | JasminGen.SpecialOwnerAsWritten, JasminGen.SpecialOwnerAsWrittenMisnames | JasminGen.SpecialOwner |

=== FILE: analysis.dfy ===
/**
 * AnalysisVisitor: the expression typing shared by every semantic pass.
 *
 * A type here is a `SemType`: a real source type, `Unknown` (Java `null`, "could not be
 * typed"), or `Foreign`, the placeholder the analysis invents for values it cannot see
 * into (results of calls on imported classes or on the superclass). In the Java code the
 * placeholder is an ordinary `Type` whose name is `ForeignName`; `FromJava` and `ToJava`
 * translate between the two views and are inverse to each other.
 *
 * Typing has side effects: typing an array literal checks that its elements agree and adds
 * a report when they do not. Every typing function therefore returns the reports it adds,
 * in the order the Java code adds them.
 */
module Analysis {
  import opened Wrappers
  import opened Jmm
  import opened Reports

  /** The placeholder type name for values of classes the analysis cannot see into. */
  const ForeignName := "yodaPotatoDestroyer2024GigaSpecific"

  datatype SemType = Unknown | Known(t: Type) | Foreign(isArray: bool)
  {
    /** A known type never uses the placeholder name. */
    predicate Valid() { Known? ==> t.name != ForeignName }
  }

  /** `getName()` of the Java type; a null type has none. */
  function NameOf(s: SemType): string
    requires !s.Unknown?
  {
    if s.Known? then s.t.name else ForeignName
  }

  /** `isArray()` of the Java type; a null type has none. */
  function IsArrayOf(s: SemType): bool
    requires !s.Unknown?
  {
    if s.Known? then s.t.isArray else s.isArray
  }

  /** The analysis' reading of a (nullable) Java type. */
  function FromJava(o: Option<Type>): (s: SemType)
    ensures s.Valid()
    ensures o.None? <==> s.Unknown?
    ensures o.Some? ==> NameOf(s) == o.value.name && IsArrayOf(s) == o.value.isArray
  {
    match o
    case None => Unknown
    case Some(t) => if t.name == ForeignName then Foreign(t.isArray) else Known(t)
  }

  /** The Java type a `SemType` stands for. */
  function ToJava(s: SemType): (o: Option<Type>)
    ensures o.None? <==> s.Unknown?
    ensures o.Some? ==> o.value == Type(NameOf(s), IsArrayOf(s))
  {
    match s
    case Unknown => None
    case Known(t) => Some(t)
    case Foreign(a) => Some(Type(ForeignName, a))
  }

  /** The two views of a type are in one-to-one correspondence. */
  lemma JavaViewRoundTrip(o: Option<Type>, s: SemType)
    ensures ToJava(FromJava(o)) == o
    ensures s.Valid() ==> FromJava(ToJava(s)) == s
  {
  }

  /** A type with the same name and the given array flag (`new Type(x.getName(), flag)`). */
  function WithArray(s: SemType, isArray: bool): (r: SemType)
    requires !s.Unknown?
    ensures !r.Unknown? && NameOf(r) == NameOf(s) && IsArrayOf(r) == isArray
    ensures s.Valid() ==> r.Valid()
  {
    match s
    case Known(t) => Known(Type(t.name, isArray))
    case Foreign(_) => Foreign(isArray)
  }

  /** The type a `Type` node denotes; the varargs flag is ignored. */
  function TypeNodeType(tn: TypeNode): (s: SemType)
    ensures s.Valid()
    ensures ToJava(s) == Some(Type(tn.name, tn.isArray))
  {
    FromJava(Some(Type(tn.name, tn.isArray)))
  }

  /** Java's `String.isBlank` for the ASCII whitespace an identifier list can hold. */
  predicate IsBlank(s: string)
  {
    forall i :: 0 <= i < |s| ==> s[i] in {' ', '\t', '\n', '\r', '\U{000B}', '\U{000C}'}
  }

  /** Where an expression is typed: the symbol table, the class's methods, the enclosing method. */
  datatype Scope = Scope(table: SymbolTable, classMethods: seq<MethodDecl>, decl: MethodDecl)

  /** A typing result and the reports produced while computing it. */
  datatype Typed = Typed(typ: SemType, reports: seq<Report>)

  /** A check's verdict and the reports produced while computing it. */
  datatype Checked = Checked(ok: bool, reports: seq<Report>)

  const ArithOps: set<string> := {"+", "-", "/", "*"}

  function Unreported(s: SemType): Typed { Typed(s, []) }

  /** Typing only ever reports disagreeing array-literal elements. */
  predicate OnlyMismatchReports(rs: seq<Report>)
  {
    forall k :: 0 <= k < |rs| ==> rs[k] == Sem(ArrayElementsNotSameType)
  }

  /** The unreported typing of an expression whose Java type is `t`. */
  function JavaTyped(t: Type): (r: Typed)
    ensures r.reports == [] && r.typ.Valid() && ToJava(r.typ) == Some(t)
  {
    var s := FromJava(Some(t));
    JavaViewRoundTrip(Some(t), s);
    Unreported(s)
  }

  /**
   * `getType`. Literals, negation and field reads have fixed types; an arithmetic
   * operator gives `int` and every other operator `boolean`; an indexing node gives the
   * element type (or Unknown when the base is not an array); an array literal is an array
   * of its first element's type when all elements agree, and Unknown otherwise.
   */
  function GetType(env: Scope, e: Expr): (r: Outcome<Typed>)
    ensures r.Ok? ==> OnlyMismatchReports(r.value.reports)
    ensures r.Ok? ==> r.value.typ.Valid()
    ensures e.IntegerLiteral? || e.FieldAccess? ==> r == Ok(Unreported(Known(IntType)))
    ensures e.BooleanLiteral? || e.Not? ==> r == Ok(Unreported(Known(BoolType)))
    ensures e.BinaryExpr? ==> r == Ok(Unreported(Known(if e.op in ArithOps then IntType else BoolType)))
    ensures e.ArrayLength? ==> r == Ok(Unreported(Unknown))
    ensures e.VarRefExpr? ==> r == GetVarType(env, e)
    ensures e.FunctionCallExpr? ==> r == ManageFunctionCall(env, e)
    ensures e.NewObjectExpr? ==> r.Ok? && r.value.reports == [] && ToJava(r.value.typ) == Some(Type(e.className, false))
    ensures e.NewVectorExpr? ==> r.Ok? && r.value.reports == [] && ToJava(r.value.typ) == Some(Type(e.elemType.name, true))
    ensures e.ThisExpr? ==> r.Ok? && r.value.reports == [] && ToJava(r.value.typ) == Some(Type(env.table.className, false))
    decreases e, 3, 0
  {
    match e
    case IntegerLiteral(_) => Ok(Unreported(Known(IntType)))
    case FieldAccess(_, _) => Ok(Unreported(Known(IntType)))
    case BooleanLiteral(_) => Ok(Unreported(Known(BoolType)))
    case Not(_) => Ok(Unreported(Known(BoolType)))
    case VarRefExpr(_) => GetVarType(env, e)
    case BinaryExpr(op, _, _) => Ok(Unreported(Known(if op in ArithOps then IntType else BoolType)))
    case ParenthesesExpr(x) => GetType(env, x)
    case ArrayAccess(a, _) =>
      var base :- GetType(env, a);
      Ok(Typed(if !base.typ.Unknown? && IsArrayOf(base.typ) then WithArray(base.typ, false) else Unknown, base.reports))
    case NewObjectExpr(n) => Ok(JavaTyped(Type(n, false)))
    case NewVectorExpr(tn, _) => Ok(JavaTyped(Type(tn.name, true)))
    case ThisExpr => Ok(JavaTyped(Type(env.table.className, false)))
    case FunctionCallExpr(_, _, _) => ManageFunctionCall(env, e)
    case AccessExpr(a, _) =>
      var base :- GetType(env, a);
      if base.typ.Unknown? then Crash(NullType) else Ok(Typed(WithArray(base.typ, false), base.reports))
    case ElementExpr(elems) =>
      var same :- CheckArraySameType(env, e);
      if !same.ok then Ok(Typed(Unknown, same.reports))
      else
        var first :- GetType(env, elems[0]);
        if first.typ.Unknown? then Crash(NullType)
        else Ok(Typed(WithArray(first.typ, true), same.reports + first.reports))
    case ArrayLength(_) => Ok(Unreported(Unknown))
  }

  /** Parentheses are transparent to typing. */
  lemma GetTypeParentheses(env: Scope, e: Expr)
    requires e.ParenthesesExpr?
    ensures GetType(env, e) == GetType(env, e.inner)
  {
  }

  /**
   * Both indexing forms give the element type of the indexed value: the alternative
   * production gives Unknown when that value is not an array, while `a[i]` only requires
   * the value to be typed at all.
   */
  lemma GetTypeIndexing(env: Scope, e: Expr)
    requires e.ArrayAccess? || e.AccessExpr?
    ensures GetType(env, e.arr).Crash? ==> GetType(env, e).Crash?
    ensures e.ArrayAccess? && GetType(env, e.arr).Ok? ==>
      var base, r := GetType(env, e.arr).value, GetType(env, e);
      r.Ok? && r.value.reports == base.reports &&
      (if !base.typ.Unknown? && IsArrayOf(base.typ) then ToJava(r.value.typ) == Some(Type(NameOf(base.typ), false))
       else r.value.typ.Unknown?)
    ensures e.AccessExpr? && GetType(env, e.arr).Ok? ==>
      var base, r := GetType(env, e.arr).value, GetType(env, e);
      (base.typ.Unknown? ==> r == Crash(NullType)) &&
      (!base.typ.Unknown? ==> r.Ok? && r.value.reports == base.reports && ToJava(r.value.typ) == Some(Type(NameOf(base.typ), false)))
  {
  }

  /**
   * An array literal is typed Unknown exactly when some element disagrees with the first;
   * otherwise it is an array of the first element's type.
   */
  lemma GetTypeArrayLiteral(env: Scope, e: Expr)
    requires e.ElementExpr?
    ensures GetType(env, e).Ok? ==> (GetType(env, e).value.typ.Unknown? <==> !forall j :: 0 < j < |e.elements| ==>
      GetType(env, e.elements[0]).Ok? && GetType(env, e.elements[j]).Ok? &&
      GetType(env, e.elements[j]).value.typ == GetType(env, e.elements[0]).value.typ)
    ensures GetType(env, e).Ok? && !GetType(env, e).value.typ.Unknown? ==>
      |e.elements| > 0 && GetType(env, e.elements[0]).Ok? && !GetType(env, e.elements[0]).value.typ.Unknown? &&
      ToJava(GetType(env, e).value.typ) == Some(Type(NameOf(GetType(env, e.elements[0]).value.typ), true))
  {
    CheckArraySameTypeSound(env, e);
  }

  /**
   * `getVarType`: a field read goes through `getFieldType`; a node without a `name`
   * attribute has no type; otherwise the enclosing method's parameters, then its local
   * declarations, then the class fields are searched, and the name is Unknown when none
   * declares it. A parameter declared `int...` has an array type.
   */
  function GetVarType(env: Scope, e: Expr): (r: Outcome<Typed>)
    ensures r.Ok? ==> OnlyMismatchReports(r.value.reports)
    ensures r.Ok? ==> r.value.typ.Valid()
    ensures e.FieldAccess? ==> r == GetFieldType(env, e)
    ensures !e.FieldAccess? ==> r.Ok? && r.value.reports == []
    ensures !e.FieldAccess? && NameAttr(e).None? ==> r.value.typ.Unknown?
    ensures !e.FieldAccess? && NameAttr(e).Some? ==> ToJava(r.value.typ) == FirstSymbol(VarSymbols(env), NameAttr(e).value)
    decreases e, 2, 0
  {
    if e.FieldAccess? then GetFieldType(env, e)
    else Ok(Unreported(LookupVar(env, e)))
  }

  /** A parameter or local as the name lookup reads it: an `int...` declaration is an array. */
  function DeclaredSymbol(name: string, tn: TypeNode): Symbol
  {
    Symbol(name, Type(tn.name, tn.isArray || tn.isVarArgs))
  }

  function ParamSymbols(ps: seq<Param>): (r: seq<Symbol>)
    ensures |r| == |ps| && forall i :: 0 <= i < |ps| ==> r[i] == DeclaredSymbol(ps[i].name, ps[i].typ)
  {
    seq(|ps|, i requires 0 <= i < |ps| => DeclaredSymbol(ps[i].name, ps[i].typ))
  }

  function LocalSymbols(ds: seq<VarDecl>): (r: seq<Symbol>)
    ensures |r| == |ds| && forall i :: 0 <= i < |ds| ==> r[i] == DeclaredSymbol(ds[i].name, ds[i].typ)
  {
    seq(|ds|, i requires 0 <= i < |ds| => DeclaredSymbol(ds[i].name, ds[i].typ))
  }

  /** Every name visible in the enclosing method, in lookup order: parameters, locals, fields. */
  function VarSymbols(env: Scope): seq<Symbol>
  {
    ParamSymbols(env.decl.params) + LocalSymbols(LocalDecls(env.decl.body)) + env.table.fields
  }

  /**
   * The declared type of a name reference (the non-field part of `getVarType`): the first
   * declaration of the name among the parameters, the locals and the fields, in that order.
   */
  function LookupVar(env: Scope, e: Expr): (s: SemType)
    ensures s.Valid()
    ensures NameAttr(e).None? ==> s.Unknown?
    ensures NameAttr(e).Some? ==> ToJava(s) == FirstSymbol(VarSymbols(env), NameAttr(e).value)
  {
    match NameAttr(e)
    case None => Unknown
    case Some(n) =>
      var ps, ds := env.decl.params, LocalDecls(env.decl.body);
      FirstDeclaredIsFirstMatch(ps, ds, n);
      FirstSymbolAppend(ParamSymbols(ps) + LocalSymbols(ds), env.table.fields, n);
      match FirstDeclared(ps, ds, n)
      case Some(tn) => FromJava(Some(Type(tn.name, tn.isArray || tn.isVarArgs)))
      case None => FromJava(FirstSymbol(env.table.fields, n))
  }

  /** The type node of the first parameter, and then of the first local, declaring `n`. */
  function FirstDeclared(ps: seq<Param>, ds: seq<VarDecl>, n: string): (r: Option<TypeNode>)
    ensures r.None? <==> (forall i :: 0 <= i < |ps| ==> ps[i].name != n) && (forall i :: 0 <= i < |ds| ==> ds[i].name != n)
  {
    if ps != [] then (if ps[0].name == n then Some(ps[0].typ) else FirstDeclared(ps[1..], ds, n))
    else if ds != [] then (if ds[0].name == n then Some(ds[0].typ) else FirstDeclared([], ds[1..], n))
    else None
  }

  /** `FirstDeclared` is the first match over the parameters followed by the locals. */
  lemma {:induction false} FirstDeclaredIsFirstMatch(ps: seq<Param>, ds: seq<VarDecl>, n: string)
    ensures FirstSymbol(ParamSymbols(ps) + LocalSymbols(ds), n) ==
      match FirstDeclared(ps, ds, n)
      case Some(tn) => Some(DeclaredSymbol(n, tn).typ)
      case None => None
    decreases |ps| + |ds|
  {
    var syms := ParamSymbols(ps) + LocalSymbols(ds);
    if ps != [] {
      FirstDeclaredIsFirstMatch(ps[1..], ds, n);
      assert syms[1..] == ParamSymbols(ps[1..]) + LocalSymbols(ds);
    } else if ds != [] {
      FirstDeclaredIsFirstMatch([], ds[1..], n);
      assert syms == LocalSymbols(ds);
      assert syms[1..] == ParamSymbols([]) + LocalSymbols(ds[1..]);
    } else {
      assert syms == [];
    }
  }

  /**
   * `getFieldType`: reading a field of anything but the current class gives the foreign
   * placeholder; on the current class the field's declared type, Unknown if undeclared.
   */
  function GetFieldType(env: Scope, e: Expr): (r: Outcome<Typed>)
    requires e.FieldAccess?
    ensures r.Ok? ==> OnlyMismatchReports(r.value.reports)
    ensures r.Ok? ==> r.value.typ.Valid()
    ensures GetType(env, e.obj).Crash? ==> r.Crash?
    ensures GetType(env, e.obj).Ok? ==>
      var obj := GetType(env, e.obj).value;
      (obj.typ.Unknown? ==> r == Crash(NullType)) &&
      (!obj.typ.Unknown? ==>
        r.Ok? && r.value.reports == obj.reports &&
        (NameOf(obj.typ) != env.table.className ==> r.value.typ == Foreign(false)) &&
        (NameOf(obj.typ) == env.table.className ==> ToJava(r.value.typ) == FirstSymbol(env.table.fields, e.field)))
    decreases e, 1, 0
  {
    var obj :- GetType(env, e.obj);
    if obj.typ.Unknown? then Crash(NullType)
    else if NameOf(obj.typ) != env.table.className then Ok(Typed(Foreign(false), obj.reports))
    else Ok(Typed(FromJava(FirstSymbol(env.table.fields, e.field)), obj.reports))
  }

  /**
   * `manageFunctionCall`: a receiver that cannot be typed makes the call static (on a
   * class named like the receiver); otherwise the receiver is typed again and the call is
   * resolved as an instance call, so the receiver's reports are produced twice.
   */
  function ManageFunctionCall(env: Scope, call: Expr): (r: Outcome<Typed>)
    requires call.FunctionCallExpr?
    ensures r.Ok? ==> OnlyMismatchReports(r.value.reports)
    ensures r.Ok? ==> r.value.typ.Valid()
    ensures GetType(env, call.receiver).Crash? ==> r.Crash?
    ensures GetType(env, call.receiver).Ok? && GetType(env, call.receiver).value.typ.Unknown? ==>
      match NameAttr(call.receiver)
      case None => r == Crash(MissingAttribute)
      case Some(n) => r.Ok? && r.value.typ == CheckStaticMethod(env.table, n)
    ensures GetType(env, call.receiver).Ok? && !GetType(env, call.receiver).value.typ.Unknown? ==>
      var recv := GetType(env, call.receiver).value;
      r.Ok? && r.value.typ == CheckInstanceMethod(env.table, recv.typ, call.func) && r.value.reports == recv.reports + recv.reports
    decreases call, 2, 0
  {
    var recv :- GetType(env, call.receiver);
    if recv.typ.Unknown? then
      match NameAttr(call.receiver)
      case None => Crash(MissingAttribute)
      case Some(n) => Ok(Typed(CheckStaticMethod(env.table, n), recv.reports))
    else
      Ok(Typed(CheckInstanceMethod(env.table, recv.typ, call.func), recv.reports + recv.reports))
  }

  /**
   * `checkInstanceMethod`: a call on the current class has the declared return type, or
   * the placeholder when the class has a superclass that may declare it; a call on the
   * superclass has the declared return type or the placeholder; a call on an imported
   * class has the placeholder; any other receiver type gives Unknown.
   */
  function CheckInstanceMethod(t: SymbolTable, recv: SemType, func: string): (r: SemType)
    requires !recv.Unknown?
    ensures r.Valid()
    ensures NameOf(recv) in {t.className, t.superName} && func in t.returnTypes ==> r == FromJava(t.ReturnType(func))
    ensures NameOf(recv) !in {t.className, t.superName} && NameOf(recv) in t.imports ==> r == Foreign(false)
    ensures NameOf(recv) == t.className && func !in t.returnTypes && !IsBlank(t.superName) ==> r == Foreign(false)
    ensures NameOf(recv) != t.className && NameOf(recv) == t.superName && func !in t.returnTypes ==> r == Foreign(false)
    ensures r.Unknown? <==>
      (NameOf(recv) == t.className && func !in t.returnTypes && IsBlank(t.superName)) ||
      (NameOf(recv) !in {t.className, t.superName} && NameOf(recv) !in t.imports)
  {
    var n := NameOf(recv);
    if n == t.className then
      if t.ReturnType(func).Some? then FromJava(t.ReturnType(func))
      else if !IsBlank(t.superName) then Foreign(false)
      else Unknown
    else if n == t.superName then
      if t.ReturnType(func).Some? then FromJava(t.ReturnType(func)) else Foreign(false)
    else if n in t.imports then Foreign(false)
    else Unknown
  }

  /** `checkStaticMethod`: static calls are only known on imported classes. */
  function CheckStaticMethod(t: SymbolTable, callerClass: string): (r: SemType)
    ensures r == Foreign(false) <==> callerClass in t.imports
    ensures r.Unknown? <==> callerClass !in t.imports
  {
    if callerClass in t.imports then Foreign(false) else Unknown
  }

  /**
   * `checkArraySameType`: neighbouring elements are compared in order; the first pair that
   * differs adds one report and the check fails. An empty literal has no first child.
   * `CheckArraySameTypeSound` states when the check holds.
   */
  function CheckArraySameType(env: Scope, lit: Expr): (r: Outcome<Checked>)
    requires lit.ElementExpr?
    ensures r.Ok? ==> OnlyMismatchReports(r.value.reports)
    ensures |lit.elements| == 0 ==> r == Crash(MissingChild)
    decreases lit, 2, 0
  {
    if |lit.elements| == 0 then Crash(MissingChild) else NeighboursAgree(env, lit, 0)
  }

  /**
   * The loop of `checkArraySameType` from position `i`. On failure the last report is the
   * one mismatch report; `NeighboursAgreeSound` states when it succeeds.
   */
  function NeighboursAgree(env: Scope, lit: Expr, i: nat): (r: Outcome<Checked>)
    requires lit.ElementExpr? && i < |lit.elements|
    ensures r.Ok? ==> OnlyMismatchReports(r.value.reports)
    ensures r.Ok? && !r.value.ok ==>
      |r.value.reports| >= 1 && r.value.reports[|r.value.reports| - 1] == Sem(ArrayElementsNotSameType)
    decreases lit, 1, |lit.elements| - i
  {
    var elems := lit.elements;
    if i == |elems| - 1 then Ok(Checked(true, []))
    else
      var a :- GetType(env, elems[i]);
      var b :- GetType(env, elems[i + 1]);
      if a.typ.Unknown? then Crash(NullType)
      else if a.typ != b.typ then Ok(Checked(false, a.reports + b.reports + [Sem(ArrayElementsNotSameType)]))
      else
        var rest :- NeighboursAgree(env, lit, i + 1);
        Ok(Checked(rest.ok, a.reports + b.reports + rest.reports))
  }

  /** When the loop from position `i` succeeds, every later element has the type of element `i`. */
  lemma {:induction false} NeighboursAgreeAll(env: Scope, lit: Expr, i: nat)
    requires lit.ElementExpr? && i < |lit.elements|
    requires NeighboursAgree(env, lit, i).Ok? && NeighboursAgree(env, lit, i).value.ok
    ensures i + 1 < |lit.elements| ==> (GetType(env, lit.elements[i]).Ok? &&
      forall j :: i < j < |lit.elements| ==> HasType(env, lit.elements[j], GetType(env, lit.elements[i]).value.typ))
    decreases |lit.elements| - i
  {
    var elems := lit.elements;
    if i < |elems| - 1 {
      assert GetType(env, elems[i]).Ok? && GetType(env, elems[i + 1]).Ok?;
      var a, b := GetType(env, elems[i]).value, GetType(env, elems[i + 1]).value;
      assert a.typ == b.typ && HasType(env, elems[i + 1], a.typ);
      NeighboursAgreeAll(env, lit, i + 1);
    }
  }

  /** When the loop from position `i` fails, some later element is typed unlike element `i`. */
  lemma {:induction false} NeighboursAgreeWitness(env: Scope, lit: Expr, i: nat)
    requires lit.ElementExpr? && i < |lit.elements|
    requires NeighboursAgree(env, lit, i).Ok? && !NeighboursAgree(env, lit, i).value.ok
    ensures GetType(env, lit.elements[i]).Ok?
    ensures exists j :: (i < j < |lit.elements| && GetType(env, lit.elements[j]).Ok? &&
      GetType(env, lit.elements[j]).value.typ != GetType(env, lit.elements[i]).value.typ)
    decreases |lit.elements| - i
  {
    var elems := lit.elements;
    var a, b := GetType(env, elems[i]).value, GetType(env, elems[i + 1]).value;
    if a.typ != b.typ {
      assert GetType(env, elems[i + 1]).value.typ != GetType(env, elems[i]).value.typ;
    } else {
      NeighboursAgreeWitness(env, lit, i + 1);
    }
  }

  /**
   * The loop from position `i` succeeds exactly when every later element has the type of
   * element `i`; when it fails, some later element is typed differently.
   */
  lemma NeighboursAgreeSound(env: Scope, lit: Expr, i: nat)
    requires lit.ElementExpr? && i < |lit.elements|
    ensures var r := NeighboursAgree(env, lit, i);
      r.Ok? && r.value.ok ==> forall j :: i < j < |lit.elements| ==>
        GetType(env, lit.elements[i]).Ok? && GetType(env, lit.elements[j]).Ok? &&
        GetType(env, lit.elements[j]).value.typ == GetType(env, lit.elements[i]).value.typ
    ensures var r := NeighboursAgree(env, lit, i);
      r.Ok? && !r.value.ok ==> (GetType(env, lit.elements[i]).Ok? &&
        exists j :: i < j < |lit.elements| && GetType(env, lit.elements[j]).Ok? &&
          GetType(env, lit.elements[j]).value.typ != GetType(env, lit.elements[i]).value.typ)
  {
    var r := NeighboursAgree(env, lit, i);
    if r.Ok? && r.value.ok {
      NeighboursAgreeAll(env, lit, i);
    } else if r.Ok? {
      NeighboursAgreeWitness(env, lit, i);
    }
  }

  /** The check holds exactly when every element is typed like the first. */
  lemma CheckArraySameTypeSound(env: Scope, lit: Expr)
    requires lit.ElementExpr?
    ensures var r := CheckArraySameType(env, lit);
      r.Ok? ==> (r.value.ok <==> forall j :: 0 < j < |lit.elements| ==>
        GetType(env, lit.elements[0]).Ok? && GetType(env, lit.elements[j]).Ok? &&
        GetType(env, lit.elements[j]).value.typ == GetType(env, lit.elements[0]).value.typ)
  {
    if |lit.elements| > 0 {
      NeighboursAgreeSound(env, lit, 0);
    }
  }

  /** `e` types without a crash, and to exactly `t`. */
  predicate HasType(env: Scope, e: Expr, t: SemType)
  {
    GetType(env, e).Ok? && GetType(env, e).value.typ == t
  }

  /**
   * `allSameType`: the elements are typed lazily, left to right, until one differs from
   * `expected`; the result says whether all of them have exactly that type.
   */
  function AllSameType(env: Scope, expected: SemType, elems: seq<Expr>): (r: Outcome<Checked>)
    requires !expected.Unknown?
    ensures r.Ok? ==> OnlyMismatchReports(r.value.reports)
    ensures r.Ok? ==> (r.value.ok <==> forall j :: 0 <= j < |elems| ==> HasType(env, elems[j], expected))
    ensures elems == [] ==> r == Ok(Checked(true, []))
  {
    if elems == [] then Ok(Checked(true, []))
    else
      var first :- GetType(env, elems[0]);
      if first.typ != expected then Ok(Checked(false, first.reports))
      else
        var rest :- AllSameType(env, expected, elems[1..]);
        assert forall j :: 1 <= j < |elems| ==> elems[j] == elems[1..][j - 1];
        Ok(Checked(rest.ok, first.reports + rest.reports))
  }

  /** Typing reports never count as any other kind of report. */
  lemma {:induction false} OnlyMismatchCountsNothingElse(rs: seq<Report>, m: Message)
    requires OnlyMismatchReports(rs) && m != ArrayElementsNotSameType
    ensures CountOf(rs, m) == 0
    decreases |rs|
  {
    if rs != [] {
      assert OnlyMismatchReports(rs[1..]);
      OnlyMismatchCountsNothingElse(rs[1..], m);
    }
  }

  lemma OnlyMismatchAppend(a: seq<Report>, b: seq<Report>)
    requires OnlyMismatchReports(a) && OnlyMismatchReports(b)
    ensures OnlyMismatchReports(a + b)
  {
  }
}

=== FILE: array_usage_check.dfy ===
/**
 * ArrayUsageCheck: an indexing expression `a[i]` needs an array base and an int index.
 */
module ArrayUsageCheck {
  import opened Wrappers
  import opened Jmm
  import opened Reports
  import opened Analysis

  /** The two independent findings about a typed base and index. */
  function AccessFindings(base: SemType, index: SemType): (rs: seq<Report>)
    requires !base.Unknown? && !index.Unknown?
    ensures CountOf(rs, AccessOnNonArray) == (if IsArrayOf(base) then 0 else 1)
    ensures CountOf(rs, IndexNotInteger) == (if index == Known(IntType) then 0 else 1)
    ensures |rs| == CountOf(rs, AccessOnNonArray) + CountOf(rs, IndexNotInteger)
  {
    var a := if !IsArrayOf(base) then [Sem(AccessOnNonArray)] else [];
    var b := if index != Known(IntType) then [Sem(IndexNotInteger)] else [];
    CountOfAppend(a, b, AccessOnNonArray);
    CountOfAppend(a, b, IndexNotInteger);
    a + b
  }

  /**
   * `visitArrayAccess`: both children are typed first; a base or an index that cannot be
   * typed makes the Java code dereference null.
   */
  function VisitArrayAccess(env: Scope, e: Expr): (r: Outcome<seq<Report>>)
    requires e.AccessExpr?
    ensures GetType(env, e.arr).Ok? && GetType(env, e.index).Ok? ==>
      (r.Crash? <==> GetType(env, e.arr).value.typ.Unknown? || GetType(env, e.index).value.typ.Unknown?)
    ensures r.Ok? ==>
      GetType(env, e.arr).Ok? && GetType(env, e.index).Ok? &&
      r.value == GetType(env, e.arr).value.reports + GetType(env, e.index).value.reports +
        AccessFindings(GetType(env, e.arr).value.typ, GetType(env, e.index).value.typ)
  {
    var base :- GetType(env, e.arr);
    var index :- GetType(env, e.index);
    if base.typ.Unknown? || index.typ.Unknown? then Crash(NullType)
    else Ok(base.reports + index.reports + AccessFindings(base.typ, index.typ))
  }

  /** Example of AccessFindings: indexing a declared `int[]` variable with an integer literal is not reported. */
  lemma IntArrayIndexedByLiteralPasses(env: Scope, a: string, k: int)
    requires LookupVar(env, VarRefExpr(a)) == Known(IntArrayType)
    ensures VisitArrayAccess(env, AccessExpr(VarRefExpr(a), IntegerLiteral(k))) == Ok([])
  {
  }

  /** Indexing an `int` with a boolean gives both reports, once each. */
  lemma ScalarIndexedByBooleanReportedTwice(env: Scope, a: string, b: bool)
    requires LookupVar(env, VarRefExpr(a)) == Known(IntType)
    ensures VisitArrayAccess(env, AccessExpr(VarRefExpr(a), BooleanLiteral(b))) ==
      Ok([Sem(AccessOnNonArray), Sem(IndexNotInteger)])
  {
    assert AccessFindings(Known(IntType), Known(BoolType)) == [Sem(AccessOnNonArray)] + [Sem(IndexNotInteger)];
    assert [] + [] + ([Sem(AccessOnNonArray)] + [Sem(IndexNotInteger)]) == [Sem(AccessOnNonArray), Sem(IndexNotInteger)];
  }
}

=== FILE: compatible_types.dfy ===
/**
 * CompatibleTypes: operand types of binary operators and the two sides of assignments.
 */
module CompatibleTypes {
  import opened Wrappers
  import opened Jmm
  import opened Reports
  import opened Analysis

  /**
   * What `visitBinaryOp` reports about operands of the given types. Nothing is reported
   * when either operand could not be typed. `&&` wants two booleans (one report at most);
   * every other operator is treated as arithmetic and wants two ints, and independently
   * reports mixing an array with a scalar.
   */
  function BinaryOpFindings(op: string, l: SemType, r: SemType): (rs: seq<Report>)
    ensures l.Unknown? || r.Unknown? ==> rs == []
    ensures !l.Unknown? && !r.Unknown? && op == "&&" ==>
      (rs == [] <==> NameOf(l) == BoolName && NameOf(r) == BoolName) && |rs| <= 1 &&
      CountOf(rs, OperandNotBoolean) == |rs|
    ensures !l.Unknown? && !r.Unknown? && op != "&&" ==>
      (CountOf(rs, OperandNotInteger) == 1 <==> NameOf(l) != IntName || NameOf(r) != IntName) &&
      (CountOf(rs, ArrayArithmetic) == 1 <==> IsArrayOf(l) != IsArrayOf(r)) &&
      |rs| == CountOf(rs, OperandNotInteger) + CountOf(rs, ArrayArithmetic) && |rs| <= 2
    ensures forall k :: 0 <= k < |rs| ==> rs[k] != Sem(ArrayElementsNotSameType)
  {
    if l.Unknown? || r.Unknown? then []
    else if op == "&&" then
      if NameOf(l) != BoolName || NameOf(r) != BoolName then [Sem(OperandNotBoolean)] else []
    else
      var notInt := if NameOf(l) != IntName || NameOf(r) != IntName then [Sem(OperandNotInteger)] else [];
      var mixed := if IsArrayOf(l) != IsArrayOf(r) then [Sem(ArrayArithmetic)] else [];
      CountOfAppend(notInt, mixed, OperandNotInteger);
      CountOfAppend(notInt, mixed, ArrayArithmetic);
      notInt + mixed
  }

  /**
   * `visitBinaryOp`: types both operands, then reports on them. The operator is reported
   * on exactly when the operands' types draw a finding.
   */
  function VisitBinaryOp(env: Scope, e: Expr): (r: Outcome<seq<Report>>)
    requires e.BinaryExpr?
    ensures r.Ok? <==> GetType(env, e.left).Ok? && GetType(env, e.right).Ok?
    ensures r.Ok? ==>
      var lt, rt := GetType(env, e.left).value, GetType(env, e.right).value;
      OnlyMismatchReports(lt.reports + rt.reports) &&
      r.value == lt.reports + rt.reports + BinaryOpFindings(e.op, lt.typ, rt.typ)
    ensures r.Ok? ==>
      (OnlyMismatchReports(r.value) <==> BinaryOpFindings(e.op, GetType(env, e.left).value.typ, GetType(env, e.right).value.typ) == [])
  {
    var l :- GetType(env, e.left);
    var rt :- GetType(env, e.right);
    OnlyMismatchAppend(l.reports, rt.reports);
    FindingsLeaveTyping(l.reports + rt.reports, BinaryOpFindings(e.op, l.typ, rt.typ));
    Ok(l.reports + rt.reports + BinaryOpFindings(e.op, l.typ, rt.typ))
  }

  /** A check's own findings are never typing reports, so they show after the typing ones. */
  lemma FindingsLeaveTyping(typing: seq<Report>, findings: seq<Report>)
    requires OnlyMismatchReports(typing)
    requires forall k :: 0 <= k < |findings| ==> findings[k] != Sem(ArrayElementsNotSameType)
    ensures OnlyMismatchReports(typing + findings) <==> findings == []
  {
    if findings != [] {
      assert (typing + findings)[|typing|] == findings[0];
    }
  }

  /** Example of BinaryOpFindings: operands of the matching primitive type are never reported. */
  lemma WellTypedOperandsPass(op: string)
    ensures op != "&&" ==> BinaryOpFindings(op, Known(IntType), Known(IntType)) == []
    ensures BinaryOpFindings("&&", Known(BoolType), Known(BoolType)) == []
  {
  }

  /** Example of BinaryOpFindings: `<` is checked like arithmetic: comparing two booleans is reported. */
  lemma LessThanOnBooleansReported()
    ensures BinaryOpFindings("<", Known(BoolType), Known(BoolType)) == [Sem(OperandNotInteger)]
  {
  }

  /** `isPrimordial`. */
  predicate IsPrimordial(name: string)
  {
    name == IntName || name == BoolName || name == StringName
  }

  /**
   * What `visitAssignStmt` reports for a target of type `l` and a value of type `r`.
   * Each branch of the Java cascade reports at most once.
   */
  function AssignFindings(t: SymbolTable, l: SemType, r: SemType): (rs: seq<Report>)
    requires l.Valid() && r.Valid()
    ensures |rs| <= 1
    ensures rs == [] <==> AssignAccepted(t, l, r)
    ensures l.Unknown? || r.Unknown? ==> rs == [Sem(AssignOperandNotFound)]
    ensures forall k :: 0 <= k < |rs| ==> rs[k] != Sem(ArrayElementsNotSameType)
  {
    if l.Unknown? || r.Unknown? then [Sem(AssignOperandNotFound)]
    else if NameOf(r) == ForeignName || NameOf(l) == ForeignName then []
    else if l == r then
      if IsPrimordial(NameOf(l)) || NameOf(l) in t.imports || NameOf(l) == t.className then []
      else [Sem(AssignNotImported)]
    else if NameOf(r) == t.className then
      if NameOf(l) == t.superName then [] else [Sem(AssignIncompatibleClass)]
    else if NameOf(r) in t.imports && NameOf(l) in t.imports then []
    else [Sem(AssignIncompatibleTypes)]
  }

  /**
   * When an assignment is accepted: the foreign placeholder on either side is trusted; a
   * type is assignable to itself when it is primitive, imported or the current class; a
   * value of the current class may go into a variable of its superclass; and any imported
   * class may be assigned to any other imported class.
   */
  predicate AssignAccepted(t: SymbolTable, l: SemType, r: SemType)
  {
    !l.Unknown? && !r.Unknown? &&
    (l.Foreign? || r.Foreign? ||
     (l == r && (IsPrimordial(l.t.name) || l.t.name in t.imports || l.t.name == t.className)) ||
     (l != r && r.t.name == t.className && l.t.name == t.superName) ||
     (l != r && r.t.name != t.className && r.t.name in t.imports && l.t.name in t.imports))
  }

  /** `visitAssignStmt`: the target is typed as a variable, the value as an expression. */
  function VisitAssignStmt(env: Scope, target: Expr, value: Expr): (r: Outcome<seq<Report>>)
    ensures r.Ok? <==> GetVarType(env, target).Ok? && GetType(env, value).Ok?
    ensures r.Ok? ==>
      var lt, rt := GetVarType(env, target).value, GetType(env, value).value;
      OnlyMismatchReports(lt.reports + rt.reports) &&
      r.value == lt.reports + rt.reports + AssignFindings(env.table, lt.typ, rt.typ)
    ensures r.Ok? ==>
      (OnlyMismatchReports(r.value) <==> AssignAccepted(env.table, GetVarType(env, target).value.typ, GetType(env, value).value.typ))
  {
    var l :- GetVarType(env, target);
    var rt :- GetType(env, value);
    OnlyMismatchAppend(l.reports, rt.reports);
    FindingsLeaveTyping(l.reports + rt.reports, AssignFindings(env.table, l.typ, rt.typ));
    Ok(l.reports + rt.reports + AssignFindings(env.table, l.typ, rt.typ))
  }

  /** Example of AssignFindings: a value of the current class may be stored in a variable typed by its superclass. */
  lemma SubclassIntoSuperclassAccepted(t: SymbolTable)
    requires t.className != t.superName
    requires t.className != ForeignName && t.superName != ForeignName
    ensures AssignFindings(t, Known(Type(t.superName, false)), Known(Type(t.className, false))) == []
  {
  }

  /**
   * Example of AssignFindings. The converse is rejected: a superclass value does not fit a variable of the current
   * class unless both names are imported.
   */
  lemma SuperclassIntoSubclassRejected(t: SymbolTable)
    requires t.className != t.superName && t.className !in t.imports
    requires t.className != ForeignName && t.superName != ForeignName
    ensures AssignFindings(t, Known(Type(t.className, false)), Known(Type(t.superName, false))) == [Sem(AssignIncompatibleTypes)]
  {
  }

  /** Example of AssignFindings: an int never fits a boolean variable. */
  lemma IntIntoBooleanRejected(t: SymbolTable)
    requires t.className != IntName && IntName !in t.imports
    ensures |AssignFindings(t, Known(BoolType), Known(IntType))| == 1
  {
  }

  /** The foreign placeholder is accepted on either side, whatever the other side is. */
  lemma ForeignAlwaysAccepted(t: SymbolTable, other: SemType, a: bool)
    requires other.Valid() && !other.Unknown?
    ensures AssignFindings(t, Foreign(a), other) == []
    ensures AssignFindings(t, other, Foreign(a)) == []
  {
  }
}

=== FILE: jasmin_gen.dfy ===
/**
 * JasminGenerator: Jasmin code for an OLLIR class unit.
 *
 * Every instruction has its emitter; an emitter returns the lines, the stack deltas it
 * applies (in the order the Java code applies them) and its reports, and threads the
 * counter behind the `MyLabelN`/`MySkipN` labels of the comparison skeletons, which the
 * Java code keeps for the whole class.
 */
module JasminGen {
  import opened Wrappers
  import opened Reports
  import opened JasminIr
  import opened JasminMachine
  import opened JasminUtils
  import Strings

  /**
   * What the emitters read: the class name (standing for `this`), the symbol table's
   * super class name, and the variable table of the method being generated.
   */
  datatype Env = Env(cls: string, superName: string, vars: map<string, VarDesc>)

  // ---------------------------------------------------------------------------------
  // The backend's own labels
  // ---------------------------------------------------------------------------------

  /** The `MyLabelN`/`MySkipN` definitions among some lines, in order. */
  function OwnMarks(lines: seq<Line>): seq<JLabel>
  {
    if lines == [] then []
    else (if lines[0].Mark? && !lines[0].lbl.Named? then [lines[0].lbl] else []) + OwnMarks(lines[1..])
  }

  lemma {:induction false} OwnMarksAppend(a: seq<Line>, b: seq<Line>)
    ensures OwnMarks(a + b) == OwnMarks(a) + OwnMarks(b)
    decreases |a|
  {
    if a == [] {
      assert a + b == b;
    } else {
      assert (a + b)[1..] == a[1..] + b;
      OwnMarksAppend(a[1..], b);
    }
  }

  function LabelNumber(l: JLabel): nat
  {
    if l.MyLabel? || l.MySkip? then l.n else 0
  }

  /**
   * The backend's labels defined by some lines are all different and numbered from `lo`
   * up to (not including) `hi`.
   */
  predicate FreshMarks(lines: seq<Line>, lo: nat, hi: nat)
  {
    var ms := OwnMarks(lines);
    lo <= hi &&
    (forall i :: 0 <= i < |ms| ==> lo <= LabelNumber(ms[i]) < hi) &&
    (forall i, j :: 0 <= i < j < |ms| ==> ms[i] != ms[j])
  }

  /** Lines numbered in consecutive windows define different labels. */
  lemma FreshMarksAppend(a: seq<Line>, lo: nat, mid: nat, b: seq<Line>, hi: nat)
    requires FreshMarks(a, lo, mid) && FreshMarks(b, mid, hi)
    ensures FreshMarks(a + b, lo, hi)
  {
    OwnMarksAppend(a, b);
    var ma, mb := OwnMarks(a), OwnMarks(b);
    var ms := ma + mb;
    forall i, j | 0 <= i < j < |ms|
      ensures ms[i] != ms[j]
    {
      if i < |ma| && j >= |ma| {
        assert LabelNumber(ms[i]) < mid <= LabelNumber(ms[j]);
      }
    }
  }

  /** Lines without label definitions fit any window. */
  lemma FreshMarksNone(lines: seq<Line>, lo: nat, hi: nat)
    requires OwnMarks(lines) == [] && lo <= hi
    ensures FreshMarks(lines, lo, hi)
  {
  }

  /** A skeleton defines `MyLabelN` and `MySkipN` and nothing else. */
  lemma SkeletonFresh(op: string, n: nat)
    ensures OwnMarks(Skeleton(op, n)) == [MyLabel(n), MySkip(n)]
    ensures FreshMarks(Skeleton(op, n), n, n + 1)
  {
    var t4 := [Code("ldc", "1"), Mark(MySkip(n))];
    var t3 := [Mark(MyLabel(n))] + t4;
    var t2 := [Branch("goto", MySkip(n))] + t3;
    var t1 := [Code("ldc", "0")] + t2;
    assert Skeleton(op, n) == [Branch(op, MyLabel(n))] + t1;
    OwnMarksCons(Mark(MySkip(n)), []);
    assert [Mark(MySkip(n))] + [] == [Mark(MySkip(n))];
    OwnMarksCons(Code("ldc", "1"), [Mark(MySkip(n))]);
    assert t4 == [Code("ldc", "1")] + [Mark(MySkip(n))];
    OwnMarksCons(Mark(MyLabel(n)), t4);
    OwnMarksCons(Branch("goto", MySkip(n)), t3);
    OwnMarksCons(Code("ldc", "0"), t2);
    OwnMarksCons(Branch(op, MyLabel(n)), t1);
  }

  /** One line in front: its label, if it defines one of the backend's, comes first. */
  lemma OwnMarksCons(l: Line, rest: seq<Line>)
    ensures OwnMarks([l] + rest) == (if l.Mark? && !l.lbl.Named? then [l.lbl] else []) + OwnMarks(rest)
  {
    assert ([l] + rest)[1..] == rest;
  }

  /** Putting two pieces together keeps the order of their labels and adds their deltas. */
  lemma Joined(a: Piece, b: Piece)
    ensures OwnMarks(Then(a, b).lines) == OwnMarks(a.lines) + OwnMarks(b.lines)
    ensures Sum(Then(a, b).deltas) == Sum(a.deltas) + Sum(b.deltas)
  {
    OwnMarksAppend(a.lines, b.lines);
    SumAppend(a.deltas, b.deltas);
  }

  // ---------------------------------------------------------------------------------
  // Elements: `generateLiteral`, `generateOperand`, `generateArrayOperand`, `generateLoad`
  // ---------------------------------------------------------------------------------

  /** An element whose loads the backend recognizes: no class-reference or void operand. */
  predicate Loadable(e: Element)
    decreases e
  {
    if e.Literal? then true
    else if e.Operand? then !e.typ.ClassT? && !e.typ.VoidT?
    else |e.indices| > 0 && Loadable(e.indices[0])
  }

  /** `generateLiteral`: `ldc v`, with -1 written `m1`; one more value on the stack. */
  function LiteralCode(v: int): (r: Piece)
    ensures |r.lines| == 1 && r.lines[0].Code? && r.lines[0].op == "ldc"
    ensures r.deltas == [1] && r.reports == []
    ensures r.lines[0].arg == "m1" <==> v == -1
  {
    assert Strings.IntToString(v) != "m1" by {
      if v >= 0 {
        assert Strings.IntToString(v)[0] == Strings.NatToString(v)[0];
      }
    }
    Piece([Code("ldc", if v == -1 then "m1" else Strings.IntToString(v))], [1], [])
  }

  /** Different literals load different constants. */
  lemma {:induction false} LiteralCodeInjective(v: int, w: int)
    requires LiteralCode(v) == LiteralCode(w)
    ensures v == w
  {
    if v != -1 && w != -1 {
      Strings.IntToStringInjective(v, w);
    }
  }

  /**
   * `generateOperand`: `iload` for int and boolean variables, `aload` for references,
   * `newarray int` for the placeholder named `array`, `aload_0` for `this`; any other
   * type is reported and loads nothing.
   */
  function OperandCode(env: Env, name: string, typ: JType): (r: Outcome<Piece>)
    ensures r.Ok? ==> OwnMarks(r.value.lines) == []
    ensures r.Ok? && !typ.ClassT? && !typ.VoidT? ==> r.value.deltas == [1] && r.value.reports == []
    ensures typ.ThisT? ==> r.Ok? && r.value.lines == [Code("aload_0", "")]
    ensures typ.ArrayT? && name == "array" ==> r.Ok? && r.value.lines == [Code("newarray", "int")]
    ensures typ.ClassT? || typ.VoidT? ==> r.Ok? && r.value.lines == [] && r.value.reports == [Gen(OperandTypeNotRecognized)]
    ensures IntLike(typ) ==>
      (r.Ok? <==> VarNumber(env.vars, name).Ok?) &&
      (r.Ok? ==> r.value.lines == [Code("iload" + VarNumber(env.vars, name).value, "")])
    ensures typ.ObjectT? || typ.StringT? || (typ.ArrayT? && name != "array") ==>
      (r.Ok? <==> VarNumber(env.vars, name).Ok?) &&
      (r.Ok? ==> r.value.lines == [Code("aload" + VarNumber(env.vars, name).value, "")])
  {
    if typ.ThisT? then Ok(Piece([Code("aload_0", "")], [1], []))
    else if typ.ArrayT? && name == "array" then Ok(Piece([Code("newarray", "int")], [1], []))
    else if IntLike(typ) || typ.ObjectT? || typ.StringT? || typ.ArrayT? then
      var vn :- VarNumber(env.vars, name);
      Ok(Piece([Code((if IntLike(typ) then "iload" else "aload") + vn, "")], [1], []))
    else Ok(Piece([], [], [Gen(OperandTypeNotRecognized)]))
  }

  /**
   * `generateArrayOperand`: the array reference, then the first index; the pointer goes up
   * for the reference and down by one after the index.
   */
  function ArrayOperandCode(env: Env, e: Element): (r: Outcome<Piece>)
    requires e.ArrayOperand?
    ensures r.Ok? ==> OwnMarks(r.value.lines) == []
    ensures r.Ok? && Loadable(e) ==> Sum(r.value.deltas) == 1 && r.value.reports == []
    decreases e, 0
  {
    var vn :- VarNumber(env.vars, e.name);
    if e.indices == [] then Crash(MissingChild)
    else
      var idx :- Load(env, e.indices[0]);
      var head := Then(Piece([Code("aload" + vn, "")], [1], []), idx);
      Joined(Piece([Code("aload" + vn, "")], [1], []), idx);
      Joined(head, Piece([], [-1], []));
      Ok(Then(head, Piece([], [-1], [])))
  }

  /**
   * `generateLoad`: an array element is its array operand code followed by `iaload`. A
   * recognized element leaves exactly one more value on the tracked stack.
   */
  function Load(env: Env, e: Element): (r: Outcome<Piece>)
    ensures r.Ok? ==> OwnMarks(r.value.lines) == []
    ensures r.Ok? && Loadable(e) ==> Sum(r.value.deltas) == 1 && r.value.reports == []
    decreases e, 1
  {
    if e.Literal? then Ok(LiteralCode(e.value))
    else if e.Operand? then OperandCode(env, e.name, e.typ)
    else
      var a :- ArrayOperandCode(env, e);
      Joined(a, Piece([Code("iaload", "")], [], []));
      Ok(Then(a, Piece([Code("iaload", "")], [], [])))
  }

  /**
   * `generators.apply` on an element, as returns and two-operand branches use it: like
   * `Load`, except that an array element gets no `iaload`.
   */
  function Apply(env: Env, e: Element): (r: Outcome<Piece>)
    ensures r.Ok? ==> OwnMarks(r.value.lines) == []
    ensures r.Ok? && Loadable(e) ==> Sum(r.value.deltas) == 1 && r.value.reports == []
  {
    if e.ArrayOperand? then ArrayOperandCode(env, e) else Load(env, e)
  }

  /** Loads of several elements, one after the other. */
  function LoadAll(env: Env, es: seq<Element>): (r: Outcome<Piece>)
    ensures r.Ok? ==> OwnMarks(r.value.lines) == []
    ensures r.Ok? && (forall i :: 0 <= i < |es| ==> Loadable(es[i])) ==> Sum(r.value.deltas) == |es| && r.value.reports == []
  {
    if es == [] then Ok(Empty)
    else
      var one :- Load(env, es[0]);
      var rest :- LoadAll(env, es[1..]);
      Joined(one, rest);
      assert forall i :: 0 <= i < |es[1..]| ==> es[1..][i] == es[i + 1];
      Ok(Then(one, rest))
  }

  /** Lines without label definitions contribute no label. */
  lemma {:induction false} NoMarks(ls: seq<Line>)
    requires forall i :: 0 <= i < |ls| ==> !ls[i].Mark?
    ensures OwnMarks(ls) == []
    decreases |ls|
  {
    if ls != [] {
      NoMarks(ls[1..]);
    }
  }

  /** A line that defines no label contributes no label. */
  lemma NoMark(l: Line)
    requires !l.Mark?
    ensures OwnMarks([l]) == []
  {
    assert [l][1..] == [];
  }

  // ---------------------------------------------------------------------------------
  // Instructions
  // ---------------------------------------------------------------------------------

  /** An emitter's piece and the label counter after it. */
  datatype Out = Out(piece: Piece, next: nat)

  /**
   * The left-hand side of an array assignment, before the value: the array reference
   * (one slot up) and the first index.
   */
  function ArrayDest(env: Env, dest: Element): (r: Outcome<Piece>)
    requires dest.ArrayOperand?
    ensures r.Ok? ==> OwnMarks(r.value.lines) == []
    ensures r.Ok? && Loadable(dest) ==> Sum(r.value.deltas) == 2 && r.value.reports == []
  {
    var vn :- VarNumber(env.vars, dest.name);
    if dest.indices == [] then Crash(MissingChild)
    else
      var idx :- Load(env, dest.indices[0]);
      NoMark(Code("aload" + vn, ""));
      Joined(Piece([Code("aload" + vn, "")], [1], []), idx);
      Ok(Then(Piece([Code("aload" + vn, "")], [1], []), idx))
  }

  /**
   * `generateAssign`: for an array element the reference and index first, then the
   * right-hand side's code, then the store into the destination; a literal destination
   * fails the cast to an operand.
   */
  function EmitAssign(env: Env, inst: Instruction, n: nat): (r: Outcome<Out>)
    requires inst.AssignI?
    ensures r.Ok? ==> n <= r.value.next && FreshMarks(r.value.piece.lines, n, r.value.next)
    decreases inst, 0
  {
    var dest := inst.dest;
    var pre :- if dest.ArrayOperand? then ArrayDest(env, dest) else Ok(Empty);
    var rhs :- Emit(env, inst.rhs, n);
    if dest.Literal? then Crash(UnsupportedKind)
    else
      var st :- Store(env.vars, dest.name, dest.typ);
      assert OwnMarks(st.lines) == [] by {
        NoMark(st.lines[0]);
      }
      Joined(pre, rhs.piece);
      Joined(Then(pre, rhs.piece), st);
      assert OwnMarks(Then(Then(pre, rhs.piece), st).lines) == OwnMarks(rhs.piece.lines);
      Ok(Out(Then(Then(pre, rhs.piece), st), rhs.next))
  }

  /**
   * The opcode lines of a binary operation: the `<` and `>=` branches jump to `MyLabelN`
   * and are followed by the comparison tail; the others are one opcode line.
   */
  function BinaryOpLines(op: OpType, n: nat): (r: seq<Line>)
    ensures FreshMarks(r, n, if op == Lth || op == Gte then n + 1 else n)
  {
    if op == Lth || op == Gte then
      SkeletonFresh(OpcodeText(op), n);
      Skeleton(OpcodeText(op), n)
    else
      NoMark(Code(OpcodeText(op), ""));
      [Code(OpcodeText(op), "")]
  }

  /**
   * The same lines as `generateBinaryOp` writes them: the branch opcode and its target
   * `MyLabelN` end up on two separate lines.
   */
  function BinaryOpLinesAsWritten(op: OpType, n: nat): seq<Line>
  {
    if op == Lth || op == Gte then [Code(OpcodeText(op), ""), Code(LabelName(MyLabel(n)), "")] + ComparisonTail(n)
    else [Code(OpcodeText(op), "")]
  }

  /**
   * `generateBinaryOp`: both operands, the operation, and one slot down for the two
   * operands replaced by the result.
   */
  function EmitBinaryOp(env: Env, left: Element, op: OpType, right: Element, n: nat): (r: Outcome<Out>)
    ensures r.Ok? ==> r.value.next == (if op == Lth || op == Gte then n + 1 else n)
    ensures r.Ok? ==> FreshMarks(r.value.piece.lines, n, r.value.next)
    ensures r.Ok? && Loadable(left) && Loadable(right) ==> Sum(r.value.piece.deltas) == 1
    ensures r.Ok? <==> Load(env, left).Ok? && Load(env, right).Ok?
    ensures r.Ok? ==> r.value.piece.lines == Load(env, left).value.lines + Load(env, right).value.lines + BinaryOpLines(op, n)
  {
    var a :- Load(env, left);
    var b :- Load(env, right);
    var next := if op == Lth || op == Gte then n + 1 else n;
    var loads := Then(a, b);
    var opPiece := Piece(BinaryOpLines(op, n), [], OpReports(op));
    Joined(a, b);
    Joined(loads, opPiece);
    Joined(Then(loads, opPiece), Piece([], [-1], []));
    Ok(Out(Then(Then(loads, opPiece), Piece([], [-1], [])), next))
  }

  /** The opcode lines of a unary operation: a comparison skeleton on `ifeq` for `!`. */
  function UnaryOpLines(op: OpType, n: nat): (r: seq<Line>)
    ensures FreshMarks(r, n, if op == NotB then n + 1 else n)
  {
    if op == NotB then
      SkeletonFresh(OpcodeText(op), n);
      Skeleton(OpcodeText(op), n)
    else
      NoMark(Code(OpcodeText(op), ""));
      [Code(OpcodeText(op), "")]
  }

  /**
   * `dealWithUnaryOp`: the operand, then the operation; a `!` is `ifeq` into a comparison
   * skeleton, which leaves 1 exactly when the operand was 0.
   */
  function EmitUnaryOp(env: Env, op: OpType, e: Element, n: nat): (r: Outcome<Out>)
    ensures r.Ok? ==> r.value.next == (if op == NotB then n + 1 else n)
    ensures r.Ok? ==> FreshMarks(r.value.piece.lines, n, r.value.next)
    ensures r.Ok? && Loadable(e) ==> Sum(r.value.piece.deltas) == 1
  {
    var a :- Load(env, e);
    var opLines := UnaryOpLines(op, n);
    Joined(a, Piece(opLines, [], OpReports(op)));
    Ok(Out(Then(a, Piece(opLines, [], OpReports(op))), if op == NotB then n + 1 else n))
  }

  /**
   * The branch a `<` or `>=` condition compiles to. A zero literal on one side (the right
   * one looked at first) turns the two-operand compare into a compare with zero of the
   * other side; `zero` says whether that happened.
   */
  datatype CondForm = CondForm(cmd: string, zero: bool)

  function CondCommand(op: OpType, left: Element, right: Element): (f: CondForm)
    requires op == Lth || op == Gte
    ensures f.zero <==> if right.Literal? then right.value == 0 else left.Literal? && left.value == 0
    ensures !f.zero ==> forall a: int, b: int :: Jumps(f.cmd, [a, b]) == Some(Compares(op, a, b))
    ensures f.zero && right.Literal? ==> forall a: int :: Jumps(f.cmd, [a]) == Some(Compares(op, a, 0))
    ensures f.zero && !right.Literal? ==> forall b: int :: Jumps(f.cmd, [b]) == Some(Compares(op, 0, b))
  {
    var lit := if right.Literal? then Some(right.value) else if left.Literal? then Some(left.value) else None;
    if lit != Some(0) then CondForm(if op == Lth then "if_icmplt" else "if_icmpge", false)
    else if right.Literal? then CondForm(if op == Lth then "iflt" else "ifge", true)
    else CondForm(if op == Lth then "ifgt" else "ifle", true)
  }

  /** Whether `a op b` holds for a `<` or `>=` condition. */
  predicate Compares(op: OpType, a: int, b: int)
    requires op == Lth || op == Gte
  {
    if op == Lth then a < b else a >= b
  }

  /** Both operands through `generators.apply`, one after the other. */
  function ApplyBoth(env: Env, left: Element, right: Element): (r: Outcome<Piece>)
    ensures r.Ok? ==> OwnMarks(r.value.lines) == []
    ensures r.Ok? && Loadable(left) && Loadable(right) ==> Sum(r.value.deltas) == 2
  {
    var a :- Apply(env, left);
    var b :- Apply(env, right);
    Joined(a, b);
    Ok(Then(a, b))
  }

  /**
   * `generateOpCond` with the pointer moved by `dir` times the number of compared values
   * after the branch: the compared values (the non-literal side alone for a compare with
   * zero), then the branch to the instruction's label. Any other binary operation gives a
   * `not implemented` line, and a condition that is not a binary operation is reported.
   */
  function OpCondWith(env: Env, cond: Instruction, target: string, dir: int): (r: Outcome<Piece>)
    ensures r.Ok? ==> OwnMarks(r.value.lines) == []
    ensures r.Ok? && cond.BinaryOpI? && (cond.op == Lth || cond.op == Gte) && Loadable(cond.left) && Loadable(cond.right) ==>
      Sum(r.value.deltas) == (1 + dir) * (if CondCommand(cond.op, cond.left, cond.right).zero then 1 else 2)
  {
    if cond.BinaryOpI? && (cond.op == Lth || cond.op == Gte) then
      var f := CondCommand(cond.op, cond.left, cond.right);
      var loads :- if f.zero then Load(env, if cond.right.Literal? then cond.left else cond.right)
                   else ApplyBoth(env, cond.left, cond.right);
      NoMark(Branch(f.cmd, Named(target)));
      Joined(loads, Piece([Branch(f.cmd, Named(target))], [dir * (if f.zero then 1 else 2)], []));
      Ok(Then(loads, Piece([Branch(f.cmd, Named(target))], [dir * (if f.zero then 1 else 2)], [])))
    else
      NoMark(Code("not implemented" + target, ""));
      Ok(Piece([Code("not implemented" + target, "")], [0], if cond.BinaryOpI? then [] else [Gen(ConditionNotRecognized)]))
  }

  /** The compared values are popped by the branch: the condition leaves the stack as it was. */
  function EmitOpCond(env: Env, cond: Instruction, target: string): (r: Outcome<Piece>)
    ensures r.Ok? ==> OwnMarks(r.value.lines) == []
    ensures r.Ok? && cond.BinaryOpI? && (cond.op == Lth || cond.op == Gte) && Loadable(cond.left) && Loadable(cond.right) ==>
      Sum(r.value.deltas) == 0
  {
    OpCondWith(env, cond, target, -1)
  }

  /** As `generateOpCond` is written: the pointer goes up again after the branch. */
  function EmitOpCondAsWritten(env: Env, cond: Instruction, target: string): (r: Outcome<Piece>)
    ensures r.Ok? ==> OwnMarks(r.value.lines) == []
    ensures r.Ok? && cond.BinaryOpI? && (cond.op == Lth || cond.op == Gte) && Loadable(cond.left) && Loadable(cond.right) ==>
      Sum(r.value.deltas) == (if CondCommand(cond.op, cond.left, cond.right).zero then 2 else 4)
  {
    OpCondWith(env, cond, target, 1)
  }

  /**
   * `generateSingleOpCond`: the single operand, then `ifne` to the label; a condition of
   * another kind is reported and only the label is written.
   */
  function EmitSingleOpCond(env: Env, cond: Instruction, target: string): (r: Outcome<Piece>)
    ensures r.Ok? ==> OwnMarks(r.value.lines) == []
    ensures r.Ok? && cond.SingleOpI? && Loadable(cond.operand) ==> Sum(r.value.deltas) == 1
  {
    if cond.SingleOpI? then
      var a :- Load(env, cond.operand);
      NoMark(Branch("ifne", Named(target)));
      Joined(a, Piece([Branch("ifne", Named(target))], [], []));
      Ok(Then(a, Piece([Branch("ifne", Named(target))], [], [])))
    else
      NoMark(Code(target, ""));
      Ok(Piece([Code(target, "")], [], [Gen(ConditionNotRecognized)]))
  }

  /** The `owner/name descriptor` operand of `getfield` and `putfield`. */
  function FieldRef(env: Env, obj: Element, field: Element): (r: Desc)
    requires !obj.Literal? && !field.Literal?
    ensures StartsWith(r.text, ConvertClassName(obj.name, env.cls) + "/")
    ensures r.reports == [] <==> Recognized(field.typ)
  {
    var d := SolveType(field.typ, env.cls);
    var owner := ConvertClassName(obj.name, env.cls) + "/";
    assert (owner + field.name + " " + d.text)[..|owner|] == owner;
    Desc(ConvertClassName(obj.name, env.cls) + "/" + field.name + " " + d.text, d.reports)
  }

  /**
   * `generateGetField`: the object, then `getfield`, which replaces it by the field's
   * value; both children must be operands.
   */
  function EmitGetField(env: Env, obj: Element, field: Element): (r: Outcome<Piece>)
    ensures r.Ok? ==> OwnMarks(r.value.lines) == []
    ensures r.Ok? <==> !obj.Literal? && !field.Literal? && Load(env, obj).Ok?
    ensures r.Ok? && Loadable(obj) ==> Sum(r.value.deltas) == 1
  {
    if obj.Literal? || field.Literal? then Crash(UnsupportedKind)
    else
      var ref := FieldRef(env, obj, field);
      var a :- Load(env, obj);
      NoMark(Code("getfield", ref.text));
      OwnMarksAppend(a.lines, [Code("getfield", ref.text)]);
      Ok(Piece(a.lines + [Code("getfield", ref.text)], a.deltas, ref.reports + a.reports))
  }

  /**
   * `generatePutField`: the object and the value, then `putfield`, which pops both; the
   * first two children must be operands.
   */
  function EmitPutField(env: Env, obj: Element, field: Element, value: Element): (r: Outcome<Piece>)
    ensures r.Ok? ==> OwnMarks(r.value.lines) == []
    ensures r.Ok? && Loadable(obj) && Loadable(value) ==> Sum(r.value.deltas) == 0
  {
    if obj.Literal? || field.Literal? then Crash(UnsupportedKind)
    else
      var ref := FieldRef(env, obj, field);
      var a :- Load(env, obj);
      var v :- Load(env, value);
      var tail := Piece([Code("putfield", ref.text)], [-2], []);
      NoMark(Code("putfield", ref.text));
      Joined(a, v);
      Joined(Then(a, v), tail);
      Ok(Piece(a.lines + v.lines + tail.lines, a.deltas + v.deltas + tail.deltas, ref.reports + a.reports + v.reports))
  }

  /**
   * `generateReturn`: `return` alone, or the value through `generators.apply` and
   * `ireturn` for int and boolean values, `areturn` otherwise.
   */
  function EmitReturn(env: Env, result: Option<Element>): (r: Outcome<Piece>)
    ensures r.Ok? ==> OwnMarks(r.value.lines) == []
    ensures r.Ok? && result.Some? && Loadable(result.value) ==> Sum(r.value.deltas) == 1
    ensures result.None? ==> r == Ok(Piece([Code("return", "")], [], []))
    ensures result.Some? ==>
      (r.Ok? <==> Apply(env, result.value).Ok?) &&
      (r.Ok? ==> r.value.lines == Apply(env, result.value).value.lines + [Code(if IntLike(result.value.typ) then "ireturn" else "areturn", "")])
  {
    if result.None? then
      NoMark(Code("return", ""));
      Ok(Piece([Code("return", "")], [], []))
    else
      var a :- Apply(env, result.value);
      var op := if IntLike(result.value.typ) then "ireturn" else "areturn";
      NoMark(Code(op, ""));
      Joined(a, Piece([Code(op, "")], [], []));
      Ok(Then(a, Piece([Code(op, "")], [], [])))
  }

  // ---------------------------------------------------------------------------------
  // Calls: `generateCall` and the invocation helpers
  // ---------------------------------------------------------------------------------

  /** The types of some elements, in order. */
  function ArgTypes(es: seq<Element>): (r: seq<JType>)
    ensures |r| == |es|
    ensures forall i :: 0 <= i < |es| ==> r[i] == es[i].typ
  {
    if es == [] then [] else [es[0].typ] + ArgTypes(es[1..])
  }

  /** The first operand of a call (its receiver); a call without one fails the lookup. */
  function Receiver(env: Env, operands: seq<Element>): (r: Outcome<Piece>)
    ensures r.Ok? ==> |operands| > 0 && OwnMarks(r.value.lines) == []
    ensures r.Ok? && Loadable(operands[0]) ==> Sum(r.value.deltas) == 1
  {
    if operands == [] then Crash(MissingChild) else Load(env, operands[0])
  }

  /**
   * The class `generateInvSpecial` names: taken from the call's return type, where a void
   * return stands for `this`, that is the class being generated; a class still named
   * `this` after that would be the symbol table's super class. Return types without a
   * class name fail the text extraction.
   */
  function SpecialOwnerAsWritten(env: Env, c: Instruction): (r: Outcome<string>)
    requires c.CallI?
    ensures c.ret.VoidT? ==> r == Ok(if env.cls == "this" then env.superName else env.cls)
  {
    var named :- if c.ret.VoidT? then Ok("this") else if c.ret.ObjectT? then Ok(c.ret.cls) else Crash(UnsupportedKind);
    var owner := ConvertClassName(named, env.cls);
    Ok(if owner == "this" then env.superName else owner)
  }

  /**
   * The class whose constructor `invokespecial` runs: the class of the object being
   * initialized, the receiver; other receivers as written.
   */
  function SpecialOwner(env: Env, c: Instruction): (r: Outcome<string>)
    requires c.CallI?
    ensures |c.operands| > 0 && c.operands[0].typ.ObjectT? ==> r == Ok(c.operands[0].typ.cls)
    ensures !(|c.operands| > 0 && c.operands[0].typ.ObjectT?) ==> r == SpecialOwnerAsWritten(env, c)
  {
    if |c.operands| > 0 && c.operands[0].typ.ObjectT? then Ok(c.operands[0].typ.cls)
    else SpecialOwnerAsWritten(env, c)
  }

  /** Every element a call loads is one the loads recognize. */
  predicate CallLoadable(c: Instruction)
    requires c.CallI?
  {
    (|c.operands| > 0 ==> Loadable(c.operands[0])) && forall i :: 0 <= i < |c.args| ==> Loadable(c.args[i])
  }

  /**
   * What a call does to the tracked pointer, loads included: one value for the
   * invocations, `arraylength` and `ldc`, two for a `new` (whose helper gives back two
   * fewer slots than it has arguments), nothing for what is reported.
   */
  function CallNet(kind: CallKind, ret: JType): int
  {
    if kind == NewCall then (if ret.ObjectT? || ret.ArrayT? then 2 else 0)
    else if kind == OtherInvocation then 0
    else 1
  }

  /** The code of a call before the pointer gives back its reclaimed slots. */
  function CallCode(env: Env, c: Instruction): (r: Outcome<Piece>)
    requires c.CallI?
    ensures r.Ok? ==> OwnMarks(r.value.lines) == []
    ensures r.Ok? && CallLoadable(c) ==> Sum(r.value.deltas) == CallNet(c.kind, c.ret) + Reclaim(c.kind, c.ret, |c.args|)
  {
    var desc := MethodDescriptor(ArgTypes(c.args), c.ret, env.cls);
    if c.kind == InvokeSpecial then
      var recv :- Receiver(env, c.operands);
      var owner :- SpecialOwner(env, c);
      InvokeLine(recv, Code("invokespecial", owner + "/<init>" + desc.text), desc.reports)
    else if c.kind == InvokeStatic then
      var args :- LoadAll(env, c.args);
      var owner := if c.className == "this" then env.cls else c.className;
      InvokeLine(args, Code("invokestatic", owner + "/" + c.methodName + desc.text), desc.reports)
    else if c.kind == InvokeVirtual then
      var recv :- Receiver(env, c.operands);
      var args :- LoadAll(env, c.args);
      Joined(recv, args);
      InvokeLine(Then(recv, args), Code("invokevirtual", ConvertClassName(c.className, env.cls) + "/" + c.methodName + desc.text), desc.reports)
    else if c.kind == ArrayLengthCall then
      var recv :- Receiver(env, c.operands);
      InvokeLine(recv, Code("arraylength", ""), [])
    else if c.kind == NewCall && (c.ret.ObjectT? || c.ret.ArrayT?) then
      var args :- LoadAll(env, c.args);
      InvokeLine(args, if c.ret.ObjectT? then Code("new", ConvertClassName(c.ret.cls, env.cls)) else Code("newarray", "int"), [])
    else if c.kind == NewCall then Ok(Piece([], [], [Gen(VarTypeNotRecognized)]))
    else if c.kind == LdcCall then Receiver(env, c.operands)
    else Ok(Piece([], [], [Gen(InvocationNotRecognized)]))
  }

  /** Loads followed by one instruction line that moves nothing. */
  function InvokeLine(loads: Piece, line: Line, reports: seq<Report>): (r: Outcome<Piece>)
    requires !line.Mark?
    ensures r.Ok? && r.value.deltas == loads.deltas
    ensures OwnMarks(r.value.lines) == OwnMarks(loads.lines)
  {
    NoMark(line);
    OwnMarksAppend(loads.lines, [line]);
    Ok(Piece(loads.lines + [line], loads.deltas, loads.reports + reports))
  }

  /**
   * `generateCall`: the call's code, then the pointer down by what its helper gives back.
   * A recognized call moves the tracked pointer by `CallNet`.
   */
  function EmitCall(env: Env, c: Instruction): (r: Outcome<Piece>)
    requires c.CallI?
    ensures r.Ok? ==> OwnMarks(r.value.lines) == []
    ensures r.Ok? && CallLoadable(c) ==> Sum(r.value.deltas) == CallNet(c.kind, c.ret)
  {
    var code :- CallCode(env, c);
    Joined(code, Piece([], [-Reclaim(c.kind, c.ret, |c.args|)], []));
    Ok(Then(code, Piece([], [-Reclaim(c.kind, c.ret, |c.args|)], [])))
  }

  // ---------------------------------------------------------------------------------
  // Dispatch
  // ---------------------------------------------------------------------------------

  /** The instructions whose code defines no label of the backend's. */
  function EmitPlain(env: Env, inst: Instruction): (r: Outcome<Piece>)
    requires !inst.AssignI? && !inst.BinaryOpI? && !inst.UnaryOpI?
    ensures r.Ok? ==> OwnMarks(r.value.lines) == []
  {
    if inst.CallI? then EmitCall(env, inst)
    else if inst.GotoI? then
      NoMark(Branch("goto", Named(inst.target)));
      Ok(Piece([Branch("goto", Named(inst.target))], [], []))
    else if inst.SingleOpI? then Load(env, inst.operand)
    else if inst.OpCondI? then EmitOpCond(env, inst.cond, inst.target)
    else if inst.SingleOpCondI? then EmitSingleOpCond(env, inst.cond, inst.target)
    else if inst.GetFieldI? then EmitGetField(env, inst.obj, inst.field)
    else if inst.PutFieldI? then EmitPutField(env, inst.obj, inst.field, inst.value)
    else EmitReturn(env, inst.result)
  }

  /**
   * `generators.apply` on an instruction. The label counter only moves for comparison
   * skeletons, and the labels an instruction defines are numbered from the counter it
   * was given up to the one it hands on, each once.
   */
  function Emit(env: Env, inst: Instruction, n: nat): (r: Outcome<Out>)
    ensures r.Ok? ==> n <= r.value.next && FreshMarks(r.value.piece.lines, n, r.value.next)
    decreases inst, 1
  {
    if inst.AssignI? then EmitAssign(env, inst, n)
    else if inst.BinaryOpI? then EmitBinaryOp(env, inst.left, inst.op, inst.right, n)
    else if inst.UnaryOpI? then EmitUnaryOp(env, inst.op, inst.operand, n)
    else
      var p :- EmitPlain(env, inst);
      Ok(Out(p, n))
  }

  // ---------------------------------------------------------------------------------
  // What the instruction code computes
  // ---------------------------------------------------------------------------------

  /**
   * The values the branch of a `<` or `>=` condition pops, given the values of the two
   * sides: both, or the non-literal side alone for a compare with zero.
   */
  function CondPopped(f: CondForm, right: Element, lv: int, rv: int): seq<int>
  {
    if f.zero then [if right.Literal? then lv else rv] else [lv, rv]
  }

  /**
   * The branch decides the comparison: on the values it pops it jumps exactly when
   * `left < right` holds (`left >= right` for `>=`), a literal side standing for its value.
   */
  lemma OpCondDecides(op: OpType, left: Element, right: Element, lv: int, rv: int)
    requires op == Lth || op == Gte
    requires left.Literal? ==> lv == left.value
    requires right.Literal? ==> rv == right.value
    ensures Jumps(CondCommand(op, left, right).cmd, CondPopped(CondCommand(op, left, right), right, lv, rv)) ==
      Some(if op == Lth then lv < rv else lv >= rv)
  {
    var f := CondCommand(op, left, right);
    if f.zero {
      if right.Literal? {
        assert rv == 0;
      } else {
        assert left.Literal? && lv == 0;
      }
    }
  }

  /**
   * As `generateBinaryOp` writes `<`: the opcode line has no target, so the code is not a
   * branch at all, and nothing runs past it.
   */
  lemma BinaryOpAsWrittenStuck(n: nat, below: seq<int>, a: int, b: int)
    ensures BinaryOpLinesAsWritten(Lth, n)[0] == Code("if_icmplt", "")
    ensures Run(BinaryOpLinesAsWritten(Lth, n), State(0, below + [a, b]), 6) == None
  {
  }

  /** The corrected `<`: the two operands are replaced by 1 when `a < b` and by 0 otherwise. */
  lemma BinaryOpComputes(n: nat, below: seq<int>, a: int, b: int)
    ensures Run(BinaryOpLines(Lth, n), State(0, below + [a, b]), 6) == Some(State(6, below + [if a < b then 1 else 0]))
  {
    assert OpcodeText(Lth) == "if_icmplt";
    assert Jumps("if_icmplt", [a, b]) == Some(a < b);
    SkeletonComputes("if_icmplt", n, below, [a, b]);
    assert BinaryOpLines(Lth, n) == Skeleton("if_icmplt", n);
  }

  /** `!` replaces its operand by 1 when it was 0 and by 0 otherwise. */
  lemma UnaryNotNegates(n: nat, below: seq<int>, v: int)
    ensures Run(UnaryOpLines(NotB, n), State(0, below + [v]), 6) == Some(State(6, below + [if v == 0 then 1 else 0]))
  {
    assert OpcodeText(NotB) == "ifeq";
    assert Jumps("ifeq", [v]) == Some(v == 0);
    SkeletonComputes("ifeq", n, below, [v]);
    assert UnaryOpLines(NotB, n) == Skeleton("ifeq", n);
  }

  /**
   * As written, `new B()` in class `A` initializes its `B` object with `A`'s constructor:
   * the void return of `<init>` makes the owner the class being generated.
   */
  lemma SpecialOwnerAsWrittenMisnames()
    ensures SpecialOwnerAsWritten(Env("A", "", map[]), CallI(InvokeSpecial, [Operand("t", ObjectT("B"))], "B", "<init>", [], VoidT)) == Ok("A")
    ensures SpecialOwner(Env("A", "", map[]), CallI(InvokeSpecial, [Operand("t", ObjectT("B"))], "B", "<init>", [], VoidT)) == Ok("B")
  {
  }

  /**
   * A call statement whose value is not used is balanced: `pop` gives back the slot the
   * call's value took.
   */
  lemma DroppedCallBalanced(env: Env, c: Instruction)
    requires c.CallI? && CallLoadable(c)
    requires !c.ret.VoidT? && c.kind != NewCall && c.kind != OtherInvocation
    ensures Dropped(c).lines == [Code("pop", "")]
    ensures EmitCall(env, c).Ok? ==> Sum(EmitCall(env, c).value.deltas + Dropped(c).deltas) == 0
  {
    if EmitCall(env, c).Ok? {
      SumAppend(EmitCall(env, c).value.deltas, Dropped(c).deltas);
    }
  }

  /**
   * An assignment of a one-slot value leaves the tracked pointer where it was: the store
   * pops what the destination (array and index) and the value pushed, provided the
   * destination's shape agrees with its declaration (an element of an int array, or a
   * variable that is not one).
   */
  lemma AssignBalanced(env: Env, inst: Instruction, n: nat)
    requires inst.AssignI? && !inst.dest.Literal? && inst.dest.name in env.vars
    requires EmitAssign(env, inst, n).Ok? && Emit(env, inst.rhs, n).Ok?
    requires Sum(Emit(env, inst.rhs, n).value.piece.deltas) == 1
    requires Loadable(inst.dest) && !inst.dest.typ.ClassT? && !inst.dest.typ.VoidT?
    requires inst.dest.ArrayOperand? <==> IntLike(inst.dest.typ) && env.vars[inst.dest.name].varType.ArrayT?
    ensures Sum(EmitAssign(env, inst, n).value.piece.deltas) == 0
  {
    var dest := inst.dest;
    var pre := if dest.ArrayOperand? then ArrayDest(env, dest).value else Empty;
    var rhs := Emit(env, inst.rhs, n).value;
    var st := Store(env.vars, dest.name, dest.typ).value;
    assert Sum(st.deltas) == (if dest.ArrayOperand? then -3 else -1);
    Joined(pre, rhs.piece);
    Joined(Then(pre, rhs.piece), st);
  }

  // ---------------------------------------------------------------------------------
  // Method bodies: `generateMethodBody`
  // ---------------------------------------------------------------------------------

  /** Label definitions before instruction `i`: every label of the map that marks it, in the map's order. */
  function LabelsAt(labels: seq<LabelAt>, i: nat): (r: seq<Line>)
    ensures OwnMarks(r) == []
    ensures forall k :: 0 <= k < |labels| && labels[k].at == i ==> Mark(Named(labels[k].name)) in r
  {
    if labels == [] then []
    else
      var rest := LabelsAt(labels[1..], i);
      var here := if labels[0].at == i then [Mark(Named(labels[0].name))] else [];
      OwnMarksAppend(here, rest);
      assert forall k :: 1 <= k < |labels| ==> labels[k] == labels[1..][k - 1];
      here + rest
  }

  /**
   * As `generateMethodBody` is written: the first label of the map that marks instruction
   * `i`, and no other.
   */
  function FirstLabelAt(labels: seq<LabelAt>, i: nat): (r: seq<Line>)
    ensures OwnMarks(r) == [] && |r| <= 1
  {
    if labels == [] then []
    else if labels[0].at == i then [Mark(Named(labels[0].name))]
    else FirstLabelAt(labels[1..], i)
  }

  /** `pop` after a call whose value is not used, which gives its slot back. */
  function Dropped(inst: Instruction): (r: Piece)
    ensures OwnMarks(r.lines) == []
    ensures inst.CallI? && !inst.ret.VoidT? ==> r.lines == [Code("pop", "")] && Sum(r.deltas) == -1 && r.reports == []
    ensures !(inst.CallI? && !inst.ret.VoidT?) ==> r == Empty
  {
    if inst.CallI? && !inst.ret.VoidT? then
      NoMark(Code("pop", ""));
      Piece([Code("pop", "")], [-1], [])
    else Empty
  }

  /** Lines around code that define no label of their own leave its labels as they were. */
  lemma Framed(pre: seq<Line>, mid: seq<Line>, post: seq<Line>)
    requires OwnMarks(pre) == [] && OwnMarks(post) == []
    ensures OwnMarks(pre + mid + post) == OwnMarks(mid)
  {
    OwnMarksAppend(pre, mid);
    OwnMarksAppend(pre + mid, post);
  }

  /** Framing lines keep the fresh labels of the code they surround. */
  lemma FramedFresh(pre: seq<Line>, mid: seq<Line>, post: seq<Line>, lo: nat, hi: nat)
    requires OwnMarks(pre) == [] && OwnMarks(post) == [] && FreshMarks(mid, lo, hi)
    ensures FreshMarks(pre + mid + post, lo, hi)
  {
    Framed(pre, mid, post);
  }

  /**
   * The body from instruction `i` on: for each instruction its label definitions (all of
   * them, or the first only as written), its code, and `pop` after a call with a value.
   */
  function BodyFrom(env: Env, instrs: seq<Instruction>, labels: seq<LabelAt>, i: nat, n: nat, allLabels: bool): (r: Outcome<Out>)
    requires i <= |instrs|
    ensures r.Ok? ==> n <= r.value.next && FreshMarks(r.value.piece.lines, n, r.value.next)
    decreases |instrs| - i
  {
    if i == |instrs| then Ok(Out(Empty, n))
    else
      var marks := if allLabels then LabelsAt(labels, i) else FirstLabelAt(labels, i);
      var one :- Emit(env, instrs[i], n);
      var rest :- BodyFrom(env, instrs, labels, i + 1, one.next, allLabels);
      var drop := Dropped(instrs[i]);
      var head := Piece(marks + one.piece.lines + drop.lines, one.piece.deltas + drop.deltas, one.piece.reports + drop.reports);
      Framed(marks, one.piece.lines, drop.lines);
      FreshMarksAppend(head.lines, n, one.next, rest.piece.lines, rest.next);
      Ok(Out(Then(head, rest.piece), rest.next))
  }

  /** The corrected body defines every label that marks one of its instructions. */
  lemma {:induction false} BodyDefinesLabels(env: Env, instrs: seq<Instruction>, labels: seq<LabelAt>, i: nat, n: nat, k: nat)
    requires i <= |instrs| && k < |labels| && i <= labels[k].at < |instrs|
    ensures BodyFrom(env, instrs, labels, i, n, true).Ok? ==>
      Mark(Named(labels[k].name)) in BodyFrom(env, instrs, labels, i, n, true).value.piece.lines
    decreases |instrs| - i
  {
    if BodyFrom(env, instrs, labels, i, n, true).Ok? {
      var one := Emit(env, instrs[i], n).value;
      var rest := BodyFrom(env, instrs, labels, i + 1, one.next, true).value;
      var drop := Dropped(instrs[i]);
      var lines := LabelsAt(labels, i) + one.piece.lines + drop.lines + rest.piece.lines;
      assert BodyFrom(env, instrs, labels, i, n, true).value.piece.lines == lines;
      if labels[k].at == i {
        assert Mark(Named(labels[k].name)) in LabelsAt(labels, i);
      } else {
        BodyDefinesLabels(env, instrs, labels, i + 1, one.next, k);
      }
    }
  }

  /** The stack limit of a method: the tracker's mark after all the method's deltas, from zero. */
  function StackLimit(ds: seq<int>): (r: int)
    ensures r == HighWater(ds)
    ensures forall k :: 0 <= k <= |ds| ==> Sum(ds[..k]) <= r
    ensures exists k :: 0 <= k <= |ds| && Sum(ds[..k]) == r
  {
    TrackIsHighWater(Reset, ds);
    HighWaterIsMaxPrefix(ds);
    Track(Reset, ds).limit
  }

  /** A generated method: its lines, its reports, and the label counter after it. */
  datatype MethodOut = MethodOut(lines: seq<Line>, reports: seq<Report>, next: nat)

  /** `generateMethodHead`: access, `static`, `final`, name and descriptor. */
  function MethodHead(m: Method, cls: string): (r: Desc)
    ensures StartsWith(r.text, ".method ")
    ensures r.reports == [] <==> Recognized(m.ret) && forall i :: 0 <= i < |m.params| ==> Recognized(m.params[i])
  {
    var d := MethodDescriptor(m.params, m.ret, cls);
    assert (".method " + AccessText(m.access) + (if m.isStatic then "static " else "") + (if m.isFinal then "final " else "")
      + m.name + d.text)[..8] == ".method ";
    Desc(".method " + AccessText(m.access) + (if m.isStatic then "static " else "") + (if m.isFinal then "final " else "")
      + m.name + d.text, d.reports)
  }

  /** The head line and the two limit lines. */
  function Prelude(head: string, stack: int, locals: int): (r: seq<Line>)
    ensures |r| == 3 && OwnMarks(r) == []
  {
    var r := [Directive(head), Directive(".limit stack " + Strings.IntToString(stack)), Directive(".limit locals " + Strings.IntToString(locals))];
    NoMarks(r);
    r
  }

  /** The corrected body of a method: every label defined. */
  function MethodBody(cls: string, superName: string, m: Method, n: nat): (r: Outcome<Out>)
    ensures r.Ok? ==> n <= r.value.next && FreshMarks(r.value.piece.lines, n, r.value.next)
  {
    BodyFrom(Env(cls, superName, m.varTable), m.instrs, m.labels, 0, n, true)
  }

  /** The body as `generateMethodBody` writes it: one label per instruction at most. */
  function MethodBodyAsWritten(cls: string, superName: string, m: Method, n: nat): (r: Outcome<Out>)
    ensures r.Ok? ==> n <= r.value.next && FreshMarks(r.value.piece.lines, n, r.value.next)
  {
    BodyFrom(Env(cls, superName, m.varTable), m.instrs, m.labels, 0, n, false)
  }

  /**
   * `generateMethod`: the head, the stack and locals limits (computed after the body, from
   * a tracker reset for this method), the body, and `.end method`.
   */
  function MethodBlock(cls: string, superName: string, m: Method, n: nat): (r: Outcome<MethodOut>)
    ensures r.Ok? <==> MethodBody(cls, superName, m, n).Ok?
    ensures r.Ok? ==> n <= r.value.next && FreshMarks(r.value.lines, n, r.value.next)
  {
    var head := MethodHead(m, cls);
    var body :- MethodBody(cls, superName, m, n);
    Ok(MethodOut(Enclosed(head.text, body.piece, LocalsNum(m.varTable), n, body.next), head.reports + body.piece.reports, body.next))
  }

  /** The head and limit lines, the body, and `.end method`: the body's labels stay fresh. */
  function Enclosed(head: string, body: Piece, locals: int, lo: nat, hi: nat): (r: seq<Line>)
    requires FreshMarks(body.lines, lo, hi)
    ensures FreshMarks(r, lo, hi)
  {
    var pre := Prelude(head, StackLimit(body.deltas), locals);
    var post := [Directive(".end method")];
    NoMarks(post);
    FramedFresh(pre, body.lines, post, lo, hi);
    pre + body.lines + post
  }

  /**
   * The layout of a method: the head; `.limit stack` with the highest count of values the
   * tracker saw on the stack during this method's body (each method starts from zero);
   * `.limit locals` with the number of distinct registers, `this`'s included; the body;
   * `.end method`.
   */
  lemma MethodLayout(cls: string, superName: string, m: Method, n: nat)
    requires MethodBlock(cls, superName, m, n).Ok?
    ensures var lines := MethodBlock(cls, superName, m, n).value.lines;
      var body := MethodBody(cls, superName, m, n).value.piece;
      |lines| == |body.lines| + 4 &&
      lines[0] == Directive(MethodHead(m, cls).text) &&
      lines[1] == Directive(".limit stack " + Strings.IntToString(HighWater(body.deltas))) &&
      lines[2] == Directive(".limit locals " + Strings.IntToString(|{0} + Regs(m.varTable)|)) &&
      lines[3..|lines| - 1] == body.lines &&
      lines[|lines| - 1] == Directive(".end method")
  {
  }

  /**
   * A method whose second instruction carries two labels `la` and `lb`, the second of them
   * the target of the first instruction's jump.
   */
  function TwoLabels(la: string, lb: string): Method
  {
    Method("m", Public, true, false, false, [], VoidT,
      [GotoI(lb), SingleOpI(Literal(1, IntT))], [LabelAt(la, 1), LabelAt(lb, 1)], map[])
  }

  /** `goto`: one branch line, nothing pushed. */
  lemma GotoCode(env: Env, lb: string)
    ensures Emit(env, GotoI(lb), 0) == Ok(Out(Piece([Branch("goto", Named(lb))], [], []), 0))
  {
  }

  /** Loading the literal 1: `ldc 1`, one slot pushed. */
  lemma LdcOneCode(env: Env)
    ensures Emit(env, SingleOpI(Literal(1, IntT)), 0) == Ok(Out(Piece([Code("ldc", "1")], [1], []), 0))
  {
    assert Strings.IntToString(1) == "1";
  }

  /** The first instruction of `TwoLabels`: a jump, with no label and no `pop`. */
  lemma TwoLabelsFirst(la: string, lb: string)
    ensures |TwoLabels(la, lb).instrs| == 2 && TwoLabels(la, lb).instrs[0] == GotoI(lb)
    ensures LabelsAt(TwoLabels(la, lb).labels, 0) == [] && FirstLabelAt(TwoLabels(la, lb).labels, 0) == []
    ensures Dropped(TwoLabels(la, lb).instrs[0]) == Empty
  {
    var labels := TwoLabels(la, lb).labels;
    assert labels[1..] == [LabelAt(lb, 1)] && labels[1..][1..] == [];
    assert LabelsAt(labels[1..][1..], 0) == [];
    assert FirstLabelAt(labels[1..][1..], 0) == [];
    assert FirstLabelAt(labels, 0) == FirstLabelAt(labels[1..], 0) == FirstLabelAt(labels[1..][1..], 0);
  }

  /** The second instruction of `TwoLabels`: both labels (the first only, as written), no `pop`. */
  lemma TwoLabelsSecond(la: string, lb: string, allLabels: bool, marks: seq<Line>)
    requires marks == (if allLabels then [Mark(Named(la)), Mark(Named(lb))] else [Mark(Named(la))])
    ensures |TwoLabels(la, lb).instrs| == 2 && TwoLabels(la, lb).instrs[1] == SingleOpI(Literal(1, IntT))
    ensures marks == (if allLabels then LabelsAt(TwoLabels(la, lb).labels, 1) else FirstLabelAt(TwoLabels(la, lb).labels, 1))
    ensures Dropped(TwoLabels(la, lb).instrs[1]) == Empty
  {
    var labels := TwoLabels(la, lb).labels;
    assert labels[1..] == [LabelAt(lb, 1)] && labels[1..][1..] == [];
    assert LabelsAt(labels[1..][1..], 1) == [];
    assert LabelsAt(labels[1..], 1) == [Mark(Named(lb))] + [];
    assert LabelsAt(labels, 1) == [Mark(Named(la))] + LabelsAt(labels[1..], 1);
  }

  /** One step of a body: the instruction's labels, code and `pop`, then the rest. */
  lemma BodyCons(env: Env, instrs: seq<Instruction>, labels: seq<LabelAt>, i: nat, n: nat, allLabels: bool, one: Out, rest: Out)
    requires i < |instrs| && Emit(env, instrs[i], n) == Ok(one)
    requires BodyFrom(env, instrs, labels, i + 1, one.next, allLabels) == Ok(rest)
    ensures BodyFrom(env, instrs, labels, i, n, allLabels) ==
      Ok(Out(Then(Piece((if allLabels then LabelsAt(labels, i) else FirstLabelAt(labels, i)) + one.piece.lines + Dropped(instrs[i]).lines,
        one.piece.deltas + Dropped(instrs[i]).deltas, one.piece.reports + Dropped(instrs[i]).reports), rest.piece), rest.next))
  {
  }

  /** One step of a body whose instruction keeps no value on the stack. */
  lemma BodyStep(env: Env, instrs: seq<Instruction>, labels: seq<LabelAt>, i: nat, n: nat, allLabels: bool,
                 marks: seq<Line>, a: Piece, rest: Out)
    requires i < |instrs| && Dropped(instrs[i]) == Empty && Emit(env, instrs[i], n) == Ok(Out(a, n))
    requires marks == (if allLabels then LabelsAt(labels, i) else FirstLabelAt(labels, i))
    requires BodyFrom(env, instrs, labels, i + 1, n, allLabels) == Ok(rest)
    ensures BodyFrom(env, instrs, labels, i, n, allLabels) ==
      Ok(Out(Piece(marks + a.lines + rest.piece.lines, a.deltas + rest.piece.deltas, a.reports + rest.piece.reports), rest.next))
  {
    BodyCons(env, instrs, labels, i, n, allLabels, Out(a, n), rest);
    assert marks + a.lines + [] == marks + a.lines;
    assert a.deltas + [] == a.deltas && a.reports + [] == a.reports;
  }

  /** Past the last instruction the body is empty. */
  lemma BodyEnd(env: Env, instrs: seq<Instruction>, labels: seq<LabelAt>, n: nat, allLabels: bool)
    ensures BodyFrom(env, instrs, labels, |instrs|, n, allLabels) == Ok(Out(Empty, n))
  {
  }

  /** The last instruction, when it keeps no value on the stack: its labels and its code. */
  lemma BodyLast(env: Env, instrs: seq<Instruction>, labels: seq<LabelAt>, i: nat, n: nat, allLabels: bool,
                 marks: seq<Line>, a: Piece)
    requires i + 1 == |instrs| && Dropped(instrs[i]) == Empty && Emit(env, instrs[i], n) == Ok(Out(a, n))
    requires marks == (if allLabels then LabelsAt(labels, i) else FirstLabelAt(labels, i))
    ensures BodyFrom(env, instrs, labels, i, n, allLabels) == Ok(Out(Piece(marks + a.lines, a.deltas, a.reports), n))
  {
    BodyEnd(env, instrs, labels, n, allLabels);
    BodyStep(env, instrs, labels, i, n, allLabels, marks, a, Out(Empty, n));
    ThenNothing(marks, a, n);
  }

  /** A step's piece followed by nothing. */
  lemma ThenNothing(marks: seq<Line>, a: Piece, n: nat)
    ensures Piece(marks + a.lines + Out(Empty, n).piece.lines, a.deltas + Out(Empty, n).piece.deltas, a.reports + Out(Empty, n).piece.reports) ==
      Piece(marks + a.lines, a.deltas, a.reports)
  {
    assert marks + a.lines + [] == marks + a.lines;
    assert a.deltas + [] == a.deltas && a.reports + [] == a.reports;
  }

  /** The body of `TwoLabels` from its second instruction on. */
  lemma TwoLabelsTail(env: Env, la: string, lb: string, allLabels: bool, marks: seq<Line>)
    requires marks == (if allLabels then [Mark(Named(la)), Mark(Named(lb))] else [Mark(Named(la))])
    ensures BodyFrom(env, TwoLabels(la, lb).instrs, TwoLabels(la, lb).labels, 1, 0, allLabels) ==
      Ok(Out(Piece(marks + [Code("ldc", "1")], [1], []), 0))
  {
    LdcOneCode(env);
    TwoLabelsSecond(la, lb, allLabels, marks);
    BodyLast(env, TwoLabels(la, lb).instrs, TwoLabels(la, lb).labels, 1, 0, allLabels, marks, Piece([Code("ldc", "1")], [1], []));
  }

  /** The whole body of `TwoLabels`. */
  lemma TwoLabelsBody(env: Env, la: string, lb: string, allLabels: bool, marks: seq<Line>)
    requires marks == (if allLabels then [Mark(Named(la)), Mark(Named(lb))] else [Mark(Named(la))])
    ensures BodyFrom(env, TwoLabels(la, lb).instrs, TwoLabels(la, lb).labels, 0, 0, allLabels) ==
      Ok(Out(Piece([Branch("goto", Named(lb))] + marks + [Code("ldc", "1")], [1], []), 0))
  {
    var m := TwoLabels(la, lb);
    var jump := Piece([Branch("goto", Named(lb))], [], []);
    var rest := Out(Piece(marks + [Code("ldc", "1")], [1], []), 0);
    GotoCode(env, lb);
    TwoLabelsFirst(la, lb);
    TwoLabelsTail(env, la, lb, allLabels, marks);
    assert Emit(env, m.instrs[0], 0) == Ok(Out(jump, 0));
    assert BodyFrom(env, m.instrs, m.labels, 1, 0, allLabels) == Ok(rest);
    BodyStep(env, m.instrs, m.labels, 0, 0, allLabels, [], jump, rest);
    JumpFirst(jump, rest, Branch("goto", Named(lb)), marks, Code("ldc", "1"));
  }

  /** An unlabelled jump, then the rest of the body. */
  lemma JumpFirst(a: Piece, rest: Out, jump: Line, marks: seq<Line>, last: Line)
    requires a == Piece([jump], [], []) && rest == Out(Piece(marks + [last], [1], []), 0)
    ensures Piece([] + a.lines + rest.piece.lines, a.deltas + rest.piece.deltas, a.reports + rest.piece.reports) ==
      Piece([jump] + marks + [last], [1], [])
  {
    assert [] + [jump] + (marks + [last]) == [jump] + marks + [last];
    var none: seq<Report> := [];
    assert [] + [1] == [1] && none + none == none;
  }

  /** The body of `TwoLabels` as written. */
  function LostBody(la: string, lb: string): seq<Line>
  {
    [Branch("goto", Named(lb)), Mark(Named(la)), Code("ldc", "1")]
  }

  /** With two different labels the jump has no label to land on: the semantics gets stuck on it. */
  lemma LostBodyStuck(la: string, lb: string)
    requires la != lb
    ensures Run(LostBody(la, lb), State(0, []), 3) == None
  {
    var body := LostBody(la, lb);
    assert MarkIndex(body[2..], Named(lb)) == None;
    assert MarkIndex(body[1..], Named(lb)) == None;
    assert MarkIndex(body, Named(lb)) == None;
    assert Step(body, State(0, [])) == None;
  }

  /**
   * As written, the body loses label `lb`: the jump to it has no target, and the JVM
   * semantics gets stuck on it.
   */
  lemma LabelLostAsWritten(cls: string, superName: string, la: string, lb: string)
    requires la != lb
    ensures MethodBodyAsWritten(cls, superName, TwoLabels(la, lb), 0) == Ok(Out(Piece(LostBody(la, lb), [1], []), 0))
    ensures Run(MethodBodyAsWritten(cls, superName, TwoLabels(la, lb), 0).value.piece.lines, State(0, []), 3) == None
  {
    TwoLabelsBody(Env(cls, superName, map[]), la, lb, false, [Mark(Named(la))]);
    assert [Branch("goto", Named(lb))] + [Mark(Named(la))] + [Code("ldc", "1")] == LostBody(la, lb);
    LostBodyStuck(la, lb);
  }

  /** The corrected body of `TwoLabels`. */
  function KeptBody(la: string, lb: string): seq<Line>
  {
    [Branch("goto", Named(lb)), Mark(Named(la)), Mark(Named(lb)), Code("ldc", "1")]
  }

  /** The jump lands on the second label, and the body pushes its value. */
  lemma KeptBodyRuns(la: string, lb: string)
    requires la != lb
    ensures Run(KeptBody(la, lb), State(0, []), 4) == Some(State(4, [1]))
  {
    var body := KeptBody(la, lb);
    assert MarkIndex(body[3..], Named(lb)) == None;
    assert MarkIndex(body[2..], Named(lb)) == Some(0);
    assert MarkIndex(body[1..], Named(lb)) == Some(1);
    assert MarkIndex(body, Named(lb)) == Some(2);
    assert Step(body, State(0, [])) == Some(State(2, []));
    assert Step(body, State(2, [])) == Some(State(3, []));
    var empty: seq<int> := [];
    assert empty + [1] == [1];
    assert Step(body, State(3, [])) == Some(State(4, [1]));
    assert Run(body, State(4, [1]), 1) == Some(State(4, [1]));
    assert Run(body, State(3, []), 2) == Some(State(4, [1]));
    assert Run(body, State(2, []), 3) == Some(State(4, [1]));
  }

  /** The corrected body defines both labels, and the jump lands on the second. */
  lemma LabelsKept(cls: string, superName: string, la: string, lb: string)
    requires la != lb
    ensures MethodBody(cls, superName, TwoLabels(la, lb), 0) == Ok(Out(Piece(KeptBody(la, lb), [1], []), 0))
    ensures Run(MethodBody(cls, superName, TwoLabels(la, lb), 0).value.piece.lines, State(0, []), 4) == Some(State(4, [1]))
  {
    TwoLabelsBody(Env(cls, superName, map[]), la, lb, true, [Mark(Named(la)), Mark(Named(lb))]);
    assert [Branch("goto", Named(lb))] + [Mark(Named(la)), Mark(Named(lb))] + [Code("ldc", "1")] == KeptBody(la, lb);
    KeptBodyRuns(la, lb);
  }

  // ---------------------------------------------------------------------------------
  // The class: `generateClassUnit` and `build`
  // ---------------------------------------------------------------------------------

  /** The super class the class file names: `java/lang/Object` for none, an empty name or `Object`. */
  function SuperName(u: ClassUnit): (r: string)
    ensures r != ""
    ensures u.superClass.None? || u.superClass.value in {"", "Object"} ==> r == "java/lang/Object"
    ensures u.superClass.Some? && u.superClass.value !in {"", "Object"} ==> r == u.superClass.value
  {
    if u.superClass.None? || u.superClass.value == "" || u.superClass.value == "Object" then "java/lang/Object"
    else u.superClass.value
  }

  /** Lines and the reports produced while writing them. */
  datatype Text = Text(lines: seq<Line>, reports: seq<Report>)

  /** `.field`, the access, the name and the descriptor. */
  function FieldLine(f: Field, cls: string): (r: Desc)
    ensures StartsWith(r.text, ".field ")
    ensures r.reports == [] <==> Recognized(f.typ)
  {
    var d := SolveType(f.typ, cls);
    assert (".field " + AccessText(f.access) + f.name + " " + d.text)[..7] == ".field ";
    Desc(".field " + AccessText(f.access) + f.name + " " + d.text, d.reports)
  }

  /** One `.field` line per field, in order. */
  function FieldLines(fs: seq<Field>, cls: string): (r: Text)
    ensures |r.lines| == |fs|
    ensures forall k :: 0 <= k < |fs| ==> r.lines[k].Directive?
    ensures forall k :: 0 <= k < |fs| ==> r.lines[k] == Directive(FieldLine(fs[k], cls).text)
  {
    if fs == [] then Text([], [])
    else
      var rest := FieldLines(fs[1..], cls);
      var d := FieldLine(fs[0], cls);
      Text([Directive(d.text)] + rest.lines, d.reports + rest.reports)
  }

  /** The default constructor: calls the super class's `<init>` on `this`. */
  function InitBlock(sup: string): seq<Line>
  {
    [Directive(".method public <init>()V"), Code("aload_0", ""), Code("invokespecial", sup + "/<init>()V"),
     Code("return", ""), Directive(".end method")]
  }

  /** `removeIf(Method::isConstructMethod)`: the methods that are not constructors, in order. */
  function NonConstruct(ms: seq<Method>): (r: seq<Method>)
    ensures forall i :: 0 <= i < |r| ==> !r[i].isConstruct && r[i] in ms
    ensures forall i :: 0 <= i < |ms| && !ms[i].isConstruct ==> ms[i] in r
  {
    if ms == [] then []
    else
      var rest := NonConstruct(ms[1..]);
      assert forall i :: 1 <= i < |ms| ==> ms[i] == ms[1..][i - 1];
      (if ms[0].isConstruct then [] else [ms[0]]) + rest
  }

  /** Filtering keeps the order: the methods of two runs come out run by run. */
  lemma {:induction false} NonConstructAppend(a: seq<Method>, b: seq<Method>)
    ensures NonConstruct(a + b) == NonConstruct(a) + NonConstruct(b)
    decreases |a|
  {
    if a != [] {
      var head := if a[0].isConstruct then [] else [a[0]];
      assert (a + b)[0] == a[0] && (a + b)[1..] == a[1..] + b;
      assert NonConstruct(a + b) == head + NonConstruct(a[1..] + b);
      NonConstructAppend(a[1..], b);
      assert NonConstruct(a) == head + NonConstruct(a[1..]);
    } else {
      assert a + b == b;
    }
  }

  /** The methods in order, the label counter passing from each to the next (it is never reset). */
  function MethodsFrom(cls: string, superName: string, ms: seq<Method>, n: nat): (r: Outcome<MethodOut>)
    ensures r.Ok? ==> n <= r.value.next && FreshMarks(r.value.lines, n, r.value.next)
  {
    if ms == [] then Ok(MethodOut([], [], n))
    else
      var one :- MethodBlock(cls, superName, ms[0], n);
      var rest :- MethodsFrom(cls, superName, ms[1..], one.next);
      FreshMarksAppend(one.lines, n, one.next, rest.lines, rest.next);
      Ok(MethodOut(one.lines + rest.lines, one.reports + rest.reports, rest.next))
  }

  /** A generated class: its lines, its reports, and the label counter after it. */
  datatype ClassOut = ClassOut(lines: seq<Line>, reports: seq<Report>, next: nat)

  /**
   * `generateClassUnit`: `.class public`, `.super`, the fields, the default constructor,
   * then the methods. The label counter starts at zero for the class, so the backend's
   * labels of the whole class are all different.
   */
  function ClassCode(u: ClassUnit, tableSuper: string): (r: Outcome<ClassOut>)
    ensures r.Ok? <==> MethodsFrom(u.name, tableSuper, NonConstruct(u.methods), 0).Ok?
    ensures r.Ok? ==> FreshMarks(r.value.lines, 0, r.value.next)
  {
    var sup := SuperName(u);
    var fields := FieldLines(u.fields, u.name);
    var methods :- MethodsFrom(u.name, tableSuper, NonConstruct(u.methods), 0);
    var header := HeaderFresh(Directive(".class public " + u.name), Directive(".super " + sup), fields.lines, sup);
    FreshMarksAppend(header, 0, 0, methods.lines, methods.next);
    Ok(ClassOut(header + methods.lines, fields.reports + methods.reports, methods.next))
  }

  /** The lines before the methods, which define no label. */
  function HeaderFresh(a: Line, b: Line, fields: seq<Line>, sup: string): (r: seq<Line>)
    requires a.Directive? && b.Directive? && forall k :: 0 <= k < |fields| ==> fields[k].Directive?
    ensures r == [a, b] + fields + InitBlock(sup)
    ensures FreshMarks(r, 0, 0)
  {
    var r := [a, b] + fields + InitBlock(sup);
    NoMarks(r);
    r
  }

  /**
   * The layout of the class: its name, its super class, one `.field` line per field in
   * order, the default constructor calling the super class's, then the methods.
   */
  lemma ClassLayout(u: ClassUnit, tableSuper: string)
    ensures ClassCode(u, tableSuper).Ok? ==>
      var lines := ClassCode(u, tableSuper).value.lines;
      var f := |u.fields|;
      |lines| >= f + 7 &&
      lines[0] == Directive(".class public " + u.name) &&
      lines[1] == Directive(".super " + SuperName(u)) &&
      (forall k :: 0 <= k < f ==> lines[2 + k] == Directive(FieldLine(u.fields[k], u.name).text)) &&
      lines[f + 2..f + 7] == InitBlock(SuperName(u)) &&
      lines[f + 7..] == MethodsFrom(u.name, tableSuper, NonConstruct(u.methods), 0).value.lines
  {
    if ClassCode(u, tableSuper).Ok? {
      var fields := FieldLines(u.fields, u.name);
      var lines := ClassCode(u, tableSuper).value.lines;
      var f := |u.fields|;
      forall k | 0 <= k < f
        ensures lines[2 + k] == Directive(FieldLine(u.fields[k], u.name).text)
      {
        assert lines[2 + k] == fields.lines[k];
      }
    }
  }

  /**
   * The generator: the class unit, the symbol table's super class name, the code once
   * built, and the reports so far.
   */
  datatype Generator = Generator(unit: ClassUnit, tableSuper: string, code: Option<seq<Line>>, reports: seq<Report>)

  /**
   * `build`: the class's code, generated the first time only; its reports are added then.
   */
  function Build(g: Generator): (r: Outcome<(seq<Line>, Generator)>)
    ensures r.Ok? ==> r.value.1.code == Some(r.value.0) && r.value.1.unit == g.unit && r.value.1.tableSuper == g.tableSuper
    ensures g.code.None? ==> (r.Ok? <==> ClassCode(g.unit, g.tableSuper).Ok?)
  {
    if g.code.Some? then Ok((g.code.value, g))
    else
      var out :- ClassCode(g.unit, g.tableSuper);
      Ok((out.lines, g.(code := Some(out.lines), reports := g.reports + out.reports)))
  }

  /** Building again returns the same code and leaves the generator, reports included, as it was. */
  lemma BuildIdempotent(g: Generator)
    requires Build(g).Ok?
    ensures Build(Build(g).value.1) == Ok((Build(g).value.0, Build(g).value.1))
  {
  }
}

=== FILE: jasmin_ir.dfy ===
/**
 * The input and output of the Jasmin backend.
 *
 * Input: the OLLIR class unit as the OLLIR library hands it to JasminGenerator — typed
 * elements, instructions, per-method variable tables and label maps. Output: Jasmin
 * lines, kept as structured values rather than whitespace-exact text; `Render` says the
 * text each line stands for.
 */
module JasminIr {
  import opened Wrappers
  import Strings

  /** The library's element types; class-like types carry their class name. */
  datatype JType =
    | IntT
    | BoolT
    | ArrayT(elem: JType)
    | ObjectT(cls: string)
    | ClassT(cls: string)      // a class used as a static call target
    | ThisT(cls: string)
    | StringT
    | VoidT

  /** Operands of instructions: a literal, a named variable, or an indexed array variable. */
  datatype Element =
    | Literal(value: int, typ: JType)
    | Operand(name: string, typ: JType)
    | ArrayOperand(name: string, indices: seq<Element>, typ: JType)

  datatype OpType = Add | Sub | Mul | Div | AndB | OrB | NotB | Lth | Gth | Lte | Gte | Eq | Neq

  datatype CallKind = InvokeSpecial | InvokeStatic | InvokeVirtual | ArrayLengthCall | NewCall | LdcCall | OtherInvocation

  /**
   * Instructions. For a call, `operands` are the library's operand list (the caller
   * first), and `className`/`methodName` are the names the backend extracts from the
   * caller's and the method name's text.
   */
  datatype Instruction =
    | AssignI(dest: Element, rhs: Instruction)
    | CallI(kind: CallKind, operands: seq<Element>, className: string, methodName: string, args: seq<Element>, ret: JType)
    | GotoI(target: string)
    | BinaryOpI(left: Element, op: OpType, right: Element)
    | UnaryOpI(op: OpType, operand: Element)
    | SingleOpI(operand: Element)
    | OpCondI(cond: Instruction, target: string)
    | SingleOpCondI(cond: Instruction, target: string)
    | GetFieldI(obj: Element, field: Element)
    | PutFieldI(obj: Element, field: Element, value: Element)
    | ReturnI(result: Option<Element>)

  datatype Access = Public | Private | Protected | Default

  /** An entry of a method's variable table: its register and declared type. */
  datatype VarDesc = VarDesc(reg: int, varType: JType)

  datatype Field = Field(name: string, access: Access, typ: JType)

  /** A label of the method's label map: its name and the index of the instruction it marks. */
  datatype LabelAt = LabelAt(name: string, at: nat)

  datatype Method = Method(
    name: string,
    access: Access,
    isStatic: bool,
    isFinal: bool,
    isConstruct: bool,
    params: seq<JType>,
    ret: JType,
    instrs: seq<Instruction>,
    labels: seq<LabelAt>,          // in the map's iteration order
    varTable: map<string, VarDesc>)

  /** `superClass` is None when the OLLIR class has no `extends`. */
  datatype ClassUnit = ClassUnit(name: string, superClass: Option<string>, fields: seq<Field>, methods: seq<Method>)

  /** Branch targets: OLLIR's own labels and the backend's `MyLabelN`/`MySkipN`. */
  datatype JLabel = Named(name: string) | MyLabel(n: nat) | MySkip(n: nat)

  function LabelName(l: JLabel): string
  {
    match l
    case Named(name) => name
    case MyLabel(n) => "MyLabel" + Strings.IntToString(n)
    case MySkip(n) => "MySkip" + Strings.IntToString(n)
  }

  /** Lines of Jasmin output. */
  datatype Line =
    | Directive(text: string)             // ".class public A", ".limit stack 3", ...
    | Code(op: string, arg: string)       // "op" when arg is "", else "op arg"
    | Branch(op: string, target: JLabel)  // "op L"
    | Mark(lbl: JLabel)                   // "L:"

  /** The text a line stands for, without indentation. */
  function Render(l: Line): (s: string)
  {
    match l
    case Directive(t) => t
    case Code(op, arg) => if arg == "" then op else op + " " + arg
    case Branch(op, t) => op + " " + LabelName(t)
    case Mark(t) => LabelName(t) + ":"
  }
}

=== FILE: jasmin_machine.dfy ===
/**
 * A reference semantics for the part of the JVM instruction set the backend's branch
 * skeletons use: the integer conditional branches, `goto`, `ldc 0`/`ldc 1` and labels
 * (chapter 6 of the Java Virtual Machine Specification, instructions `if<cond>`,
 * `if_icmp<cond>`, `goto`, `ldc`).
 *
 * It is not part of the compiler; the backend's comparison code is proved against it.
 */
module JasminMachine {
  import opened Wrappers
  import opened JasminIr

  /** How many operands a branch opcode pops: 2 for `if_icmp<cond>`, 1 for `if<cond>`, 0 otherwise. */
  function Pops(op: string): nat
  {
    if op in {"if_icmplt", "if_icmpge", "if_icmpgt", "if_icmple", "if_icmpeq", "if_icmpne"} then 2
    else if op in {"iflt", "ifge", "ifgt", "ifle", "ifeq", "ifne"} then 1
    else 0
  }

  /** Whether the conditional branch `op` jumps on the popped values (deepest first). */
  function Jumps(op: string, popped: seq<int>): (r: Option<bool>)
    ensures r.Some? ==> |popped| == Pops(op) > 0
  {
    if |popped| == 2 && op == "if_icmplt" then Some(popped[0] < popped[1])
    else if |popped| == 2 && op == "if_icmpge" then Some(popped[0] >= popped[1])
    else if |popped| == 2 && op == "if_icmpgt" then Some(popped[0] > popped[1])
    else if |popped| == 2 && op == "if_icmple" then Some(popped[0] <= popped[1])
    else if |popped| == 2 && op == "if_icmpeq" then Some(popped[0] == popped[1])
    else if |popped| == 2 && op == "if_icmpne" then Some(popped[0] != popped[1])
    else if |popped| == 1 && op == "iflt" then Some(popped[0] < 0)
    else if |popped| == 1 && op == "ifge" then Some(popped[0] >= 0)
    else if |popped| == 1 && op == "ifgt" then Some(popped[0] > 0)
    else if |popped| == 1 && op == "ifle" then Some(popped[0] <= 0)
    else if |popped| == 1 && op == "ifeq" then Some(popped[0] == 0)
    else if |popped| == 1 && op == "ifne" then Some(popped[0] != 0)
    else None
  }

  /** The position of the first `L:` line of `code`. */
  function MarkIndex(code: seq<Line>, l: JLabel): (r: Option<nat>)
    ensures r.Some? ==> r.value < |code| && code[r.value] == Mark(l)
    ensures r.None? ==> Mark(l) !in code
  {
    if code == [] then None
    else if code[0] == Mark(l) then Some(0)
    else
      var rest := MarkIndex(code[1..], l);
      if rest.Some? then Some(rest.value + 1) else None
  }

  datatype State = State(pc: nat, stack: seq<int>)

  /**
   * One instruction. The machine is stuck (None) on a line it does not know, on a
   * conditional branch without enough operands, and on a jump to a label the code does
   * not define.
   */
  function Step(code: seq<Line>, st: State): Option<State>
    requires st.pc < |code|
  {
    var line := code[st.pc];
    if line.Mark? then Some(State(st.pc + 1, st.stack))
    else if line.Code? && line.op == "ldc" && line.arg == "0" then Some(State(st.pc + 1, st.stack + [0]))
    else if line.Code? && line.op == "ldc" && line.arg == "1" then Some(State(st.pc + 1, st.stack + [1]))
    else if line.Branch? && MarkIndex(code, line.target).Some? then
      var target := MarkIndex(code, line.target).value;
      if line.op == "goto" then Some(State(target, st.stack))
      else if 0 < Pops(line.op) <= |st.stack| then
        var k := |st.stack| - Pops(line.op);
        var jump := Jumps(line.op, st.stack[k..]);
        if jump.Some? then Some(State(if jump.value then target else st.pc + 1, st.stack[..k])) else None
      else None
    else None
  }

  /** Runs until the code falls off its end, for at most `fuel` steps. */
  function Run(code: seq<Line>, st: State, fuel: nat): Option<State>
    decreases fuel
  {
    if st.pc >= |code| then Some(st)
    else if fuel == 0 then None
    else
      var next := Step(code, st);
      if next.Some? then Run(code, next.value, fuel - 1) else None
  }
}

=== FILE: jasmin_utils.dfy ===
/**
 * MyJasminUtils: the stack tracker, the locals count, register suffixes, type
 * descriptors, stores, the stack slots the call helpers give back, the binary opcodes and
 * the 0/1 comparison skeleton.
 *
 * The Java helpers mutate a shared stack pointer and append reports as they go. Here a
 * helper returns a `Piece`: its lines, the stack deltas it applies in order, and the
 * reports it adds. The tracker is a fold of the deltas (`Track`).
 */
module JasminUtils {
  import opened Wrappers
  import opened Reports
  import opened JasminIr
  import opened JasminMachine
  import Strings

  // ---------------------------------------------------------------------------------
  // Stack tracker (`updateStackLimits`, `resetStackLimits`)
  // ---------------------------------------------------------------------------------

  /** The running stack pointer and its high-water mark. */
  datatype Tracker = Tracker(pointer: int, limit: int)

  /** `resetStackLimits`: both back to 0, before every method. */
  const Reset := Tracker(0, 0)

  function Max(a: int, b: int): int { if a >= b then a else b }

  /** `updateStackLimits`: move the pointer, raise the mark to it if it went higher. */
  function Update(t: Tracker, d: int): (r: Tracker)
    ensures r.pointer == t.pointer + d
    ensures r.limit >= t.limit && r.limit >= r.pointer
    ensures r.limit == t.limit || r.limit == r.pointer
  {
    Tracker(t.pointer + d, Max(t.limit, t.pointer + d))
  }

  /** The tracker after applying the deltas in order. */
  function Track(t: Tracker, ds: seq<int>): Tracker
    decreases |ds|
  {
    if ds == [] then t else Track(Update(t, ds[0]), ds[1..])
  }

  function Sum(ds: seq<int>): int
  {
    if ds == [] then 0 else ds[0] + Sum(ds[1..])
  }

  /** The highest running sum of the deltas, counting the empty prefix (0). */
  function HighWater(ds: seq<int>): (h: int)
    ensures h >= 0
  {
    if ds == [] then 0 else Max(0, ds[0] + HighWater(ds[1..]))
  }

  /**
   * The tracker's closed form: the pointer moves by the sum of the deltas, and the mark
   * becomes the higher of the old mark and the highest pointer reached.
   */
  lemma {:induction false} TrackIsHighWater(t: Tracker, ds: seq<int>)
    requires t.limit >= t.pointer
    ensures Track(t, ds) == Tracker(t.pointer + Sum(ds), Max(t.limit, t.pointer + HighWater(ds)))
    decreases |ds|
  {
    if ds != [] {
      TrackIsHighWater(Update(t, ds[0]), ds[1..]);
    }
  }

  lemma {:induction false} SumAppend(a: seq<int>, b: seq<int>)
    ensures Sum(a + b) == Sum(a) + Sum(b)
    decreases |a|
  {
    if a == [] {
      assert a + b == b;
    } else {
      assert (a + b)[1..] == a[1..] + b;
      SumAppend(a[1..], b);
    }
  }

  /** Applying two runs of deltas one after the other is applying their concatenation. */
  lemma {:induction false} TrackAppend(t: Tracker, a: seq<int>, b: seq<int>)
    ensures Track(t, a + b) == Track(Track(t, a), b)
    decreases |a|
  {
    if a == [] {
      assert a + b == b;
    } else {
      assert (a + b)[1..] == a[1..] + b;
      TrackAppend(Update(t, a[0]), a[1..], b);
    }
  }

  /**
   * The high-water mark is exactly the maximum over all prefixes of their running sum:
   * no prefix goes above it, and some prefix reaches it.
   */
  lemma {:induction false} HighWaterIsMaxPrefix(ds: seq<int>)
    ensures forall k :: 0 <= k <= |ds| ==> Sum(ds[..k]) <= HighWater(ds)
    ensures exists k :: 0 <= k <= |ds| && Sum(ds[..k]) == HighWater(ds)
    decreases |ds|
  {
    assert Sum(ds[..0]) == 0 by { assert ds[..0] == []; }
    if ds != [] {
      var rest := ds[1..];
      HighWaterIsMaxPrefix(rest);
      forall k | 1 <= k <= |ds|
        ensures Sum(ds[..k]) == ds[0] + Sum(rest[..k - 1])
      {
        assert ds[..k][1..] == rest[..k - 1];
      }
      var j :| 0 <= j <= |rest| && Sum(rest[..j]) == HighWater(rest);
      if ds[0] + HighWater(rest) >= 0 {
        assert Sum(ds[..j + 1]) == HighWater(ds);
      } else {
        assert Sum(ds[..0]) == HighWater(ds);
      }
    }
  }

  // ---------------------------------------------------------------------------------
  // Locals (`getLocalsNum`) and register suffixes (`generateVarNumber`)
  // ---------------------------------------------------------------------------------

  /** The registers of a method's variable table. */
  function Regs(vt: map<string, VarDesc>): set<int>
  {
    set x | x in vt :: vt[x].reg
  }

  /** `getLocalsNum`: the number of distinct registers, register 0 always counted. */
  function LocalsNum(vt: map<string, VarDesc>): (n: nat)
    ensures n >= 1
    ensures 0 in Regs(vt) ==> n == |Regs(vt)|
    ensures 0 !in Regs(vt) ==> n == |Regs(vt)| + 1
  {
    var regs := Regs(vt);
    ZeroAdded(regs);
    |{0} + regs|
  }

  lemma ZeroAdded(regs: set<int>)
    ensures 0 in regs ==> |{0} + regs| == |regs|
    ensures 0 !in regs ==> |{0} + regs| == |regs| + 1
  {
    if 0 in regs {
      assert {0} + regs == regs;
    } else {
      assert {0} + regs == regs + {0};
    }
  }

  /** The registers 0 to k - 1. */
  function Interval(k: nat): (r: set<int>)
    ensures |r| == k
    ensures forall i :: i in r <==> 0 <= i < k
  {
    if k == 0 then {} else Interval(k - 1) + {k - 1}
  }

  /**
   * With the registers allocated from 0 without gaps (register 0 counted), the count is
   * one more than the highest register, so every variable's register fits in the frame.
   */
  lemma LocalsCoverContiguous(vt: map<string, VarDesc>, k: nat)
    requires {0} + Regs(vt) == Interval(k)
    ensures LocalsNum(vt) == k
    ensures forall x :: x in vt ==> 0 <= vt[x].reg < LocalsNum(vt)
  {
    forall x | x in vt
      ensures 0 <= vt[x].reg < k
    {
      assert vt[x].reg in Regs(vt);
    }
  }

  /**
   * `generateVarNumber`: `_0` for `this`; otherwise the variable's register, after `_` for
   * registers up to 3 (the short `iload_<n>` forms) and after a space above. A variable
   * missing from the table is a null dereference.
   */
  function VarNumber(vt: map<string, VarDesc>, name: string): (r: Outcome<string>)
    ensures name == "this" ==> r == Ok("_0")
    ensures name != "this" ==> (r.Ok? <==> name in vt)
    ensures r.Ok? ==> |r.value| >= 2
    ensures name != "this" && r.Ok? ==> (r.value[0] == '_' <==> vt[name].reg <= 3)
  {
    if name == "this" then Ok("_0")
    else if name !in vt then Crash(NullType)
    else
      var reg := vt[name].reg;
      Ok((if reg <= 3 then "_" else " ") + Strings.IntToString(reg))
  }

  /** Variables in different registers get different suffixes, so their loads differ. */
  lemma VarNumberDistinct(vt: map<string, VarDesc>, a: string, b: string)
    requires a in vt && b in vt && a != "this" && b != "this" && vt[a].reg != vt[b].reg
    ensures VarNumber(vt, a).value != VarNumber(vt, b).value
  {
    var ra, rb := vt[a].reg, vt[b].reg;
    if (ra <= 3) == (rb <= 3) {
      Strings.PrefixedNamesDistinct(if ra <= 3 then "_" else " ", ra, rb);
    } else {
      assert VarNumber(vt, a).value[0] != VarNumber(vt, b).value[0];
    }
  }

  // ---------------------------------------------------------------------------------
  // Type descriptors (`solveType`, `convertClassName`), section 4.3 of the JVM Specification
  // ---------------------------------------------------------------------------------

  /** `convertClassName`: `this` stands for the class being generated. */
  function ConvertClassName(c: string, cls: string): (r: string)
    ensures c == "this" ==> r == cls
    ensures c != "this" ==> r == c
  {
    if c == "this" then cls else c
  }

  /** A text together with the reports produced while building it. */
  datatype Desc = Desc(text: string, reports: seq<Report>)

  /** Types with a descriptor: no class-reference or `this` types anywhere. */
  predicate Recognized(t: JType)
  {
    if t.ArrayT? then Recognized(t.elem) else !t.ClassT? && !t.ThisT?
  }

  /**
   * `solveType`: `[` before the element type of an array, `I`, `Z`, `V`, `L<class>;` for
   * objects (and strings), and `ERROR` with a report for any other type.
   */
  function SolveType(t: JType, cls: string): (r: Desc)
    ensures r.reports == [] <==> Recognized(t)
    ensures |r.text| >= 1
  {
    if t.ArrayT? then
      var d := SolveType(t.elem, cls);
      Desc("[" + d.text, d.reports)
    else if t.IntT? then Desc("I", [])
    else if t.BoolT? then Desc("Z", [])
    else if t.ObjectT? then Desc("L" + ConvertClassName(t.cls, cls) + ";", [])
    else if t.StringT? then Desc("Ljava/lang/String;", [])
    else if t.VoidT? then Desc("V", [])
    else Desc("ERROR", [Gen(VarTypeNotRecognized)])
  }

  /** The descriptors of several types, one after the other. */
  function SolveTypes(ts: seq<JType>, cls: string): (r: Desc)
    ensures r.reports == [] <==> forall i :: 0 <= i < |ts| ==> Recognized(ts[i])
  {
    if ts == [] then Desc("", [])
    else
      var d := SolveType(ts[0], cls);
      var rest := SolveTypes(ts[1..], cls);
      Desc(d.text + rest.text, d.reports + rest.reports)
  }

  /** A method descriptor: `(` parameter descriptors `)` return descriptor. */
  function MethodDescriptor(ps: seq<JType>, ret: JType, cls: string): (r: Desc)
    ensures |r.text| >= 3 && r.text[0] == '('
    ensures r.reports == [] <==> Recognized(ret) && forall i :: 0 <= i < |ps| ==> Recognized(ps[i])
  {
    var p := SolveTypes(ps, cls);
    var d := SolveType(ret, cls);
    Desc("(" + p.text + ")" + d.text, p.reports + d.reports)
  }

  /** The first position at or after `from` holding `c`. */
  function IndexOf(s: string, c: char, from: nat): (r: Option<nat>)
    requires from <= |s|
    ensures r.Some? ==> from <= r.value < |s| && s[r.value] == c
    ensures r.Some? ==> forall i :: from <= i < r.value ==> s[i] != c
    ensures r.None? ==> forall i :: from <= i < |s| ==> s[i] != c
    decreases |s| - from
  {
    if from == |s| then None else if s[from] == c then Some(from) else IndexOf(s, c, from + 1)
  }

  /** Reads one field descriptor from the front of `s`; the rest of `s` comes back too. */
  function DecodeType(s: string): (r: Option<(JType, string)>)
    ensures r.Some? ==> |r.value.1| < |s|
    decreases |s|
  {
    if s == [] then None
    else if s[0] == 'I' then Some((IntT, s[1..]))
    else if s[0] == 'Z' then Some((BoolT, s[1..]))
    else if s[0] == 'V' then Some((VoidT, s[1..]))
    else if s[0] == '[' then
      var e := DecodeType(s[1..]);
      if e.Some? then Some((ArrayT(e.value.0), e.value.1)) else None
    else if s[0] == 'L' then
      var j := IndexOf(s, ';', 1);
      if j.None? then None
      else
        var name := s[1..j.value];
        Some((if name == "java/lang/String" then StringT else ObjectT(name), s[j.value + 1..]))
    else None
  }

  /** A class name a descriptor can carry unambiguously. */
  predicate PlainClassName(c: string)
  {
    (forall i :: 0 <= i < |c| ==> c[i] != ';') && c != "java/lang/String"
  }

  /** Types whose descriptor reads back: recognized, with plain class names. */
  predicate Describable(t: JType, cls: string)
  {
    if t.ArrayT? then Describable(t.elem, cls)
    else if t.ObjectT? then PlainClassName(ConvertClassName(t.cls, cls))
    else !t.ClassT? && !t.ThisT?
  }

  /** What a descriptor means: `this` replaced by the class name. */
  function Normal(t: JType, cls: string): JType
  {
    if t.ArrayT? then ArrayT(Normal(t.elem, cls))
    else if t.ObjectT? then ObjectT(ConvertClassName(t.cls, cls))
    else t
  }

  /** Field descriptors read back: decoding a descriptor gives the type and leaves the rest. */
  lemma {:induction false} DescriptorRoundTrip(t: JType, cls: string, rest: string)
    requires Describable(t, cls)
    ensures DecodeType(SolveType(t, cls).text + rest) == Some((Normal(t, cls), rest))
  {
    var s := SolveType(t, cls).text + rest;
    if t.ArrayT? {
      DescriptorRoundTrip(t.elem, cls, rest);
      assert s[1..] == SolveType(t.elem, cls).text + rest;
    } else if t.ObjectT? {
      ClassDescriptorRoundTrip(ConvertClassName(t.cls, cls), rest);
    } else if t.StringT? {
      StringDescriptorRoundTrip(rest);
    } else {
      assert s[1..] == rest;
    }
  }

  lemma StringDescriptorRoundTrip(rest: string)
    ensures DecodeType("Ljava/lang/String;" + rest) == Some((StringT, rest))
  {
    ClassDescriptorRoundTrip("java/lang/String", rest);
    assert "L" + "java/lang/String" + ";" == "Ljava/lang/String;";
  }

  /** `L<c>;` reads back as the class name `c`. */
  lemma ClassDescriptorRoundTrip(c: string, rest: string)
    requires forall i :: 0 <= i < |c| ==> c[i] != ';'
    ensures DecodeType("L" + c + ";" + rest) ==
      Some((if c == "java/lang/String" then StringT else ObjectT(c), rest))
  {
    var s := "L" + c + ";" + rest;
    assert s[|c| + 1] == ';';
    forall i | 1 <= i < |c| + 1
      ensures s[i] != ';'
    {
      assert s[i] == c[i - 1];
    }
    IndexOfFinds(s, ';', 1, |c| + 1);
    assert s[1..|c| + 1] == c;
    assert s[|c| + 2..] == rest;
  }

  lemma {:induction false} IndexOfFinds(s: string, c: char, from: nat, j: nat)
    requires from <= j < |s| && s[j] == c
    requires forall i :: from <= i < j ==> s[i] != c
    ensures IndexOf(s, c, from) == Some(j)
    decreases j - from
  {
    if from < j {
      IndexOfFinds(s, c, from + 1, j);
    }
  }

  /** Reads field descriptors up to the closing `)`. */
  function DecodeTypes(s: string): (r: Option<(seq<JType>, string)>)
    decreases |s|
  {
    if s == [] then None
    else if s[0] == ')' then Some(([], s[1..]))
    else
      var one := DecodeType(s);
      if one.None? then None
      else
        var more := DecodeTypes(one.value.1);
        if more.None? then None else Some(([one.value.0] + more.value.0, more.value.1))
  }

  /** Reads a whole method descriptor. */
  function DecodeMethod(s: string): Option<(seq<JType>, JType)>
  {
    if s == [] || s[0] != '(' then None
    else
      var ps := DecodeTypes(s[1..]);
      if ps.None? then None
      else
        var ret := DecodeType(ps.value.1);
        if ret.None? || ret.value.1 != "" then None else Some((ps.value.0, ret.value.0))
  }

  function NormalAll(ts: seq<JType>, cls: string): (r: seq<JType>)
    ensures |r| == |ts|
  {
    if ts == [] then [] else [Normal(ts[0], cls)] + NormalAll(ts[1..], cls)
  }

  lemma {:induction false} DescriptorsRoundTrip(ts: seq<JType>, cls: string, rest: string)
    requires forall i :: 0 <= i < |ts| ==> Describable(ts[i], cls)
    ensures DecodeTypes(SolveTypes(ts, cls).text + ")" + rest) == Some((NormalAll(ts, cls), rest))
    decreases |ts|
  {
    if ts == [] {
      assert SolveTypes(ts, cls).text + ")" + rest == ")" + rest;
    } else {
      var tail := SolveTypes(ts[1..], cls).text + ")" + rest;
      assert SolveTypes(ts, cls).text + ")" + rest == SolveType(ts[0], cls).text + tail;
      DescriptorRoundTrip(ts[0], cls, tail);
      DescriptorsRoundTrip(ts[1..], cls, rest);
      assert SolveType(ts[0], cls).text[0] != ')';
    }
  }

  /** Method descriptors read back into their parameter and return types. */
  lemma MethodDescriptorRoundTrip(ps: seq<JType>, ret: JType, cls: string)
    requires forall i :: 0 <= i < |ps| ==> Describable(ps[i], cls)
    requires Describable(ret, cls)
    ensures DecodeMethod(MethodDescriptor(ps, ret, cls).text) == Some((NormalAll(ps, cls), Normal(ret, cls)))
  {
    var r := SolveType(ret, cls).text;
    var s := MethodDescriptor(ps, ret, cls).text;
    assert s[1..] == SolveTypes(ps, cls).text + ")" + r;
    DescriptorsRoundTrip(ps, cls, r);
    DescriptorRoundTrip(ret, cls, "");
    assert r + "" == r;
  }

  // ---------------------------------------------------------------------------------
  // Pieces of code, stores, calls, operators
  // ---------------------------------------------------------------------------------

  /** Lines, the stack deltas applied while producing them, and the reports added. */
  datatype Piece = Piece(lines: seq<Line>, deltas: seq<int>, reports: seq<Report>)

  const Empty := Piece([], [], [])

  /** One piece after another. */
  function Then(a: Piece, b: Piece): Piece
  {
    Piece(a.lines + b.lines, a.deltas + b.deltas, a.reports + b.reports)
  }

  /** `solveAccessModifier`: the package-private default is written `protected`. */
  function AccessText(a: Access): (r: string)
    ensures |r| >= 2 && r[|r| - 1] == ' '
    ensures r == "protected " <==> a == Protected || a == Default
  {
    match a
    case Public => "public "
    case Private => "private "
    case Protected => "protected "
    case Default => "protected "
  }

  /** Whether a type is an int or boolean element type (the `i` opcode family). */
  predicate IntLike(t: JType)
  {
    t.IntT? || t.BoolT?
  }

  /**
   * `generateStore`: an int or boolean value goes into an array-declared variable with
   * `iastore` (popping array, index and value), into any other variable with `istore`;
   * references use `astore`. The variable's table entry is read first, so a variable
   * missing from the table is a null dereference.
   */
  function Store(vt: map<string, VarDesc>, name: string, typ: JType): (r: Outcome<Piece>)
    ensures r.Ok? <==> name in vt
  {
    if name !in vt then Crash(NullType)
    else
      var declared := vt[name].varType;
      if IntLike(typ) then
        if declared.ArrayT? then Ok(Piece([Code("iastore", "")], [-3], []))
        else Ok(Piece([Code("istore" + VarNumber(vt, name).value, "")], [-1], []))
      else if typ.ObjectT? || typ.StringT? || typ.ArrayT? || typ.ThisT? then
        Ok(Piece([Code("astore" + VarNumber(vt, name).value, "")], [-1], []))
      else Ok(Piece([Code("STORE ERROR", "")], [], [Gen(VarTypeNotRecognized)]))
  }

  /** Whether `s` begins with `p`. */
  predicate StartsWith(s: string, p: string)
  {
    |p| <= |s| && s[..|p|] == p
  }

  /**
   * The operand-stack effect of the store opcodes, after chapter 6 of the JVM
   * Specification: `iastore` pops array, index and value; `istore`/`astore` (with or
   * without a register suffix) pop one value.
   */
  function StoreEffect(op: string): Option<int>
  {
    if op == "iastore" then Some(-3)
    else if StartsWith(op, "istore") || StartsWith(op, "astore") then Some(-1)
    else None
  }

  /** The tracked delta of every recognized store is the JVM's effect of the opcode it emits. */
  lemma StoreTracksJvm(vt: map<string, VarDesc>, name: string, typ: JType)
    requires name in vt && !typ.ClassT? && !typ.VoidT?
    ensures |Store(vt, name, typ).value.lines| == 1 && Store(vt, name, typ).value.lines[0].Code?
    ensures StoreEffect(Store(vt, name, typ).value.lines[0].op) == Some(Sum(Store(vt, name, typ).value.deltas))
    ensures Store(vt, name, typ).value.lines[0].op == "iastore" <==> IntLike(typ) && vt[name].varType.ArrayT?
  {
    var vn := VarNumber(vt, name).value;
    assert ("istore" + vn)[..6] == "istore";
    assert ("astore" + vn)[..6] == "astore";
    assert |"istore" + vn| > 7;
    assert |"astore" + vn| > 7;
  }

  /**
   * The slots a call helper gives back after the call (the Java code then moves the
   * pointer by minus this amount): none for `invokespecial`, one fewer than the argument
   * count for `invokestatic`, the argument count for `invokevirtual`, two fewer than the
   * argument count for `new` of an object or array, none otherwise.
   */
  function Reclaim(kind: CallKind, ret: JType, argc: nat): (r: int)
    ensures kind == InvokeSpecial ==> r == 0
    ensures kind == InvokeStatic ==> r == argc - 1
    ensures kind == InvokeVirtual ==> r == argc
    ensures kind == NewCall ==> r == (if ret.ObjectT? || ret.ArrayT? then argc - 2 else 0)
    ensures kind in {ArrayLengthCall, LdcCall, OtherInvocation} ==> r == 0
  {
    if kind == InvokeStatic then argc - 1
    else if kind == InvokeVirtual then argc
    else if kind == NewCall && (ret.ObjectT? || ret.ArrayT?) then argc - 2
    else 0
  }

  /** `solveBinOp`: the opcode of an operation, None for the ones it reports as unknown. */
  function BinOpcode(op: OpType): (r: Option<string>)
    ensures r.Some? <==> op in {Add, Mul, Div, Sub, AndB, NotB, Lth, Gth}
  {
    match op
    case Add => Some("iadd")
    case Mul => Some("imul")
    case Div => Some("idiv")
    case Sub => Some("isub")
    case AndB => Some("iand")
    case NotB => Some("ifeq")
    case Lth => Some("if_icmplt")
    case Gth => Some("if_icmpgt")
    case _ => None
  }

  /** Different operations get different opcodes. */
  lemma BinOpcodeInjective(a: OpType, b: OpType)
    requires BinOpcode(a).Some? && BinOpcode(a) == BinOpcode(b)
    ensures a == b
  {
  }

  /** The opcode text, `ERROR` for an unknown operation. */
  function OpcodeText(op: OpType): (r: string)
    ensures BinOpcode(op).Some? ==> r == BinOpcode(op).value
    ensures r == "ERROR" <==> BinOpcode(op).None?
  {
    if BinOpcode(op).Some? then BinOpcode(op).value else "ERROR"
  }

  function OpReports(op: OpType): seq<Report>
  {
    if BinOpcode(op).Some? then [] else [Gen(OperationNotRecognized)]
  }

  /**
   * `pushComparisonResultToStack` after its branch: push 0, skip over the push of 1, and
   * define both labels, numbered by the label counter.
   */
  function ComparisonTail(n: nat): seq<Line>
  {
    [Code("ldc", "0"), Branch("goto", MySkip(n)), Mark(MyLabel(n)), Code("ldc", "1"), Mark(MySkip(n))]
  }

  /** A conditional branch to `MyLabelN` followed by the comparison tail. */
  function Skeleton(op: string, n: nat): (r: seq<Line>)
    ensures |r| == 6
    ensures r[0] == Branch(op, MyLabel(n)) && r[2] == Branch("goto", MySkip(n))
    ensures r[1] == Code("ldc", "0") && r[4] == Code("ldc", "1")
    ensures r[3] == Mark(MyLabel(n)) && r[5] == Mark(MySkip(n))
  {
    [Branch(op, MyLabel(n))] + ComparisonTail(n)
  }

  lemma SkeletonMarks(op: string, n: nat)
    ensures MarkIndex(Skeleton(op, n), MyLabel(n)) == Some(3)
    ensures MarkIndex(Skeleton(op, n), MySkip(n)) == Some(5)
  {
    var k := Skeleton(op, n);
    assert k[1..][1..][1..] == k[3..];
    assert k[3..][1..][1..] == k[5..];
  }

  /**
   * The skeleton turns a conditional branch into a value: run on the branch's operands,
   * it leaves 1 where the branch jumps and 0 where it falls through, below them nothing
   * changes.
   */
  lemma SkeletonComputes(op: string, n: nat, below: seq<int>, popped: seq<int>)
    requires Jumps(op, popped).Some?
    ensures Run(Skeleton(op, n), State(0, below + popped), 6) ==
      Some(State(6, below + [if Jumps(op, popped).value then 1 else 0]))
  {
    var k := Skeleton(op, n);
    SkeletonMarks(op, n);
    var stack := below + popped;
    assert stack[|below|..] == popped && stack[..|below|] == below;
    if Jumps(op, popped).value {
      assert Step(k, State(0, stack)) == Some(State(3, below));
      assert Step(k, State(3, below)) == Some(State(4, below));
      assert Step(k, State(4, below)) == Some(State(5, below + [1]));
      assert Step(k, State(5, below + [1])) == Some(State(6, below + [1]));
    } else {
      assert Step(k, State(0, stack)) == Some(State(1, below));
      assert Step(k, State(1, below)) == Some(State(2, below + [0]));
      assert Step(k, State(2, below + [0])) == Some(State(5, below + [0]));
      assert Step(k, State(5, below + [0])) == Some(State(6, below + [0]));
    }
  }
}

=== FILE: jmm.dfy ===
/**
 * The Java-- program as the compiler sees it after parsing: the typed symbol table and
 * the abstract syntax tree of one class.
 *
 * Each syntax-tree node kind of the grammar is one constructor; the attributes the
 * compiler reads through `JmmNode.get` are the constructor's fields, and the helpers at
 * the end of this module say which kinds carry the `name`, `value` and `field` attributes.
 */
module Jmm {
  import opened Wrappers
  import Strings

  const IntName := "int"
  const BoolName := "boolean"
  const StringName := "String"
  const VoidName := "void"

  /** A source-level type: a name and whether it is an array of that name. */
  datatype Type = Type(name: string, isArray: bool)

  const IntType := Type(IntName, false)
  const BoolType := Type(BoolName, false)
  const IntArrayType := Type(IntName, true)

  datatype Symbol = Symbol(name: string, typ: Type)

  /**
   * The symbol table of the one class of a program. Imports are the last segment of each
   * import declaration; `superName` is "" when the class extends nothing; per-method maps
   * are keyed by method name, so overloads share one entry.
   */
  datatype SymbolTable = SymbolTable(
    imports: seq<string>,
    className: string,
    superName: string,
    fields: seq<Symbol>,
    methods: seq<string>,
    returnTypes: map<string, Type>,
    params: map<string, seq<Symbol>>,
    locals: map<string, seq<Symbol>>)
  {
    /** `getReturnType`: null (None) for a method the table does not know. */
    function ReturnType(m: string): (r: Option<Type>)
      ensures r.Some? <==> m in returnTypes
      ensures r.Some? ==> r.value == returnTypes[m]
    {
      if m in returnTypes then Some(returnTypes[m]) else None
    }

    /** `getParameters`; a method the table does not know has no parameters. */
    function Parameters(m: string): (r: seq<Symbol>)
      ensures m in params ==> r == params[m]
      ensures m !in params ==> r == []
    {
      if m in params then params[m] else []
    }

    /** `getLocalVariables`; a method the table does not know has no locals. */
    function Locals(m: string): (r: seq<Symbol>)
      ensures m in locals ==> r == locals[m]
      ensures m !in locals ==> r == []
    {
      if m in locals then locals[m] else []
    }
  }

  /** A `Type` node of the tree: `isVarArgs` marks the `int...` parameter form. */
  datatype TypeNode = TypeNode(name: string, isArray: bool, isVarArgs: bool)

  datatype Param = Param(name: string, typ: TypeNode)

  datatype VarDecl = VarDecl(name: string, typ: TypeNode)

  /** Expression node kinds. */
  datatype Expr =
    | IntegerLiteral(intValue: int)
    | BooleanLiteral(boolValue: bool)
    | VarRefExpr(name: string)
    | ThisExpr
    | BinaryExpr(op: string, left: Expr, right: Expr)
    | Not(operand: Expr)
    | ParenthesesExpr(inner: Expr)
    | AccessExpr(arr: Expr, index: Expr)          // a[i]
    | ArrayAccess(arr: Expr, index: Expr)         // the alternative a[i] production
    | ArrayLength(arr: Expr)                      // a.length, the method-style form
    | FieldAccess(obj: Expr, field: string)         // a.length and other field reads
    | FunctionCallExpr(receiver: Expr, func: string, args: seq<Expr>)
    | NewObjectExpr(className: string)
    | NewVectorExpr(elemType: TypeNode, sizes: seq<Expr>)
    | ElementExpr(elements: seq<Expr>)             // [e1, e2, ...]

  /** Statement node kinds; `BlockStmt` is `{ ... }` and `ExprStmt` is `e;`. */
  datatype Stmt =
    | AssignStmt(target: Expr, value: Expr)
    | IfStmt(cond: Expr, thenBranch: Stmt, elseBranch: Option<Stmt>)
    | WhileStmt(cond: Expr, body: Stmt)
    | ReturnStmt(result: Option<Expr>)
    | ExprStmt(expr: Expr)
    | BlockStmt(stmts: seq<Stmt>)

  /** The children of a method declaration after its header, in source order. */
  datatype BodyItem = Local(decl: VarDecl) | Statement(stmt: Stmt)

  datatype MethodDecl = MethodDecl(
    name: string,
    isPublic: bool,
    isStatic: bool,
    retType: TypeNode,
    params: seq<Param>,
    body: seq<BodyItem>)

  datatype ClassMember = FieldMember(decl: VarDecl) | MethodMember(methodDecl: MethodDecl)

  /** `superName` is "" when the class has no `extends` clause. */
  datatype ClassDecl = ClassDecl(name: string, superName: string, members: seq<ClassMember>)

  /** A program: the ids of its import declarations, then its single class. */
  datatype Program = Program(importIds: seq<string>, cls: ClassDecl)

  /** The local variable declarations of a method body, in order. */
  function LocalDecls(body: seq<BodyItem>): (r: seq<VarDecl>)
    ensures |r| <= |body|
    ensures forall d :: d in r <==> Local(d) in body
  {
    if body == [] then []
    else (if body[0].Local? then [body[0].decl] else []) + LocalDecls(body[1..])
  }

  /** The `name` attribute: variable references, `this` and object creations carry one. */
  function NameAttr(e: Expr): (r: Option<string>)
    ensures r.Some? <==> (e.VarRefExpr? || e.ThisExpr? || e.NewObjectExpr?)
  {
    match e
    case VarRefExpr(n) => Some(n)
    case ThisExpr => Some("this")
    case NewObjectExpr(n) => Some(n)
    case _ => None
  }

  /** The `value` attribute: the literal's source text. */
  function ValueAttr(e: Expr): (r: Option<string>)
    ensures r.Some? <==> (e.IntegerLiteral? || e.BooleanLiteral?)
  {
    match e
    case IntegerLiteral(v) => Some(IntText(v))
    case BooleanLiteral(b) => Some(if b then "true" else "false")
    case _ => None
  }

  /** Source text of an integer literal. */
  function IntText(v: int): (s: string)
    ensures |s| >= 1
  {
    Strings.IntToString(v)
  }

  /** The children of an expression node, in tree order (a `Type` child is omitted). */
  function Children(e: Expr): (r: seq<Expr>)
    ensures forall c :: c in r ==> c < e
  {
    match e
    case BinaryExpr(_, l, r) => [l, r]
    case Not(x) => [x]
    case ParenthesesExpr(x) => [x]
    case AccessExpr(a, i) => [a, i]
    case ArrayAccess(a, i) => [a, i]
    case ArrayLength(a) => [a]
    case FieldAccess(o, _) => [o]
    case FunctionCallExpr(r, _, args) => [r] + args
    case NewVectorExpr(_, sizes) => sizes
    case ElementExpr(elems) => elems
    case _ => []
  }

  /** The first symbol named `name` in `syms`, as the Java loops over symbol lists find it. */
  function FirstSymbol(syms: seq<Symbol>, name: string): (r: Option<Type>)
    ensures r.Some? <==> exists i :: 0 <= i < |syms| && syms[i].name == name
    ensures r.Some? ==> exists i :: 0 <= i < |syms| && syms[i].name == name && syms[i].typ == r.value
  {
    if syms == [] then None
    else if syms[0].name == name then Some(syms[0].typ)
    else
      var r := FirstSymbol(syms[1..], name);
      assert forall i :: 1 <= i < |syms| ==> syms[i] == syms[1..][i - 1];
      r
  }

  /** Searching a concatenation finds the first list's match before looking at the second. */
  lemma {:induction false} FirstSymbolAppend(a: seq<Symbol>, b: seq<Symbol>, name: string)
    ensures FirstSymbol(a + b, name) == if FirstSymbol(a, name).Some? then FirstSymbol(a, name) else FirstSymbol(b, name)
    decreases |a|
  {
    if a != [] {
      assert (a + b)[1..] == a[1..] + b;
      FirstSymbolAppend(a[1..], b, name);
    } else {
      assert a + b == b;
    }
  }
}

=== FILE: method_call_check.dfy ===
/**
 * MethodCallCheck: declared methods, method-call arguments and return statements.
 */
module MethodCallCheck {
  import opened Wrappers
  import opened Jmm
  import opened Reports
  import opened Analysis

  /**
   * `isMethodDeclared`: a method of the current class or of its superclass must be in the
   * table's method list; in any other class, that class must be imported.
   */
  predicate IsMethodDeclared(t: SymbolTable, methodName: string, className: string)
  {
    if className == t.className || className == t.superName then methodName in t.methods
    else className in t.imports
  }

  /** `visitMethodDeclaration`: one report for a method the table does not declare. */
  function VisitMethodDeclaration(t: SymbolTable, cls: ClassDecl, m: MethodDecl): (rs: seq<Report>)
    ensures rs == [] <==> IsMethodDeclared(t, m.name, cls.name)
    ensures |rs| <= 1
  {
    if IsMethodDeclared(t, m.name, cls.name) then [] else [Sem(UndeclaredMethod)]
  }

  /** `getMethodHeader`: the first method of the class with the called name. */
  function MethodHeader(methods: seq<MethodDecl>, func: string): (r: Option<MethodDecl>)
    ensures r.Some? ==> r.value in methods && r.value.name == func
    ensures r.None? <==> forall i :: 0 <= i < |methods| ==> methods[i].name != func
  {
    if methods == [] then None
    else if methods[0].name == func then Some(methods[0])
    else MethodHeader(methods[1..], func)
  }

  /**
   * The varargs half of a parameter check, from argument `i` on: the typing reports of the
   * remaining arguments, then one mismatch unless every one of them has the element type.
   */
  function VarArgsCheck(env: Scope, expected: SemType, args: seq<Expr>, i: nat): (r: Outcome<seq<Report>>)
    requires !expected.Unknown? && i <= |args|
    ensures r.Ok? ==> CountOf(r.value, ArgumentTypeMismatch) <= 1 && CountOf(r.value, FewerArguments) == 0
    ensures r.Ok? ==> CountOf(r.value, ObjectNotFound) == 0
    ensures r.Ok? ==> (CountOf(r.value, ArgumentTypeMismatch) == 0 <==> forall j :: i <= j < |args| ==> HasType(env, args[j], expected))
  {
    var same :- AllSameType(env, expected, args[i..]);
    SuffixHasType(env, expected, args, i);
    Ok(Verdict(same))
  }

  /** Every argument of the suffix from `i` has type `t` exactly when every argument from position `i` on has. */
  lemma SuffixHasType(env: Scope, t: SemType, args: seq<Expr>, i: nat)
    requires i <= |args|
    ensures (forall j :: 0 <= j < |args[i..]| ==> HasType(env, args[i..][j], t)) <==>
            (forall j :: i <= j < |args| ==> HasType(env, args[j], t))
  {
    assert forall j :: i <= j < |args| ==> args[j] == args[i..][j - i];
  }

  /** The reports of a type-agreement check, then one mismatch exactly when it failed. */
  function Verdict(same: Checked): (r: seq<Report>)
    requires OnlyMismatchReports(same.reports)
    ensures CountOf(r, ArgumentTypeMismatch) <= 1 && CountOf(r, FewerArguments) == 0 && CountOf(r, ObjectNotFound) == 0
    ensures CountOf(r, ArgumentTypeMismatch) == 0 <==> same.ok
  {
    OnlyMismatchCountsNothingElse(same.reports, ArgumentTypeMismatch);
    OnlyMismatchCountsNothingElse(same.reports, FewerArguments);
    OnlyMismatchCountsNothingElse(same.reports, ObjectNotFound);
    var own := if same.ok then [] else [Sem(ArgumentTypeMismatch)];
    CountOfAppend(same.reports, own, ArgumentTypeMismatch);
    CountOfAppend(same.reports, own, FewerArguments);
    CountOfAppend(same.reports, own, ObjectNotFound);
    same.reports + own
  }

  /** The plain half of a parameter check: the argument's typing reports, then one mismatch unless its type is the parameter's. */
  function PlainCheck(actual: Typed, expected: SemType): (r: seq<Report>)
    requires OnlyMismatchReports(actual.reports)
    ensures CountOf(r, ArgumentTypeMismatch) <= 1 && CountOf(r, FewerArguments) == 0 && CountOf(r, ObjectNotFound) == 0
    ensures CountOf(r, ArgumentTypeMismatch) == 0 <==> actual.typ == expected
  {
    OnlyMismatchCountsNothingElse(actual.reports, ArgumentTypeMismatch);
    OnlyMismatchCountsNothingElse(actual.reports, FewerArguments);
    OnlyMismatchCountsNothingElse(actual.reports, ObjectNotFound);
    var own := if expected != actual.typ then [Sem(ArgumentTypeMismatch)] else [];
    CountOfAppend(actual.reports, own, ArgumentTypeMismatch);
    CountOfAppend(actual.reports, own, FewerArguments);
    CountOfAppend(actual.reports, own, ObjectNotFound);
    actual.reports + own
  }

  /**
   * One parameter check of `checkMethodCallParams`: the argument in the parameter's
   * position is typed; a varargs parameter then wants every remaining argument to have its
   * element type, any other parameter wants exactly its own type.
   */
  function ParamCheck(env: Scope, args: seq<Expr>, p: Param, i: nat): (r: Outcome<seq<Report>>)
    requires i < |args|
    ensures r.Ok? ==> CountOf(r.value, ArgumentTypeMismatch) <= 1
    ensures r.Ok? ==> CountOf(r.value, FewerArguments) == 0
    ensures r.Ok? && !p.typ.isVarArgs ==>
      GetType(env, args[i]).Ok? &&
      (CountOf(r.value, ArgumentTypeMismatch) == 0 <==> GetType(env, args[i]).value.typ == TypeNodeType(p.typ))
    ensures r.Ok? && p.typ.isVarArgs ==>
      (CountOf(r.value, ArgumentTypeMismatch) == 0 <==> forall j :: i <= j < |args| ==>
        HasType(env, args[j], TypeNodeType(p.typ)))
  {
    var expected := TypeNodeType(p.typ);
    var actual :- GetType(env, args[i]);
    if p.typ.isVarArgs then
      var rest :- VarArgsCheck(env, expected, args, i);
      OnlyMismatchCountsNothingElse(actual.reports, ArgumentTypeMismatch);
      OnlyMismatchCountsNothingElse(actual.reports, FewerArguments);
      CountOfAppend(actual.reports, rest, ArgumentTypeMismatch);
      CountOfAppend(actual.reports, rest, FewerArguments);
      Ok(actual.reports + rest)
    else
      Ok(PlainCheck(actual, expected))
  }

  /**
   * `checkMethodCallParams` as the Java code is written, from parameter `i` on. The guard
   * compares the call node's child count (receiver plus arguments) with `i + 1`, so it
   * lets `i` reach the argument count and then reads the child after the last one.
   */
  function CheckParamsAsWritten(env: Scope, call: Expr, ps: seq<Param>, i: nat): (r: Outcome<seq<Report>>)
    requires call.FunctionCallExpr? && i <= |call.args|
    ensures i < |ps| && |call.args| < |ps| ==> r.Crash?
    ensures r.Ok? ==> CountOf(r.value, FewerArguments) == 0
    decreases |ps| - i
  {
    if i >= |ps| then Ok([])
    else if 1 + |call.args| >= i + 1 then
      if i >= |call.args| then Crash(MissingChild)   // getChild(i + 1) past the last argument
      else
        var step :- ParamCheck(env, call.args, ps[i], i);
        var rest :- CheckParamsAsWritten(env, call, ps, i + 1);
        CountOfAppend(step, rest, FewerArguments);
        Ok(step + rest)
    else
      Ok([Sem(FewerArguments)])
  }

  /** The smaller of two counts. */
  function Min(a: int, b: int): int { if a <= b then a else b }

  /**
   * `checkMethodCallParams` with the guard the code evidently intends (an argument exists
   * at position `i`): a call with too few arguments gets exactly one "fewer arguments"
   * report, and at most one mismatch report per parameter that has an argument.
   */
  function CheckMethodCallParams(env: Scope, call: Expr, ps: seq<Param>, i: nat): (r: Outcome<seq<Report>>)
    requires call.FunctionCallExpr?
    ensures r.Ok? ==> CountOf(r.value, FewerArguments) == (if i < |ps| && |call.args| < |ps| then 1 else 0)
    ensures r.Ok? ==> CountOf(r.value, ArgumentTypeMismatch) <= if i < Min(|ps|, |call.args|) then Min(|ps|, |call.args|) - i else 0
    decreases |ps| - i
  {
    if i >= |ps| then Ok([])
    else if i < |call.args| then
      var step :- ParamCheck(env, call.args, ps[i], i);
      var rest :- CheckMethodCallParams(env, call, ps, i + 1);
      CountOfAppend(step, rest, FewerArguments);
      CountOfAppend(step, rest, ArgumentTypeMismatch);
      Ok(step + rest)
    else
      Ok([Sem(FewerArguments)])
  }

  /**
   * A call with no argument to a method with one `int` parameter: as written the check
   * reads a child that does not exist; corrected, it reports the missing argument once.
   */
  lemma MissingArgumentCrashesAsWritten(env: Scope)
    ensures var call := FunctionCallExpr(ThisExpr, "foo", []);
      var ps := [Param("a", TypeNode(IntName, false, false))];
      CheckParamsAsWritten(env, call, ps, 0) == Crash(MissingChild) &&
      CheckMethodCallParams(env, call, ps, 0) == Ok([Sem(FewerArguments)])
  {
  }

  /**
   * `visitMethodCall`: a call whose type cannot be determined reports a missing object;
   * a call to a method the class declares has its arguments checked.
   */
  function VisitMethodCall(env: Scope, call: Expr): (r: Outcome<seq<Report>>)
    requires call.FunctionCallExpr?
    ensures r.Ok? ==> GetType(env, call).Ok?
    ensures r.Ok? && GetType(env, call).Ok? && GetType(env, call).value.typ.Unknown? ==>
      CountOf(r.value, ObjectNotFound) == 1 && CountOf(r.value, FewerArguments) == 0
    ensures r.Ok? && GetType(env, call).Ok? && !GetType(env, call).value.typ.Unknown? ==>
      CountOf(r.value, ObjectNotFound) == 0 &&
      CountOf(r.value, FewerArguments) ==
        (match MethodHeader(env.classMethods, call.func)
         case None => 0
         case Some(m) => if |call.args| < |m.params| then 1 else 0)
    ensures r.Ok? && GetType(env, call).Ok? && !GetType(env, call).value.typ.Unknown? ==>
      match MethodHeader(env.classMethods, call.func)
      case None => r.value == GetType(env, call).value.reports
      case Some(m) =>
        CheckMethodCallParams(env, call, m.params, 0).Ok? &&
        r.value == GetType(env, call).value.reports + CheckMethodCallParams(env, call, m.params, 0).value
  {
    var ct :- GetType(env, call);
    OnlyMismatchCountsNothingElse(ct.reports, ObjectNotFound);
    OnlyMismatchCountsNothingElse(ct.reports, FewerArguments);
    if ct.typ.Unknown? then
      CountOfAppend(ct.reports, [Sem(ObjectNotFound)], ObjectNotFound);
      CountOfAppend(ct.reports, [Sem(ObjectNotFound)], FewerArguments);
      Ok(ct.reports + [Sem(ObjectNotFound)])
    else
      match MethodHeader(env.classMethods, call.func)
      case None => Ok(ct.reports)
      case Some(m) =>
        var ps :- CheckMethodCallParams(env, call, m.params, 0);
        NoObjectReportsFromParams(env, call, m.params, 0);
        CountOfAppend(ct.reports, ps, ObjectNotFound);
        CountOfAppend(ct.reports, ps, FewerArguments);
        Ok(ct.reports + ps)
  }

  lemma {:induction false} NoObjectReportsFromParams(env: Scope, call: Expr, ps: seq<Param>, i: nat)
    requires call.FunctionCallExpr?
    ensures CheckMethodCallParams(env, call, ps, i).Ok? ==> CountOf(CheckMethodCallParams(env, call, ps, i).value, ObjectNotFound) == 0
    decreases |ps| - i
  {
    if i < |ps| && i < |call.args| {
      var step := ParamCheck(env, call.args, ps[i], i);
      if step.Ok? {
        ParamReportsNoObject(env, call.args, ps[i], i);
        NoObjectReportsFromParams(env, call, ps, i + 1);
        if CheckMethodCallParams(env, call, ps, i + 1).Ok? {
          CountOfAppend(step.value, CheckMethodCallParams(env, call, ps, i + 1).value, ObjectNotFound);
        }
      }
    }
  }

  lemma ParamReportsNoObject(env: Scope, args: seq<Expr>, p: Param, i: nat)
    requires i < |args|
    ensures ParamCheck(env, args, p, i).Ok? ==> CountOf(ParamCheck(env, args, p, i).value, ObjectNotFound) == 0
  {
    var actual := GetType(env, args[i]);
    if actual.Ok? && p.typ.isVarArgs {
      var rest := VarArgsCheck(env, TypeNodeType(p.typ), args, i);
      if rest.Ok? {
        OnlyMismatchCountsNothingElse(actual.value.reports, ObjectNotFound);
        CountOfAppend(actual.value.reports, rest.value, ObjectNotFound);
      }
    }
  }

  /**
   * `visitReturnStmt` for a return directly inside a method whose declared return type
   * node is `retType`: any return in a `void` method is reported; otherwise the returned
   * expression must have exactly the declared type.
   */
  function VisitReturnStmt(env: Scope, retType: TypeNode, result: Option<Expr>): (r: Outcome<seq<Report>>)
    ensures retType.name == VoidName ==> r == Ok([Sem(VoidReturn)])
    ensures retType.name != VoidName && result.None? ==> r == Crash(MissingChild)
    ensures retType.name != VoidName && result.Some? && GetType(env, result.value).Ok? ==>
      var t := GetType(env, result.value).value.typ;
      r.Ok? &&
      CountOf(r.value, ReturnTypeUnknown) == (if t.Unknown? then 1 else 0) &&
      CountOf(r.value, ReturnTypeMismatch) == (if !t.Unknown? && t != TypeNodeType(retType) then 1 else 0)
  {
    var declared := TypeNodeType(retType);
    if NameOf(declared) == VoidName then Ok([Sem(VoidReturn)])
    else if result.None? then Crash(MissingChild)
    else
      var actual :- GetType(env, result.value);
      ReturnReportsCount(actual.reports, actual.typ, declared);
      Ok(actual.reports + ReturnOwn(actual.typ, declared))
  }

  /** The report a return statement adds of its own, given the returned and declared types. */
  function ReturnOwn(actual: SemType, declared: SemType): seq<Report>
  {
    if actual.Unknown? then [Sem(ReturnTypeUnknown)]
    else if actual != declared then [Sem(ReturnTypeMismatch)]
    else []
  }

  /** After the returned expression's own reports, the return's report is counted once. */
  lemma ReturnReportsCount(pre: seq<Report>, actual: SemType, declared: SemType)
    requires OnlyMismatchReports(pre)
    ensures CountOf(pre + ReturnOwn(actual, declared), ReturnTypeUnknown) == (if actual.Unknown? then 1 else 0)
    ensures CountOf(pre + ReturnOwn(actual, declared), ReturnTypeMismatch) ==
      (if !actual.Unknown? && actual != declared then 1 else 0)
  {
    OnlyMismatchCountsNothingElse(pre, ReturnTypeUnknown);
    OnlyMismatchCountsNothingElse(pre, ReturnTypeMismatch);
    CountOfAppend(pre, ReturnOwn(actual, declared), ReturnTypeUnknown);
    CountOfAppend(pre, ReturnOwn(actual, declared), ReturnTypeMismatch);
  }
}

=== FILE: method_structure.dfy ===
/**
 * MethodStructure: the shape of each method declaration — a closing return, the place of
 * a varargs parameter, and the header and parameter of `main`.
 */
module MethodStructure {
  import opened Wrappers
  import opened Jmm
  import opened Reports

  const VoidType := Type(VoidName, false)
  const StringArrayType := Type(StringName, true)

  /** The method node's last child is a return statement. */
  predicate LastChildIsReturn(m: MethodDecl)
  {
    |m.body| > 0 && m.body[|m.body| - 1].Statement? && m.body[|m.body| - 1].stmt.ReturnStmt?
  }

  /**
   * `checkReturnLast`: a method whose table return type is not `void` must end with a
   * return statement. A method missing from the table has a null return type.
   */
  function CheckReturnLast(t: SymbolTable, m: MethodDecl): (r: Outcome<seq<Report>>)
    ensures m.name !in t.returnTypes <==> r.Crash?
    ensures r.Ok? ==> (r.value == [] <==> t.returnTypes[m.name] == VoidType || LastChildIsReturn(m))
    ensures r.Ok? ==> r.value == [] || r.value == [Sem(ReturnNotLast)]
  {
    match t.ReturnType(m.name)
    case None => Crash(NullType)
    case Some(rt) =>
      if rt == VoidType || LastChildIsReturn(m) then Ok([]) else Ok([Sem(ReturnNotLast)])
  }

  /** Number of parameters before the last one that are declared `type...`. */
  function MisplacedVarArgs(ps: seq<Param>, upTo: nat): (n: nat)
    requires upTo <= |ps|
    ensures n <= upTo
    ensures n == 0 <==> forall i :: 0 <= i < upTo && i != |ps| - 1 ==> !ps[i].typ.isVarArgs
  {
    if upTo == 0 then 0
    else MisplacedVarArgs(ps, upTo - 1) + (if ps[upTo - 1].typ.isVarArgs && upTo - 1 != |ps| - 1 then 1 else 0)
  }

  /**
   * `checkVarArgsLast`: one report for every varargs parameter that is not the last
   * parameter; nothing is reported exactly when varargs only ever appears last.
   */
  method CheckVarArgsLast(m: MethodDecl) returns (rs: seq<Report>)
    ensures |rs| == MisplacedVarArgs(m.params, |m.params|)
    ensures forall k :: 0 <= k < |rs| ==> rs[k] == Sem(VarArgsNotLast)
    ensures rs == [] <==> forall i :: 0 <= i < |m.params| - 1 ==> !m.params[i].typ.isVarArgs
  {
    var ps := m.params;
    rs := [];
    var i := 0;
    while i < |ps|
      invariant 0 <= i <= |ps|
      invariant |rs| == MisplacedVarArgs(ps, i)
      invariant forall k :: 0 <= k < |rs| ==> rs[k] == Sem(VarArgsNotLast)
    {
      if ps[i].typ.isVarArgs {
        if i != |ps| - 1 {
          rs := rs + [Sem(VarArgsNotLast)];
        }
      }
      i := i + 1;
    }
  }

  /** `checkMainHeader`: `main` must be public, static and return `void` (one report otherwise). */
  function CheckMainHeader(t: SymbolTable, m: MethodDecl): (r: Outcome<seq<Report>>)
    ensures r.Crash? <==> m.isStatic && m.isPublic && m.name !in t.returnTypes
    ensures r.Ok? ==> (r.value == [] <==> m.isStatic && m.isPublic && t.returnTypes[m.name] == VoidType)
    ensures r.Ok? ==> r.value == [] || r.value == [Sem(MainHeaderInvalid)]
  {
    if m.isStatic && m.isPublic then
      match t.ReturnType(m.name)
      case None => Crash(NullType)
      case Some(rt) => if rt == VoidType then Ok([]) else Ok([Sem(MainHeaderInvalid)])
    else Ok([Sem(MainHeaderInvalid)])
  }

  /**
   * `checkMainParams`: `main` takes exactly one parameter, of type `String[]`; the
   * parameter is typed through the variable lookup, so `String...` is accepted as well.
   */
  function CheckMainParams(m: MethodDecl): (rs: seq<Report>)
    ensures |m.params| != 1 ==> rs == [Sem(MainParamCount)]
    ensures |m.params| == 1 ==>
      (rs == [] <==> m.params[0].typ.name == StringName && (m.params[0].typ.isArray || m.params[0].typ.isVarArgs))
    ensures |rs| <= 1
  {
    if |m.params| != 1 then [Sem(MainParamCount)]
    else
      var tn := m.params[0].typ;
      if Type(tn.name, tn.isArray || tn.isVarArgs) == StringArrayType then [] else [Sem(MainParamType)]
  }

  /**
   * The reports `visitMethod` produces for a method the table knows, counted kind by kind:
   * one missing closing return, one per misplaced varargs parameter, and for `main` only,
   * one bad header and one bad parameter list or type; no report of any other kind.
   */
  predicate ReportsCounted(t: SymbolTable, m: MethodDecl, rs: seq<Report>)
    requires m.name in t.returnTypes
  {
    && CountOf(rs, ReturnNotLast) == (if t.returnTypes[m.name] == VoidType || LastChildIsReturn(m) then 0 else 1)
    && CountOf(rs, VarArgsNotLast) == MisplacedVarArgs(m.params, |m.params|)
    && (m.name != "main" ==>
      CountOf(rs, MainHeaderInvalid) == 0 && CountOf(rs, MainParamCount) == 0 && CountOf(rs, MainParamType) == 0)
    && (m.name == "main" ==>
      CountOf(rs, MainHeaderInvalid) == (if m.isStatic && m.isPublic && t.returnTypes[m.name] == VoidType then 0 else 1))
    && (m.name == "main" ==> CountOf(rs, MainParamCount) == (if |m.params| != 1 then 1 else 0))
    && (m.name == "main" ==>
      CountOf(rs, MainParamType) ==
        (if |m.params| == 1 && !(m.params[0].typ.name == StringName && (m.params[0].typ.isArray || m.params[0].typ.isVarArgs)) then 1 else 0))
    && |rs| == CountOf(rs, ReturnNotLast) + CountOf(rs, VarArgsNotLast) +
        CountOf(rs, MainHeaderInvalid) + CountOf(rs, MainParamCount) + CountOf(rs, MainParamType)
  }

  /** The reports of a known method once its varargs reports are in: return, varargs, then the `main` checks. */
  function MethodReports(t: SymbolTable, m: MethodDecl, varargs: seq<Report>): (rs: seq<Report>)
    requires m.name in t.returnTypes
    requires |varargs| == MisplacedVarArgs(m.params, |m.params|)
    requires forall k :: 0 <= k < |varargs| ==> varargs[k] == Sem(VarArgsNotLast)
    ensures ReportsCounted(t, m, rs)
  {
    if m.name == "main" then MainReports(t, m, varargs) else OtherReports(t, m, varargs)
  }

  /** `main`: the return and varargs reports, then its header and parameter reports. */
  function MainReports(t: SymbolTable, m: MethodDecl, varargs: seq<Report>): (rs: seq<Report>)
    requires m.name in t.returnTypes && m.name == "main"
    requires |varargs| == MisplacedVarArgs(m.params, |m.params|)
    requires forall k :: 0 <= k < |varargs| ==> varargs[k] == Sem(VarArgsNotLast)
    ensures ReportsCounted(t, m, rs)
  {
    var last := CheckReturnLast(t, m).value;
    // the table knows the method, so the header check cannot fail
    var header := CheckMainHeader(t, m).value;
    var params := CheckMainParams(m);
    VisitCounts(last, varargs, header, params);
    last + varargs + header + params
  }

  /** Any other method: the return and varargs reports only. */
  function OtherReports(t: SymbolTable, m: MethodDecl, varargs: seq<Report>): (rs: seq<Report>)
    requires m.name in t.returnTypes && m.name != "main"
    requires |varargs| == MisplacedVarArgs(m.params, |m.params|)
    requires forall k :: 0 <= k < |varargs| ==> varargs[k] == Sem(VarArgsNotLast)
    ensures ReportsCounted(t, m, rs)
  {
    var last := CheckReturnLast(t, m).value;
    VisitCounts(last, varargs, [], []);
    last + varargs + [] + []
  }

  /** `visitMethod`: the return and varargs checks always, the two `main` checks for `main`. */
  method VisitMethod(t: SymbolTable, m: MethodDecl) returns (r: Outcome<seq<Report>>)
    ensures r.Crash? <==> m.name !in t.returnTypes
    ensures r.Ok? ==> ReportsCounted(t, m, r.value)
  {
    var last := CheckReturnLast(t, m);
    if last.Crash? {
      return Crash(last.fault);
    }
    var varargs := CheckVarArgsLast(m);
    return Ok(MethodReports(t, m, varargs));
  }

  /**
   * Counting in the four lists `visitMethod` concatenates: each kind of report comes from
   * the one check that produces it, and there are no reports of any other kind.
   */
  lemma VisitCounts(last: seq<Report>, varargs: seq<Report>, header: seq<Report>, params: seq<Report>)
    requires last == [] || last == [Sem(ReturnNotLast)]
    requires forall k :: 0 <= k < |varargs| ==> varargs[k] == Sem(VarArgsNotLast)
    requires header == [] || header == [Sem(MainHeaderInvalid)]
    requires |params| <= 1 && (params != [] ==> params[0] == Sem(MainParamCount) || params[0] == Sem(MainParamType))
    ensures CountOf(last + varargs + header + params, ReturnNotLast) == |last|
    ensures CountOf(last + varargs + header + params, VarArgsNotLast) == |varargs|
    ensures CountOf(last + varargs + header + params, MainHeaderInvalid) == |header|
    ensures CountOf(last + varargs + header + params, MainParamCount) == CountOf(params, MainParamCount)
    ensures CountOf(last + varargs + header + params, MainParamType) == CountOf(params, MainParamType)
    ensures |last + varargs + header + params| == |last| + |varargs| + |header| + |params|
    ensures |params| == CountOf(params, MainParamCount) + CountOf(params, MainParamType)
  {
    OnlyOneKind(varargs, VarArgsNotLast, ReturnNotLast);
    OnlyOneKind(varargs, VarArgsNotLast, MainHeaderInvalid);
    CountOfConcat4(last, varargs, header, params, ReturnNotLast);
    CountOfConcat4(last, varargs, header, params, VarArgsNotLast);
    CountOfConcat4(last, varargs, header, params, MainHeaderInvalid);
    MainParamsCounts(last, varargs, header, params);
  }

  /** The two parameter kinds of `main` come only from the parameter check. */
  lemma MainParamsCounts(last: seq<Report>, varargs: seq<Report>, header: seq<Report>, params: seq<Report>)
    requires last == [] || last == [Sem(ReturnNotLast)]
    requires forall k :: 0 <= k < |varargs| ==> varargs[k] == Sem(VarArgsNotLast)
    requires header == [] || header == [Sem(MainHeaderInvalid)]
    requires |params| <= 1 && (params != [] ==> params[0] == Sem(MainParamCount) || params[0] == Sem(MainParamType))
    ensures CountOf(last + varargs + header + params, MainParamCount) == CountOf(params, MainParamCount)
    ensures CountOf(last + varargs + header + params, MainParamType) == CountOf(params, MainParamType)
    ensures |params| == CountOf(params, MainParamCount) + CountOf(params, MainParamType)
  {
    OnlyOneKind(varargs, VarArgsNotLast, MainParamCount);
    OnlyOneKind(varargs, VarArgsNotLast, MainParamType);
    CountOfConcat4(last, varargs, header, params, MainParamCount);
    CountOfConcat4(last, varargs, header, params, MainParamType);
  }

  lemma CountOfConcat4(a: seq<Report>, b: seq<Report>, c: seq<Report>, d: seq<Report>, k: Message)
    ensures CountOf(a + b + c + d, k) == CountOf(a, k) + CountOf(b, k) + CountOf(c, k) + CountOf(d, k)
  {
    CountOfAppend(a, b, k);
    CountOfAppend(a + b, c, k);
    CountOfAppend(a + b + c, d, k);
  }

  /** A list holding only reports of kind `k` counts nothing of another kind. */
  lemma {:induction false} OnlyOneKind(rs: seq<Report>, k: Message, other: Message)
    requires forall i :: 0 <= i < |rs| ==> rs[i].message == k
    requires other != k
    ensures CountOf(rs, other) == 0
    ensures CountOf(rs, k) == |rs|
    decreases |rs|
  {
    if rs != [] {
      OnlyOneKind(rs[1..], k, other);
    }
  }
}

=== FILE: ollir.dfy ===
/**
 * The OLLIR intermediate representation the lowering produces, as structured values.
 *
 * Every constructor documents the text the generator writes for it; whitespace and the
 * `";\n"` terminators are not represented. The helpers at the end collect the labels a
 * piece of code defines and the temporaries it assigns, which is what the freshness
 * properties of the lowering are stated over.
 */
module Ollir {
  import opened Wrappers
  import opened OptUtils
  import Strings

  /** The seven families of labels the lowering creates, each with its own prefix. */
  datatype LabelKind = IfThen | IfElse | IfEnd | WhileBody | WhileEnd | AndTrue | AndEnd

  /** A label: its family and the number `getLabel` handed out for it. */
  datatype Label = Label(kind: LabelKind, n: nat)

  function Prefix(k: LabelKind): (p: string)
    ensures |p| >= 2
  {
    match k
    case IfThen => "if"
    case IfElse => "else"
    case IfEnd => "endif"
    case WhileBody => "whilebody_"
    case WhileEnd => "endwhile_"
    case AndTrue => "true_"
    case AndEnd => "end_"
  }

  /** The label's text: `if3`, `endwhile_7`, `true_0`, ... */
  function LabelText(l: Label): (t: string)
    ensures |t| > |Prefix(l.kind)| && t[..|Prefix(l.kind)|] == Prefix(l.kind)
  {
    Prefix(l.kind) + Strings.NatToString(l.n)
  }

  /** A position at which two different prefixes differ, before either one ends. */
  function DiffIndex(a: LabelKind, b: LabelKind): (i: nat)
    requires a != b
    ensures i < |Prefix(a)| && i < |Prefix(b)| && Prefix(a)[i] != Prefix(b)[i]
  {
    if a == IfThen || b == IfThen || a == WhileBody || b == WhileBody || a == AndTrue || b == AndTrue then 0
    else if a == IfElse || b == IfElse then 1
    else 3
  }

  /** Different labels have different texts, so label names never clash. */
  lemma LabelTextInjective(l1: Label, l2: Label)
    requires l1 != l2
    ensures LabelText(l1) != LabelText(l2)
  {
    if l1.kind == l2.kind {
      Strings.PrefixedNamesDistinct(Prefix(l1.kind), l1.n, l2.n);
    } else {
      var i := DiffIndex(l1.kind, l2.kind);
      assert LabelText(l1)[i] == Prefix(l1.kind)[i];
      assert LabelText(l2)[i] == Prefix(l2.kind)[i];
    }
  }

  /** The `code` of an expression result: a reference to where its value lives. */
  datatype Value =
    | NoValue                                              // "" (nothing was produced)
    | Var(param: Option<nat>, name: string, typ: string)   // "$k.name.T" for the k-th parameter, else "name.T"
    | Text(text: string, typ: string)                      // attribute text followed by a type: "true.bool", ".i32"
    | IntLit(v: int)                                       // "v.i32"
    | BoolLit(b: bool)                                     // "1.bool" or "0.bool"
    | Temp(n: int, typ: string)                            // "tmpN.T"
    | VarargsTemp(n: int)                                  // "__varargs_array_N.array.i32", numbered by the temp counter
    | LiteralArray(l: nat)                                 // "__varargs_array_N.array.i32", numbered by the label counter
    | NewArrayOf(sizes: seq<Value>)                        // "new(array, s1, s2, ...).array.i32"
    | Indexed(arr: Value, index: Value)                    // "arr[index].i32"

  datatype InvokeKind = StaticInvoke | VirtualInvoke

  /** One `receiver.T, "method"` group of an invocation. */
  datatype Head = Head(receiver: string, typ: string, func: string)

  /** `invokeK(heads, args).R`. */
  datatype Invocation = Invocation(kind: InvokeKind, heads: seq<Head>, args: seq<Value>, ret: string)

  /** The right-hand side of an assignment. */
  datatype Rhs =
    | Copy(v: Value)                                           // "v"
    | BinOp(left: Value, op: string, typ: string, right: Value) // "l op.T r"
    | NotOf(operand: Value)                                     // "!.bool v"
    | LengthOf(arr: Value)                                      // "arraylength(v).i32"
    | NewObj(cls: string, typ: string)                          // "new(C).T"
    | GetField(field: string, typ: string)                      // "getfield(this, f.T).T"
    | Call(inv: Invocation)                                     // an invocation whose value is kept

  datatype Instr =
    | Assign(dest: Value, typ: string, rhs: Rhs)      // "dest :=.T rhs;"
    | CondGoto(cond: Value, target: Label)            // "if (c) goto L;"
    | Goto(target: Label)                             // "goto L;"
    | LabelDef(lbl: Label)                            // "L:"
    | InitCall(obj: Value)                            // "invokespecial(obj, \"<init>\").V;"
    | Invoke(inv: Invocation)                         // "inv;" an invocation whose value is dropped
    | PutField(field: string, typ: string, v: Value)  // "putfield(this, f.T, v).V;"
    | Ret(typ: string, v: Value)                      // "ret.T v;"
    | Blank                                           // ";" an empty statement

  /** `.method [public] [static] name(p1.T1, ...).R { body }`. */
  datatype MethodCode = MethodCode(
    isPublic: bool,
    isStatic: bool,
    name: string,
    params: seq<string>,
    ret: string,
    body: seq<Instr>)

  /** Members of the class, in source order: `.field public name.T;` or a method. */
  datatype MemberCode = FieldCode(name: string, typ: string) | MethodItem(m: MethodCode)

  /**
   * `import I;` lines, then `C [extends S] { members .construct C().V { invokespecial(this,
   * "<init>").V; } }`.
   */
  datatype ClassIr = ClassIr(
    imports: seq<string>,
    name: string,
    ext: Option<string>,
    members: seq<MemberCode>,
    construct: string)

  /** The last element of a non-empty sequence: the last instruction of some code. */
  function Last<T>(xs: seq<T>): T
    requires |xs| > 0
  {
    xs[|xs| - 1]
  }

  /** The labels defined (`L:`) in a piece of code, in order. */
  function DefinedLabels(code: seq<Instr>): (r: seq<Label>)
    ensures |r| <= |code|
  {
    if code == [] then []
    else (if code[0].LabelDef? then [code[0].lbl] else []) + DefinedLabels(code[1..])
  }

  lemma {:induction false} DefinedLabelsAppend(a: seq<Instr>, b: seq<Instr>)
    ensures DefinedLabels(a + b) == DefinedLabels(a) + DefinedLabels(b)
    decreases |a|
  {
    if a == [] {
      assert a + b == b;
    } else {
      assert (a + b)[0] == a[0] && (a + b)[1..] == a[1..] + b;
      DefinedLabelsAppend(a[1..], b);
      var h := if a[0].LabelDef? then [a[0].lbl] else [];
      calc {
        DefinedLabels(a + b);
        h + DefinedLabels(a[1..] + b);
        h + (DefinedLabels(a[1..]) + DefinedLabels(b));
        (h + DefinedLabels(a[1..])) + DefinedLabels(b);
      }
    }
  }

  /** The numbers of the `tmpN` temporaries a piece of code assigns, in order. */
  function AssignedTemps(code: seq<Instr>): (r: seq<int>)
    ensures |r| <= |code|
  {
    if code == [] then []
    else
      var rest := AssignedTemps(code[1..]);
      var head := code[0];
      if head.Assign? && head.dest.Temp? then [head.dest.n] + rest else rest
  }

  /** A label is defined exactly when the code contains its definition. */
  lemma {:induction false} DefinedLabelsMembers(code: seq<Instr>)
    ensures forall l :: l in DefinedLabels(code) <==> LabelDef(l) in code
    decreases |code|
  {
    if code != [] {
      DefinedLabelsMembers(code[1..]);
      assert code == [code[0]] + code[1..];
    }
  }

  /** A temporary is assigned exactly when some instruction of the code assigns it. */
  lemma {:induction false} AssignedTempsMembers(code: seq<Instr>)
    ensures forall n :: n in AssignedTemps(code) <==>
      exists i :: 0 <= i < |code| && code[i].Assign? && code[i].dest.Temp? && code[i].dest.n == n
    decreases |code|
  {
    if code != [] {
      AssignedTempsMembers(code[1..]);
      assert forall i :: 1 <= i < |code| ==> code[i] == code[1..][i - 1];
      forall n | n in AssignedTemps(code)
        ensures exists i :: 0 <= i < |code| && code[i].Assign? && code[i].dest.Temp? && code[i].dest.n == n
      {
        if !(code[0].Assign? && code[0].dest.Temp? && code[0].dest.n == n) {
          var i :| 0 <= i < |code[1..]| && code[1..][i].Assign? && code[1..][i].dest.Temp? && code[1..][i].dest.n == n;
          assert code[i + 1] == code[1..][i];
        }
      }
    }
  }

  lemma {:induction false} AssignedTempsAppend(a: seq<Instr>, b: seq<Instr>)
    ensures AssignedTemps(a + b) == AssignedTemps(a) + AssignedTemps(b)
    decreases |a|
  {
    if a == [] {
      assert a + b == b;
    } else {
      assert (a + b)[0] == a[0] && (a + b)[1..] == a[1..] + b;
      AssignedTempsAppend(a[1..], b);
      var h := if a[0].Assign? && a[0].dest.Temp? then [a[0].dest.n] else [];
      calc {
        AssignedTemps(a + b);
        h + AssignedTemps(a[1..] + b);
        h + (AssignedTemps(a[1..]) + AssignedTemps(b));
        (h + AssignedTemps(a[1..])) + AssignedTemps(b);
      }
    }
  }

  /** No two labels share a number (and therefore no two are equal). */
  predicate DistinctNumbers(ls: seq<Label>)
  {
    forall i, j :: 0 <= i < j < |ls| ==> ls[i].n != ls[j].n
  }

  predicate NumbersWithin(ls: seq<Label>, lo: nat, hi: nat)
  {
    forall i :: 0 <= i < |ls| ==> lo <= ls[i].n < hi
  }

  predicate TempsWithin(ts: seq<int>, lo: int, hi: int)
  {
    forall i :: 0 <= i < |ts| ==> lo < ts[i] <= hi
  }

  /**
   * A piece of code produced while the counters went from `s` to `next` is fresh when it
   * defines only labels numbered in that window, each number at most once, and assigns
   * only temporaries numbered in that window: it can clash with nothing produced before
   * `s` or after `next`.
   */
  predicate Fresh(s: Counters, code: seq<Instr>, next: Counters)
  {
    Advanced(s, next) &&
    DistinctNumbers(DefinedLabels(code)) &&
    NumbersWithin(DefinedLabels(code), s.nextLabel, next.nextLabel) &&
    TempsWithin(AssignedTemps(code), s.lastTemp, next.lastTemp)
  }

  /** Distinct labels everywhere in a piece of code mean distinct label texts. */
  lemma DistinctLabelTexts(code: seq<Instr>, i: nat, j: nat)
    requires DistinctNumbers(DefinedLabels(code))
    requires i < j < |DefinedLabels(code)|
    ensures LabelText(DefinedLabels(code)[i]) != LabelText(DefinedLabels(code)[j])
  {
    LabelTextInjective(DefinedLabels(code)[i], DefinedLabels(code)[j]);
  }

  lemma DistinctAppend(a: seq<Label>, b: seq<Label>)
    requires DistinctNumbers(a) && DistinctNumbers(b)
    requires forall i, j :: 0 <= i < |a| && 0 <= j < |b| ==> a[i].n != b[j].n
    ensures DistinctNumbers(a + b)
  {
    forall i, j | 0 <= i < j < |a + b|
      ensures (a + b)[i].n != (a + b)[j].n
    {
      if j < |a| {
        assert (a + b)[i] == a[i] && (a + b)[j] == a[j];
      } else if i >= |a| {
        assert (a + b)[i] == b[i - |a|] && (a + b)[j] == b[j - |a|];
      } else {
        assert (a + b)[i] == a[i] && (a + b)[j] == b[j - |a|];
      }
    }
  }

  /**
   * Code produced in one counter window followed (or preceded) by code produced in the
   * next window is fresh for the combined window.
   */
  lemma FreshSequence(s0: Counters, a: seq<Instr>, s1: Counters, b: seq<Instr>, s2: Counters)
    requires Fresh(s0, a, s1) && Fresh(s1, b, s2)
    ensures Fresh(s0, a + b, s2)
    ensures Fresh(s0, b + a, s2)
  {
    FreshJoin(s0, a, s1, b, s2, [], b);
    FreshJoin(s0, a, s1, b, s2, b, []);
    assert [] + a + b == a + b && b + a + [] == b + a;
  }

  /** Where `pre + post` is later code than `mid`, the whole of `pre + mid + post` is fresh. */
  lemma FreshJoin(s0: Counters, mid: seq<Instr>, s1: Counters, both: seq<Instr>, s2: Counters, pre: seq<Instr>, post: seq<Instr>)
    requires Fresh(s0, mid, s1) && Fresh(s1, both, s2) && both == pre + post
    ensures Fresh(s0, pre + mid + post, s2)
  {
    DefinedLabelsAppend(pre, post);
    DefinedLabelsAppend(pre, mid);
    DefinedLabelsAppend(pre + mid, post);
    AssignedTempsAppend(pre, post);
    AssignedTempsAppend(pre, mid);
    AssignedTempsAppend(pre + mid, post);
    LabelsAround(DefinedLabels(pre), DefinedLabels(mid), DefinedLabels(post), s0.nextLabel, s1.nextLabel, s2.nextLabel);
    TempsAround(AssignedTemps(pre), AssignedTemps(mid), AssignedTemps(post), s0.lastTemp, s1.lastTemp, s2.lastTemp);
  }

  /** Code that defines no label and assigns no temporary is fresh in any window. */
  lemma FreshQuiet(s: Counters, code: seq<Instr>, next: Counters)
    requires Advanced(s, next)
    requires DefinedLabels(code) == [] && AssignedTemps(code) == []
    ensures Fresh(s, code, next)
  {
  }
  /** Every jump in the code targets a label the same code defines. */
  predicate JumpsClosed(code: seq<Instr>)
  {
    forall ins :: ins in code && (ins.Goto? || ins.CondGoto?) ==> LabelDef(ins.target) in code
  }

  /** No instruction computes `&&` directly: conjunctions are lowered to jumps. */
  predicate NoAndOp(code: seq<Instr>)
  {
    forall ins :: ins in code && ins.Assign? && ins.rhs.BinOp? ==> ins.rhs.op != "&&"
  }

  /**
   * What every lowering step guarantees about the code it emits: fresh labels and
   * temporaries, self-contained control flow, and no `&&` instruction.
   */
  predicate Sound(s: Counters, code: seq<Instr>, next: Counters)
  {
    Fresh(s, code, next) && JumpsClosed(code) && NoAndOp(code)
  }

  lemma SoundSequence(s0: Counters, a: seq<Instr>, s1: Counters, b: seq<Instr>, s2: Counters)
    requires Sound(s0, a, s1) && Sound(s1, b, s2)
    ensures Sound(s0, a + b, s2)
    ensures Sound(s0, b + a, s2)
  {
    FreshSequence(s0, a, s1, b, s2);
  }

  /**
   * Code produced in a later window placed on both sides of code from an earlier window:
   * the `&&` and `if` skeletons wrap their operands' code this way.
   */
  lemma SoundAround(s1: Counters, mid: seq<Instr>, s2: Counters, pre: seq<Instr>, post: seq<Instr>, s3: Counters)
    requires Sound(s1, mid, s2) && Sound(s2, pre + post, s3)
    ensures Sound(s1, pre + mid + post, s3)
  {
    FreshJoin(s1, mid, s2, pre + post, s3, pre, post);
  }

  /**
   * Code produced in a later window placed between two parts of code from an earlier
   * window: the `if` and `while` skeletons take their labels before (or around) the code
   * they wrap.
   */
  lemma SoundInside(s1: Counters, pre: seq<Instr>, post: seq<Instr>, s2: Counters, mid: seq<Instr>, s3: Counters)
    requires Sound(s1, pre + post, s2) && Sound(s2, mid, s3)
    ensures Sound(s1, pre + mid + post, s3)
  {
    DefinedLabelsAppend(pre, post);
    DefinedLabelsAppend(pre, mid);
    DefinedLabelsAppend(pre + mid, post);
    AssignedTempsAppend(pre, post);
    AssignedTempsAppend(pre, mid);
    AssignedTempsAppend(pre + mid, post);
    LabelsInside(DefinedLabels(pre), DefinedLabels(mid), DefinedLabels(post), s1.nextLabel, s2.nextLabel, s3.nextLabel);
    TempsInside(AssignedTemps(pre), AssignedTemps(mid), AssignedTemps(post), s1.lastTemp, s2.lastTemp, s3.lastTemp);
  }

  lemma LabelsInside(lp: seq<Label>, lm: seq<Label>, lq: seq<Label>, a: nat, b: nat, c: nat)
    requires a <= b <= c
    requires DistinctNumbers(lp + lq) && NumbersWithin(lp + lq, a, b)
    requires DistinctNumbers(lm) && NumbersWithin(lm, b, c)
    ensures DistinctNumbers(lp + lm + lq) && NumbersWithin(lp + lm + lq, a, c)
  {
    assert forall i :: 0 <= i < |lp| ==> lp[i] == (lp + lq)[i];
    assert forall i :: 0 <= i < |lq| ==> lq[i] == (lp + lq)[|lp| + i];
    assert DistinctNumbers(lp) && DistinctNumbers(lq);
    DistinctAppend(lp, lm);
    forall i, j | 0 <= i < |lp + lm| && 0 <= j < |lq|
      ensures (lp + lm)[i].n != lq[j].n
    {
      if i < |lp| {
        assert (lp + lm)[i] == (lp + lq)[i] && lq[j] == (lp + lq)[|lp| + j];
      } else {
        assert (lp + lm)[i] == lm[i - |lp|] && lq[j] == (lp + lq)[|lp| + j];
      }
    }
    DistinctAppend(lp + lm, lq);
    var ls := lp + lm + lq;
    forall i | 0 <= i < |ls|
      ensures a <= ls[i].n < c
    {
      if i < |lp| {
        assert ls[i] == (lp + lq)[i];
      } else if i < |lp| + |lm| {
        assert ls[i] == lm[i - |lp|];
      } else {
        assert ls[i] == (lp + lq)[i - |lm|];
      }
    }
  }

  lemma TempsInside(tp: seq<int>, tm: seq<int>, tq: seq<int>, a: int, b: int, c: int)
    requires a <= b <= c
    requires TempsWithin(tp + tq, a, b) && TempsWithin(tm, b, c)
    ensures TempsWithin(tp + tm + tq, a, c)
  {
    var ts := tp + tm + tq;
    forall i | 0 <= i < |ts|
      ensures a < ts[i] <= c
    {
      if i < |tp| {
        assert ts[i] == (tp + tq)[i];
      } else if i < |tp| + |tm| {
        assert ts[i] == tm[i - |tp|];
      } else {
        assert ts[i] == (tp + tq)[i - |tm|];
      }
    }
  }

  lemma LabelsAround(lp: seq<Label>, lm: seq<Label>, lq: seq<Label>, a: nat, b: nat, c: nat)
    requires a <= b <= c
    requires DistinctNumbers(lm) && NumbersWithin(lm, a, b)
    requires DistinctNumbers(lp + lq) && NumbersWithin(lp + lq, b, c)
    ensures DistinctNumbers(lp + lm + lq) && NumbersWithin(lp + lm + lq, a, c)
  {
    assert forall i :: 0 <= i < |lp| ==> lp[i] == (lp + lq)[i];
    assert forall i :: 0 <= i < |lq| ==> lq[i] == (lp + lq)[|lp| + i];
    assert DistinctNumbers(lp) && DistinctNumbers(lq);
    DistinctAppend(lp, lm);
    forall i, j | 0 <= i < |lp + lm| && 0 <= j < |lq|
      ensures (lp + lm)[i].n != lq[j].n
    {
      if i < |lp| {
        assert (lp + lm)[i] == (lp + lq)[i] && lq[j] == (lp + lq)[|lp| + j];
      } else {
        assert (lp + lm)[i] == lm[i - |lp|];
      }
    }
    DistinctAppend(lp + lm, lq);
    var ls := lp + lm + lq;
    forall i | 0 <= i < |ls|
      ensures a <= ls[i].n < c
    {
      if i < |lp| {
        assert ls[i] == (lp + lq)[i];
      } else if i < |lp| + |lm| {
        assert ls[i] == lm[i - |lp|];
      } else {
        assert ls[i] == (lp + lq)[i - |lm|];
      }
    }
  }

  lemma TempsAround(tp: seq<int>, tm: seq<int>, tq: seq<int>, a: int, b: int, c: int)
    requires a <= b <= c
    requires TempsWithin(tm, a, b) && TempsWithin(tp + tq, b, c)
    ensures TempsWithin(tp + tm + tq, a, c)
  {
    var ts := tp + tm + tq;
    forall i | 0 <= i < |ts|
      ensures a < ts[i] <= c
    {
      if i < |tp| {
        assert ts[i] == (tp + tq)[i];
      } else if i < |tp| + |tm| {
        assert ts[i] == tm[i - |tp|];
      } else {
        assert ts[i] == (tp + tq)[i - |tm|];
      }
    }
  }
  /**
   * Straight-line code that defines no label, jumps nowhere, computes no `&&` and assigns
   * only temporaries of the window is sound for that window.
   */
  lemma SoundPlain(s: Counters, code: seq<Instr>, next: Counters)
    requires Advanced(s, next)
    requires forall ins :: ins in code ==> !ins.LabelDef? && !ins.Goto? && !ins.CondGoto?
    requires forall ins :: ins in code && ins.Assign? && ins.rhs.BinOp? ==> ins.rhs.op != "&&"
    requires forall ins :: ins in code && ins.Assign? && ins.dest.Temp? ==> s.lastTemp < ins.dest.n <= next.lastTemp
    ensures Sound(s, code, next)
    ensures DefinedLabels(code) == []
  {
    DefinedLabelsMembers(code);
    AssignedTempsMembers(code);
    var ts := AssignedTemps(code);
    forall i | 0 <= i < |ts|
      ensures s.lastTemp < ts[i] <= next.lastTemp
    {
      assert ts[i] in ts;
    }
  }

  /** The temporary assigned at position `i` is among the assigned temporaries. */
  lemma AssignedAt(code: seq<Instr>, i: nat)
    requires i < |code| && code[i].Assign? && code[i].dest.Temp?
    ensures code[i].dest.n in AssignedTemps(code)
  {
    AssignedTempsMembers(code);
  }
  /** What a single instruction defines and assigns. */
  lemma SingleInstr(ins: Instr)
    ensures DefinedLabels([ins]) == (if ins.LabelDef? then [ins.lbl] else [])
    ensures AssignedTemps([ins]) == (if ins.Assign? && ins.dest.Temp? then [ins.dest.n] else [])
  {
    assert [ins][1..] == [];
  }

  /** What an instruction in front of some code adds to its labels and temporaries. */
  lemma ConsFacts(ins: Instr, rest: seq<Instr>)
    ensures DefinedLabels([ins] + rest) == (if ins.LabelDef? then [ins.lbl] else []) + DefinedLabels(rest)
    ensures AssignedTemps([ins] + rest) == (if ins.Assign? && ins.dest.Temp? then [ins.dest.n] else []) + AssignedTemps(rest)
  {
    assert ([ins] + rest)[0] == ins && ([ins] + rest)[1..] == rest;
  }

  /** An instruction that defines no label, jumps nowhere and computes no `&&`. */
  predicate Plain(ins: Instr)
  {
    !ins.LabelDef? && !ins.Goto? && !ins.CondGoto? && !(ins.Assign? && ins.rhs.BinOp? && ins.rhs.op == "&&")
  }

  /**
   * A plain instruction may go in front of sound code of a later window, when any
   * temporary it assigns lies between the two windows.
   */
  lemma SoundPrepend(s: Counters, ins: Instr, s1: Counters, rest: seq<Instr>, s2: Counters)
    requires Advanced(s, s1) && Plain(ins) && Sound(s1, rest, s2)
    requires ins.Assign? && ins.dest.Temp? ==> s.lastTemp < ins.dest.n <= s1.lastTemp
    ensures Sound(s, [ins] + rest, s2)
  {
    SoundPlain(s, [ins], s1);
    SoundSequence(s, [ins], s1, rest, s2);
  }

  /**
   * A plain assignment to the next temporary may follow sound code: the window grows by
   * that one temporary, which the code then assigns.
   */
  lemma SoundAppendAssign(s: Counters, code: seq<Instr>, s1: Counters, ins: Instr)
    requires Sound(s, code, s1) && Plain(ins) && ins.Assign? && ins.dest.Temp? && ins.dest.n == s1.lastTemp + 1
    ensures Sound(s, code + [ins], s1.(lastTemp := s1.lastTemp + 1))
    ensures s1.lastTemp + 1 in AssignedTemps(code + [ins])
  {
    var s2 := s1.(lastTemp := s1.lastTemp + 1);
    SoundPlain(s1, [ins], s2);
    SoundSequence(s, code, s1, [ins], s2);
    AssignedAt(code + [ins], |code|);
  }
}

=== FILE: ollir_class.dfy ===
/**
 * OllirGeneratorVisitor, the outer layers: parameters, method declarations, the class
 * with its fields and default constructor, and the program with its imports.
 *
 * The counters behind fresh temporaries and labels are shared by the whole compilation,
 * so they are threaded from one method into the next: labels never repeat within a class.
 */
module OllirClass {
  import opened Wrappers
  import opened Jmm
  import opened OptUtils
  import opened Ollir
  import opened OllirExpr
  import opened OllirStmt

  /** `visitParam`: the parameter's name followed by the OLLIR spelling of its type node. */
  function ParamCode(p: Param): (r: string)
    ensures |r| > |p.name| && r[..|p.name|] == p.name && r[|p.name|] == '.'
  {
    p.name + ToOllirTypeNode(p.typ)
  }

  /** The parameters of a method, one code each, in declaration order. */
  function ParamCodes(ps: seq<Param>): (r: seq<string>)
    ensures |r| == |ps|
    ensures forall i :: 0 <= i < |ps| ==> r[i] == ParamCode(ps[i])
  {
    if ps == [] then [] else [ParamCode(ps[0])] + ParamCodes(ps[1..])
  }

  /** The statements of a method body, its local declarations left out. */
  function Statements(items: seq<BodyItem>): (r: seq<BodyItem>)
    ensures |r| <= |items|
    ensures forall i :: 0 <= i < |r| ==> r[i].Statement?
  {
    if items == [] then []
    else (if items[0].Statement? then [items[0]] else []) + Statements(items[1..])
  }

  /**
   * The body of a method: every child after the parameters that is not a local variable
   * declaration is lowered as a statement, one after the other.
   */
  function LowerBody(ctx: Ctx, items: seq<BodyItem>, s: Counters): (r: Outcome<Emitted>)
    ensures r.Ok? ==> Sound(s, r.value.code, r.value.next)
  {
    if items == [] then
      SoundPlain(s, [], s);
      Ok(Emitted([], s))
    else
      var one :- if items[0].Local? then SoundPlain(s, [], s); Ok(Emitted([], s)) else LowerStmt(ctx, items[0].stmt, s);
      var rest :- LowerBody(ctx, items[1..], one.next);
      SoundSequence(s, one.code, one.next, rest.code, rest.next);
      Ok(Emitted(one.code + rest.code, rest.next))
  }

  /**
   * Local variable declarations emit nothing and take no counter: the body lowers exactly
   * as its statements alone do.
   */
  lemma {:induction false} BodySkipsDecls(ctx: Ctx, items: seq<BodyItem>, s: Counters)
    ensures LowerBody(ctx, items, s) == LowerBody(ctx, Statements(items), s)
    decreases |items|
  {
    if items != [] {
      BodySkipsDecls(ctx, items[1..], s);
      if items[0].Statement? {
        var one := LowerStmt(ctx, items[0].stmt, s);
        if one.Ok? {
          BodySkipsDecls(ctx, items[1..], one.value.next);
        }
        assert ([items[0]] + Statements(items[1..]))[1..] == Statements(items[1..]);
      } else {
        assert Statements(items) == Statements(items[1..]);
        var rest := LowerBody(ctx, items[1..], s);
        if rest.Ok? {
          assert [] + rest.value.code == rest.value.code;
        }
      }
    }
  }

  /** A lowered method and the counters after it. */
  datatype LoweredMethod = LoweredMethod(code: MethodCode, next: Counters)

  /** What `ret.V ;` is: the return without a value a `.V` method ends with. */
  const ReturnVoid := Ret(".V", NoValue)

  /**
   * `visitMethodDecl`: the header is copied from the declaration (the return type spelled
   * from its type node), the body is lowered in the method's own context, and a method
   * whose return type is spelled `.V` gets a final `ret.V`.
   */
  function LowerMethod(t: SymbolTable, m: MethodDecl, s: Counters): (r: Outcome<LoweredMethod>)
    ensures r.Ok? ==> Sound(s, r.value.code.body, r.value.next)
    ensures r.Ok? <==> LowerBody(Ctx(t, m), m.body, s).Ok?
  {
    var body :- LowerBody(Ctx(t, m), m.body, s);
    var ret := ToOllirTypeNode(m.retType);
    var tail := if ret == ".V" then [ReturnVoid] else [];
    SoundPlain(body.next, tail, body.next);
    SoundSequence(s, body.code, body.next, tail, body.next);
    Ok(LoweredMethod(MethodCode(m.isPublic, m.isStatic, m.name, ParamCodes(m.params), ret, body.code + tail), body.next))
  }

  /**
   * A `.V` method ends with `ret.V` after its statements' code; any other method's body is
   * its statements' code and nothing else. `void` and a class named `V` are spelled `.V`.
   */
  lemma MethodEnding(t: SymbolTable, m: MethodDecl, s: Counters)
    requires LowerMethod(t, m, s).Ok?
    ensures LowerMethod(t, m, s).value.code.ret == ".V" <==> !m.retType.isArray && !m.retType.isVarArgs && m.retType.name in {VoidName, "V"}
    ensures LowerMethod(t, m, s).value.code.ret == ".V" ==>
      LowerMethod(t, m, s).value.code.body == LowerBody(Ctx(t, m), m.body, s).value.code + [ReturnVoid]
    ensures LowerMethod(t, m, s).value.code.ret != ".V" ==>
      LowerMethod(t, m, s).value.code.body == LowerBody(Ctx(t, m), m.body, s).value.code
  {
    VoidSpelling(m.retType);
    assert LowerBody(Ctx(t, m), m.body, s).value.code + [] == LowerBody(Ctx(t, m), m.body, s).value.code;
  }

  /** Exactly `void` and a class named `V`, neither an array, are spelled `.V`. */
  lemma VoidSpelling(tn: TypeNode)
    ensures ToOllirTypeNode(tn) == ".V" <==> !tn.isArray && !tn.isVarArgs && tn.name in {VoidName, "V"}
  {
    var n := if tn.isArray || tn.isVarArgs then tn.name + "[]" else tn.name;
    if n !in {"int", "boolean", "int[]", "void", "String", "String[]"} {
      assert OllirTypeName(n) == "." + n;
      assert OllirTypeName(n) == ".V" <==> n == "V" by {
        if OllirTypeName(n) == ".V" {
          assert n == OllirTypeName(n)[1..];
        }
      }
    }
    if tn.isArray || tn.isVarArgs {
      assert n[|n| - 1] == ']';
    }
  }

  /** The lowered class members and the counters after them. */
  datatype MembersOut = MembersOut(items: seq<MemberCode>, next: Counters)

  /** The instructions of every method among some members, in order. */
  function AllBodies(items: seq<MemberCode>): (r: seq<Instr>)
  {
    if items == [] then []
    else (if items[0].MethodItem? then items[0].m.body else []) + AllBodies(items[1..])
  }

  /** A member's code is a field of the same name and type, or a method of the same name. */
  predicate MemberMatches(mc: MemberCode, cm: ClassMember)
  {
    (cm.FieldMember? ==> mc == FieldCode(cm.decl.name, ToOllirTypeNode(cm.decl.typ))) &&
    (cm.MethodMember? ==> mc.MethodItem? && mc.m.name == cm.methodDecl.name)
  }

  /** One member code per class member, each matching its member. */
  predicate AllMatch(items: seq<MemberCode>, ms: seq<ClassMember>)
  {
    |items| == |ms| && (ms != [] ==> MemberMatches(items[0], ms[0]) && AllMatch(items[1..], ms[1..]))
  }

  /** Matching member by member, position by position. */
  lemma {:induction false} AllMatchAt(items: seq<MemberCode>, ms: seq<ClassMember>)
    requires AllMatch(items, ms)
    ensures |items| == |ms| && forall i :: 0 <= i < |ms| ==> MemberMatches(items[i], ms[i])
    decreases |ms|
  {
    if ms != [] {
      AllMatchAt(items[1..], ms[1..]);
      forall i | 1 <= i < |ms|
        ensures MemberMatches(items[i], ms[i])
      {
        assert items[i] == items[1..][i - 1] && ms[i] == ms[1..][i - 1];
      }
    }
  }

  /** Putting one member in front: its instructions come first and the rest keep their places. */
  lemma MembersCons(mc: MemberCode, rest: seq<MemberCode>)
    ensures AllBodies([mc] + rest) == (if mc.MethodItem? then mc.m.body else []) + AllBodies(rest)
    ensures ([mc] + rest)[0] == mc && ([mc] + rest)[1..] == rest
    ensures mc.FieldCode? ==> AllBodies([mc] + rest) == AllBodies(rest)
  {
    assert [] + AllBodies(rest) == AllBodies(rest);
  }

  /**
   * The members of the class in source order: `.field public` for a field, the method
   * code for a method, the counters passing from each method to the next.
   */
  function LowerMembers(t: SymbolTable, ms: seq<ClassMember>, s: Counters): (r: Outcome<MembersOut>)
    ensures r.Ok? ==> AllMatch(r.value.items, ms)
    ensures r.Ok? ==> Sound(s, AllBodies(r.value.items), r.value.next)
  {
    if ms == [] then
      SoundPlain(s, [], s);
      Ok(MembersOut([], s))
    else if ms[0].FieldMember? then
      var rest :- LowerMembers(t, ms[1..], s);
      MembersCons(FieldCode(ms[0].decl.name, ToOllirTypeNode(ms[0].decl.typ)), rest.items);
      Ok(MembersOut([FieldCode(ms[0].decl.name, ToOllirTypeNode(ms[0].decl.typ))] + rest.items, rest.next))
    else
      var one :- LowerMethod(t, ms[0].methodDecl, s);
      var rest :- LowerMembers(t, ms[1..], one.next);
      SoundSequence(s, one.code.body, one.next, AllBodies(rest.items), rest.next);
      MembersCons(MethodItem(one.code), rest.items);
      Ok(MembersOut([MethodItem(one.code)] + rest.items, rest.next))
  }

  /** A lowered program and the counters after it. */
  datatype ProgramOut = ProgramOut(cls: ClassIr, next: Counters)

  /**
   * `visitProgram` with `visitImportDecl` and `visitClass`: an `import` line per import
   * declaration, then the class named and extended as the symbol table says (no `extends`
   * when the table's super name is empty), its members, and the default constructor.
   */
  function LowerProgram(t: SymbolTable, p: Program, s: Counters): (r: Outcome<ProgramOut>)
    ensures r.Ok? <==> LowerMembers(t, p.cls.members, s).Ok?
    ensures r.Ok? ==> Sound(s, AllBodies(r.value.cls.members), r.value.next)
  {
    var members :- LowerMembers(t, p.cls.members, s);
    var ext := if t.superName != "" then Some(t.superName) else None;
    Ok(ProgramOut(ClassIr(p.importIds, t.className, ext, members.items, t.className), members.next))
  }

  /**
   * The class header: one import per declaration in order, the table's class name (also
   * the constructor's), an `extends` exactly when the table names a super class, and one
   * member per class member of the same kind and name.
   */
  lemma ProgramShape(t: SymbolTable, p: Program, s: Counters)
    requires LowerProgram(t, p, s).Ok?
    ensures LowerProgram(t, p, s).value.cls.imports == p.importIds
    ensures LowerProgram(t, p, s).value.cls.name == t.className == LowerProgram(t, p, s).value.cls.construct
    ensures LowerProgram(t, p, s).value.cls.ext.Some? <==> t.superName != ""
    ensures LowerProgram(t, p, s).value.cls.ext.Some? ==> LowerProgram(t, p, s).value.cls.ext.value == t.superName
    ensures |LowerProgram(t, p, s).value.cls.members| == |p.cls.members|
    ensures forall i :: 0 <= i < |p.cls.members| ==> MemberMatches(LowerProgram(t, p, s).value.cls.members[i], p.cls.members[i])
  {
    AllMatchAt(LowerProgram(t, p, s).value.cls.members, p.cls.members);
  }
}

=== FILE: ollir_expr.dfy ===
/**
 * OllirExprGeneratorVisitor: lowering of one expression to a value reference (`code`)
 * and the instructions that compute it (`computation`).
 *
 * The temp and label counters are threaded explicitly: every lowering takes the counters
 * before it and returns the counters after it, and calls `GetNextTempNum`/`GetLabel` at
 * the point where the visit methods call `getTemp`/`getLabel`. The numbers are those the
 * visit methods take: the visitor framework's further walk over a node's children after
 * its registered visit is not modelled, so the Java code's numbers can run ahead of these
 * (README, "Left out"). A Java exception (an attribute
 * read on a node that lacks it, a type asked of an unsupported node, a method called on a
 * null type) is a `Crash`.
 */
module OllirExpr {
  import opened Wrappers
  import opened Jmm
  import opened OptUtils
  import opened Ollir
  import TypeUtils

  /**
   * `resType.getClass().getName()`: the Java class name of the `Type` record, which the
   * call lowering compares with the imports and the superclass.
   */
  const JavaTypeClassName := "pt.up.fe.comp.jmm.analysis.table.Type"

  const I32 := ".i32"
  const Bool := ".bool"
  const ArrayI32 := ".array.i32"

  /** What the lowering reads besides the node: the table and the enclosing method. */
  datatype Ctx = Ctx(table: SymbolTable, decl: MethodDecl)

  /** An `OllirExprResult` together with the counters after producing it. */
  datatype Lowered = Lowered(code: Value, comp: seq<Instr>, next: Counters)

  /** Results for a list of children: their codes, the combined computation, the counters. */
  datatype LoweredList = LoweredList(values: seq<Value>, comp: seq<Instr>, next: Counters)

  /** `TypeUtils.getExprType(node, table)` inside the enclosing method. */
  function TypeOf(ctx: Ctx, e: Expr): Outcome<Option<Type>>
  {
    TypeUtils.ExprType(ctx.table, ctx.decl.name, e)
  }

  /** `node.get(attr)`: the attribute, or an exception when the node does not carry it. */
  function Need(o: Option<string>): (r: Outcome<string>)
    ensures r.Ok? <==> o.Some?
    ensures r.Ok? ==> r.value == o.value
    ensures r.Crash? ==> r.fault == MissingAttribute
  {
    if o.Some? then Ok(o.value) else Crash(MissingAttribute)
  }

  /** A method called on a Java `Type` that may be null. */
  function NonNull(o: Option<Type>): (r: Outcome<Type>)
    ensures r.Ok? <==> o.Some?
    ensures r.Ok? ==> r.value == o.value
    ensures r.Crash? ==> r.fault == NullType
  {
    if o.Some? then Ok(o.value) else Crash(NullType)
  }

  /** The value was assigned to a fresh temporary by its own computation. */
  predicate Defines(l: Lowered)
  {
    l.code.Temp? && l.code.n in AssignedTemps(l.comp)
  }

  /** A temporary used as the value is one handed out during this lowering. */
  predicate ResultFresh(s: Counters, l: Lowered)
  {
    l.code.Temp? ==> s.lastTemp < l.code.n <= l.next.lastTemp
  }

  /**
   * `isFunctionParam`: the 1-based position of the first parameter of the enclosing
   * method with this name (rendered `$k.`), or None when no parameter has it.
   */
  function ParamIndex(ps: seq<Param>, name: string): (r: Option<nat>)
    ensures r.Some? ==> 1 <= r.value <= |ps| && ps[r.value - 1].name == name
    ensures r.Some? ==> forall j :: 0 <= j < r.value - 1 ==> ps[j].name != name
    ensures r.None? <==> forall j :: 0 <= j < |ps| ==> ps[j].name != name
  {
    ParamIndexFrom(ps, name, 0)
  }

  function ParamIndexFrom(ps: seq<Param>, name: string, i: nat): (r: Option<nat>)
    requires i <= |ps|
    ensures r.Some? ==> i + 1 <= r.value <= |ps| && ps[r.value - 1].name == name
    ensures r.Some? ==> forall j :: i <= j < r.value - 1 ==> ps[j].name != name
    ensures r.None? <==> forall j :: i <= j < |ps| ==> ps[j].name != name
    decreases |ps| - i
  {
    if i == |ps| then None
    else if ps[i].name == name then Some(i + 1)
    else ParamIndexFrom(ps, name, i + 1)
  }

  /** `visitVarRef`: a field is read into a fresh temporary; anything else is named directly. */
  function LowerVarRef(ctx: Ctx, name: string, s: Counters): (r: Lowered)
    ensures Sound(s, r.comp, r.next) && ResultFresh(s, r)
    ensures FirstSymbol(ctx.table.fields, name).Some? <==> Defines(r)
    ensures FirstSymbol(ctx.table.fields, name).Some? ==>
      |r.comp| == 1 && r.comp[0].rhs == GetField(name, r.code.typ)
    ensures FirstSymbol(ctx.table.fields, name).None? ==>
      r.comp == [] && r.next == s && r.code.Var? && r.code.name == name &&
      r.code.param == ParamIndex(ctx.decl.params, name)
  {
    var T := ToOllirType(Some(TypeUtils.VarExprType(ctx.table, ctx.decl.name, name)));
    if FirstSymbol(ctx.table.fields, name).Some? then
      var (k, s1) := GetNextTempNum(false, s);
      var comp := [Assign(Temp(k, T), T, GetField(name, T))];
      SoundPlain(s, comp, s1);
      AssignedAt(comp, 0);
      Lowered(Temp(k, T), comp, s1)
    else
      SoundPlain(s, [], s);
      Lowered(Var(ParamIndex(ctx.decl.params, name), name, T), [], s)
  }

  /** How often `x` occurs in `xs`. */
  function Occurrences(xs: seq<string>, x: string): (n: nat)
    ensures x in xs <==> n > 0
    ensures n <= |xs|
  {
    if xs == [] then 0 else (if xs[0] == x then 1 else 0) + Occurrences(xs[1..], x)
  }

  /**
   * The class `new C()` actually allocates: C when it is imported, the superclass when C
   * is the superclass, and otherwise the current class.
   */
  function AllocTarget(t: SymbolTable, n: string): (cls: string)
    ensures n in t.imports || n == t.superName || n == t.className ==> cls == n
    ensures !(n in t.imports || n == t.superName || n == t.className) ==> cls == t.className
  {
    if n in t.imports then n else if t.superName == n then t.superName else t.className
  }

  /** `copies` repetitions of `res := new(cls); invokespecial(res, "<init>")`. */
  function Allocations(res: Value, T: string, cls: string, copies: nat): (code: seq<Instr>)
    ensures |code| == 2 * copies
    ensures copies > 0 ==> code[0] == Assign(res, T, NewObj(cls, T)) && code[1] == InitCall(res)
    ensures forall ins :: ins in code ==> ins == Assign(res, T, NewObj(cls, T)) || ins == InitCall(res)
  {
    if copies == 0 then []
    else
      var rest := Allocations(res, T, cls, copies - 1);
      [Assign(res, T, NewObj(cls, T)), InitCall(res)] + rest
  }

  /**
   * `visitNewObject`: a fresh temporary receives the new object and its constructor is
   * called. An imported class is allocated once per import declaration naming it.
   */
  function LowerNewObject(ctx: Ctx, n: string, s: Counters): (r: Lowered)
    ensures Sound(s, r.comp, r.next) && ResultFresh(s, r) && Defines(r)
    ensures r.code == Temp(s.lastTemp + 1, ToOllirType(Some(Type(n, false))))
    ensures |r.comp| >= 2 && r.comp[0].Assign? && r.comp[0].rhs.NewObj? && r.comp[1] == InitCall(r.code)
    ensures forall ins :: ins in r.comp && ins.Assign? ==> ins.rhs == NewObj(AllocTarget(ctx.table, n), r.code.typ)
  {
    var T := ToOllirType(Some(Type(n, false)));
    var (k, s1) := GetNextTempNum(false, s);
    var res := Temp(k, T);
    var copies := if n in ctx.table.imports then Occurrences(ctx.table.imports, n) else 1;
    var comp := Allocations(res, T, AllocTarget(ctx.table, n), copies);
    SoundPlain(s, comp, s1);
    AssignedAt(comp, 0);
    Lowered(res, comp, s1)
  }

  /**
   * `visitFieldAccess`: a fresh `int` temporary; only the field `length` computes it (the
   * array length of the receiver, which must carry a name). Any other field leaves the
   * temporary unassigned.
   */
  function LowerFieldAccess(ctx: Ctx, e: Expr, s: Counters): (r: Outcome<Lowered>)
    requires e.FieldAccess?
    ensures r.Crash? <==> e.field == "length" && NameAttr(e.obj).None?
    ensures r.Ok? ==> Sound(s, r.value.comp, r.value.next) && ResultFresh(s, r.value)
    ensures r.Ok? ==> r.value.code == Temp(s.lastTemp + 1, I32)
    ensures r.Ok? ==> (Defines(r.value) <==> e.field == "length")
  {
    var (k, s1) := GetNextTempNum(false, s);
    if e.field == "length" then
      var name :- Need(NameAttr(e.obj));
      var comp := [Assign(Temp(k, I32), I32, LengthOf(Var(None, name, ArrayI32)))];
      SoundPlain(s, comp, s1);
      AssignedAt(comp, 0);
      Ok(Lowered(Temp(k, I32), comp, s1))
    else
      SoundPlain(s, [], s1);
      Ok(Lowered(Temp(k, I32), [], s1))
  }

  /** The `&&` skeleton before the right operand: jump to `t` when the left value holds. */
  function AndPre(lcode: Value, res: Value, t: nat, en: nat): seq<Instr>
  {
    [CondGoto(lcode, Label(AndTrue, t)), Assign(res, Bool, Copy(BoolLit(false))), Goto(Label(AndEnd, en)), LabelDef(Label(AndTrue, t))]
  }

  /** The `&&` skeleton after the right operand. */
  function AndPost(rcode: Value, res: Value, en: nat): seq<Instr>
  {
    [Assign(res, Bool, Copy(rcode)), LabelDef(Label(AndEnd, en))]
  }

  /** The labels and temporaries of the `&&` skeleton. */
  lemma AndSkeletonSummary(lcode: Value, res: Value, rcode: Value, t: nat, en: nat)
    ensures DefinedLabels(AndPre(lcode, res, t, en) + AndPost(rcode, res, en)) == [Label(AndTrue, t), Label(AndEnd, en)]
    ensures AssignedTemps(AndPre(lcode, res, t, en) + AndPost(rcode, res, en)) == if res.Temp? then [res.n, res.n] else []
  {
    var pre, post := AndPre(lcode, res, t, en), AndPost(rcode, res, en);
    DefinedLabelsAppend(pre, post);
    AssignedTempsAppend(pre, post);
    ConsFacts(post[1], []);
    ConsFacts(post[0], [post[1]]);
    ConsFacts(pre[3], []);
    ConsFacts(pre[2], [pre[3]]);
    ConsFacts(pre[1], pre[2..]);
    ConsFacts(pre[0], pre[1..]);
    assert [post[1]] + [] == [post[1]] && [post[0]] + [post[1]] == post;
    assert [pre[3]] + [] == [pre[3]] && [pre[2]] + [pre[3]] == pre[2..];
    assert [pre[1]] + pre[2..] == pre[1..] && [pre[0]] + pre[1..] == pre;
  }

  /** The `&&` skeleton is sound for the two labels and the temporary it takes. */
  lemma AndSkeletonSound(lcode: Value, rcode: Value, s2: Counters)
    ensures Sound(s2, AndPre(lcode, Temp(s2.lastTemp + 1, Bool), s2.nextLabel, s2.nextLabel + 1) +
      AndPost(rcode, Temp(s2.lastTemp + 1, Bool), s2.nextLabel + 1), Counters(s2.lastTemp + 1, s2.nextLabel + 2))
  {
    var t, en, k := s2.nextLabel, s2.nextLabel + 1, s2.lastTemp + 1;
    var res := Temp(k, Bool);
    var code := AndPre(lcode, res, t, en) + AndPost(rcode, res, en);
    AndSkeletonSummary(lcode, res, rcode, t, en);
    assert code[3] == LabelDef(Label(AndTrue, t)) && code[5] == LabelDef(Label(AndEnd, en));
  }

  /**
   * The main dispatch of the expression visitor. Kinds without a visit of their own
   * (`this`, parentheses and the alternative indexing node) visit their children, discard
   * what they produce, and yield an empty result.
   */
  function LowerExpr(ctx: Ctx, e: Expr, s: Counters): (r: Outcome<Lowered>)
    ensures r.Ok? ==> Sound(s, r.value.comp, r.value.next) && ResultFresh(s, r.value)
    decreases e, 3
  {
    match e
    case IntegerLiteral(v) =>
      SoundPlain(s, [], s);
      Ok(Lowered(IntLit(v), [], s))
    case BooleanLiteral(b) =>
      SoundPlain(s, [], s);
      Ok(Lowered(BoolLit(b), [], s))
    case VarRefExpr(n) => Ok(LowerVarRef(ctx, n, s))
    case NewObjectExpr(n) => Ok(LowerNewObject(ctx, n, s))
    case FieldAccess(_, _) => LowerFieldAccess(ctx, e, s)
    case BinaryExpr(_, _, _) => LowerBinary(ctx, e, s)
    case FunctionCallExpr(_, _, _) => LowerCall(ctx, e, s)
    case Not(_) => LowerNot(ctx, e, s)
    case NewVectorExpr(_, _) =>
      var sizes :- LowerSizes(ctx, e, 0, s);
      Ok(Lowered(NewArrayOf(sizes.values), sizes.comp, sizes.next))
    case ElementExpr(_) => LowerArrayLiteral(ctx, e, s)
    case ArrayLength(_) => LowerLength(ctx, e, s)
    case AccessExpr(_, _) => LowerAccess(ctx, e, s)
    case _ =>
      var s1 :- DefaultVisit(ctx, e, 0, s);
      SoundPlain(s, [], s1);
      Ok(Lowered(NoValue, [], s1))
  }

  /**
   * What the dispatch yields per kind: no value exactly for the kinds without a visit of
   * their own (and then no code), a value computed into a fresh temporary for operators,
   * calls, indexing, lengths and object creation, and the literal itself for a literal.
   */
  lemma {:induction false} LowerExprShape(ctx: Ctx, e: Expr, s: Counters)
    ensures LowerExpr(ctx, e, s).Ok? ==>
      (LowerExpr(ctx, e, s).value.code == NoValue <==> e.ThisExpr? || e.ParenthesesExpr? || e.ArrayAccess?)
    ensures LowerExpr(ctx, e, s).Ok? && LowerExpr(ctx, e, s).value.code == NoValue ==> LowerExpr(ctx, e, s).value.comp == []
    ensures LowerExpr(ctx, e, s).Ok? && (e.BinaryExpr? || e.FunctionCallExpr? || e.Not? || e.ArrayLength? || e.AccessExpr? || e.NewObjectExpr?) ==>
      Defines(LowerExpr(ctx, e, s).value)
    ensures e.IntegerLiteral? ==> LowerExpr(ctx, e, s) == Ok(Lowered(IntLit(e.intValue), [], s))
    ensures e.BooleanLiteral? ==> LowerExpr(ctx, e, s) == Ok(Lowered(BoolLit(e.boolValue), [], s))
  {
  }

  /** `defaultVisit`: lower the children from position `i` on and drop their results. */
  function DefaultVisit(ctx: Ctx, e: Expr, i: nat, s: Counters): (r: Outcome<Counters>)
    requires i <= |Children(e)|
    ensures r.Ok? ==> Advanced(s, r.value)
    decreases e, 1, |Children(e)| - i
  {
    if i == |Children(e)| then Ok(s)
    else
      assert Children(e)[i] in Children(e);
      var c :- LowerExpr(ctx, Children(e)[i], s);
      var s2 :- DefaultVisit(ctx, e, i + 1, c.next);
      Ok(s2)
  }

  /**
   * `visitBinExpr`: both operands first. `&&` becomes a conditional jump over the right
   * operand into a boolean temporary; any other operator is one assignment typed by the
   * operator's result type.
   */
  function LowerBinary(ctx: Ctx, e: Expr, s: Counters): (r: Outcome<Lowered>)
    requires e.BinaryExpr?
    ensures r.Ok? ==> Sound(s, r.value.comp, r.value.next) && ResultFresh(s, r.value) && Defines(r.value)
    ensures r.Ok? && e.op == "&&" ==> r.value.code.typ == Bool && r.value.next.nextLabel >= s.nextLabel + 2
    ensures r.Ok? && e.op != "&&" ==>
      TypeUtils.BinExprType(e.op).Ok? && |r.value.comp| >= 1 &&
      r.value.code.typ == ToOllirType(Some(TypeUtils.BinExprType(e.op).value)) &&
      r.value.comp[|r.value.comp| - 1].Assign? && r.value.comp[|r.value.comp| - 1].dest == r.value.code &&
      r.value.comp[|r.value.comp| - 1].rhs.BinOp? && r.value.comp[|r.value.comp| - 1].rhs.op == e.op
    decreases e, 2
  {
    var lhs :- LowerExpr(ctx, e.left, s);
    var rhs :- LowerExpr(ctx, e.right, lhs.next);
    if e.op == "&&" then
      Ok(AndLowered(s, lhs, rhs))
    else
      var ty :- TypeOf(ctx, e);
      Ok(BinOpLowered(s, lhs, rhs, e.op, ToOllirType(ty)))
  }

  /**
   * The `&&` lowering once both operands are lowered: the left operand's computation, a
   * jump to `true_` when it holds, `false` into a fresh boolean temporary otherwise, and on
   * the `true_` path the right operand's computation and its value into the temporary.
   */
  function AndLowered(s: Counters, lhs: Lowered, rhs: Lowered): (r: Lowered)
    requires Sound(s, lhs.comp, lhs.next) && Sound(lhs.next, rhs.comp, rhs.next)
    ensures Sound(s, r.comp, r.next) && ResultFresh(s, r) && Defines(r)
    ensures r.code.typ == Bool && r.next.nextLabel == rhs.next.nextLabel + 2
  {
    // `true_` and `end_` take the next two labels, then the result takes the next temporary
    AndCompSound(s, lhs.comp, lhs.next, rhs.comp, rhs.next, lhs.code, rhs.code);
    Lowered(Temp(rhs.next.lastTemp + 1, Bool),
      AndComp(lhs.comp, lhs.code, rhs.comp, rhs.code, rhs.next.nextLabel, rhs.next.nextLabel + 1, rhs.next.lastTemp + 1),
      Counters(rhs.next.lastTemp + 1, rhs.next.nextLabel + 2))
  }

  /**
   * The code of `a && b`: `a`'s computation, the jump to `true_t` when it holds, `false`
   * into `tmp_k` and a jump to `end_en` otherwise, then under `true_t` the computation of
   * `b` and its value into `tmp_k`.
   */
  function AndComp(lcomp: seq<Instr>, lcode: Value, rcomp: seq<Instr>, rcode: Value, t: nat, en: nat, k: int): seq<Instr>
  {
    lcomp + (AndPre(lcode, Temp(k, Bool), t, en) + rcomp + AndPost(rcode, Temp(k, Bool), en))
  }

  lemma AndCompSound(s: Counters, lcomp: seq<Instr>, s1: Counters, rcomp: seq<Instr>, s2: Counters, lcode: Value, rcode: Value)
    requires Sound(s, lcomp, s1) && Sound(s1, rcomp, s2)
    ensures Sound(s, AndComp(lcomp, lcode, rcomp, rcode, s2.nextLabel, s2.nextLabel + 1, s2.lastTemp + 1),
      Counters(s2.lastTemp + 1, s2.nextLabel + 2))
    ensures s2.lastTemp + 1 in AssignedTemps(AndComp(lcomp, lcode, rcomp, rcode, s2.nextLabel, s2.nextLabel + 1, s2.lastTemp + 1))
    ensures s.lastTemp < s2.lastTemp + 1
  {
    var s3 := Counters(s2.lastTemp + 1, s2.nextLabel + 2);
    var res := Temp(s2.lastTemp + 1, Bool);
    var pre, post := AndPre(lcode, res, s2.nextLabel, s2.nextLabel + 1), AndPost(rcode, res, s2.nextLabel + 1);
    AndSkeletonSound(lcode, rcode, s2);
    SoundAround(s1, rcomp, s2, pre, post, s3);
    SoundSequence(s, lcomp, s1, pre + rcomp + post, s3);
    AndSkeletonSummary(lcode, res, rcode, s2.nextLabel, s2.nextLabel + 1);
    AssignedTempsAppend(pre, post);
    AssignedTempsAppend(pre, rcomp);
    AssignedTempsAppend(pre + rcomp, post);
    AssignedTempsAppend(lcomp, pre + rcomp + post);
    assert res.n in AssignedTemps(pre) || res.n in AssignedTemps(post);
  }

  /** Any other operator: both computations, then one assignment into a fresh temporary. */
  function BinOpLowered(s: Counters, lhs: Lowered, rhs: Lowered, op: string, T: string): (r: Lowered)
    requires Sound(s, lhs.comp, lhs.next) && Sound(lhs.next, rhs.comp, rhs.next) && op != "&&"
    ensures Sound(s, r.comp, r.next) && ResultFresh(s, r) && Defines(r)
    ensures r.code == Temp(rhs.next.lastTemp + 1, T) && r.next == rhs.next.(lastTemp := rhs.next.lastTemp + 1)
    ensures r.comp == lhs.comp + rhs.comp + [Assign(r.code, T, BinOp(lhs.code, op, T, rhs.code))]
  {
    var res := Temp(rhs.next.lastTemp + 1, T);
    BinOpSound(s, lhs, rhs, Assign(res, T, BinOp(lhs.code, op, T, rhs.code)));
    Lowered(res, lhs.comp + rhs.comp + [Assign(res, T, BinOp(lhs.code, op, T, rhs.code))], rhs.next.(lastTemp := rhs.next.lastTemp + 1))
  }

  /** Two sound computations followed by a plain assignment to the next temporary. */
  lemma BinOpSound(s: Counters, lhs: Lowered, rhs: Lowered, ins: Instr)
    requires Sound(s, lhs.comp, lhs.next) && Sound(lhs.next, rhs.comp, rhs.next)
    requires ins.Assign? && ins.dest.Temp? && ins.dest.n == rhs.next.lastTemp + 1 && Plain(ins)
    ensures Sound(s, lhs.comp + rhs.comp + [ins], rhs.next.(lastTemp := rhs.next.lastTemp + 1))
    ensures rhs.next.lastTemp + 1 in AssignedTemps(lhs.comp + rhs.comp + [ins])
    ensures s.lastTemp < rhs.next.lastTemp + 1
  {
    SoundSequence(s, lhs.comp, lhs.next, rhs.comp, rhs.next);
    SoundAppendAssign(s, lhs.comp + rhs.comp, rhs.next, ins);
  }

  /**
   * `visitNot`: the result temporary is taken first. A boolean literal operand is negated
   * in place; a binary or variable operand is lowered first (followed by an empty
   * statement); any other operand is not lowered and the negation has no operand.
   */
  function LowerNot(ctx: Ctx, e: Expr, s: Counters): (r: Outcome<Lowered>)
    requires e.Not?
    ensures r.Ok? ==> Sound(s, r.value.comp, r.value.next) && ResultFresh(s, r.value) && Defines(r.value)
    ensures r.Ok? ==> r.value.code == Temp(s.lastTemp + 1, Bool) && |r.value.comp| >= 1
    ensures r.Ok? ==>
      Last(r.value.comp).Assign? && Last(r.value.comp).dest == r.value.code && Last(r.value.comp).typ == Bool &&
      Last(r.value.comp).rhs.NotOf?
    ensures r.Ok? ==>
      (Last(r.value.comp).rhs.operand == NoValue <==> !(e.operand.BooleanLiteral? || e.operand.BinaryExpr? || e.operand.VarRefExpr?))
    ensures e.operand.BooleanLiteral? ==>
      r == Ok(Lowered(Temp(s.lastTemp + 1, Bool), [Assign(Temp(s.lastTemp + 1, Bool), Bool, NotOf(BoolLit(e.operand.boolValue)))], Counters(s.lastTemp + 1, s.nextLabel)))
    ensures r.Crash? ==> e.operand.BinaryExpr?
    decreases e, 2
  {
    var (k, s1) := GetNextTempNum(false, s);
    var res := Temp(k, Bool);
    var x := e.operand;
    if x.BooleanLiteral? then
      var comp := [Assign(res, Bool, NotOf(BoolLit(x.boolValue)))];
      SoundPlain(s, comp, s1);
      AssignedAt(comp, 0);
      Ok(Lowered(res, comp, s1))
    else if x.BinaryExpr? then
      var inner :- LowerBinary(ctx, x, s1);
      Ok(NotAfter(s, res, inner))
    else if x.VarRefExpr? then
      Ok(NotAfter(s, res, LowerVarRef(ctx, x.name, s1)))
    else
      var comp := [Assign(res, Bool, NotOf(NoValue))];
      SoundPlain(s, comp, s1);
      AssignedAt(comp, 0);
      Ok(Lowered(res, comp, s1))
  }

  /** The operand's computation, an empty statement, then the negation into `res`. */
  function NotAfter(s: Counters, res: Value, inner: Lowered): (r: Lowered)
    requires res.Temp? && res.typ == Bool && res.n == s.lastTemp + 1
    requires Sound(Counters(s.lastTemp + 1, s.nextLabel), inner.comp, inner.next)
    ensures Sound(s, r.comp, r.next) && r.code == res && Defines(r) && r.next == inner.next
    ensures |r.comp| >= 1 && r.comp[|r.comp| - 1] == Assign(res, Bool, NotOf(inner.code))
  {
    var s1 := Counters(s.lastTemp + 1, s.nextLabel);
    var tail := [Blank, Assign(res, Bool, NotOf(inner.code))];
    SoundPlain(s, tail, s1);
    SoundSequence(s, tail, s1, inner.comp, inner.next);
    var comp := inner.comp + tail;
    AssignedAt(comp, |comp| - 1);
    Lowered(res, comp, inner.next)
  }

  /** Each value is an `int` temporary and the matching instruction copies a value into it. */
  predicate SizeCopies(values: seq<Value>, comp: seq<Instr>)
    decreases |comp|
  {
    if values == [] || comp == [] then values == [] && comp == []
    else
      values[0].Temp? && values[0].typ == I32 && comp[0].Assign? && comp[0].dest == values[0] &&
      comp[0].typ == I32 && comp[0].rhs.Copy? && SizeCopies(values[1..], comp[1..])
  }

  /**
   * `visitNewArray`, from size `i` on: each size gets a fresh `int` temporary, taken
   * before the size is lowered, and assigned the size's value. The size's own
   * computation is dropped.
   */
  function LowerSizes(ctx: Ctx, e: Expr, i: nat, s: Counters): (r: Outcome<LoweredList>)
    requires e.NewVectorExpr? && i <= |e.sizes|
    ensures r.Ok? ==> Sound(s, r.value.comp, r.value.next)
    ensures r.Ok? ==> |r.value.values| == |r.value.comp| == |e.sizes| - i
    ensures r.Ok? ==> SizeCopies(r.value.values, r.value.comp)
    decreases e, 1, |e.sizes| - i
  {
    if i == |e.sizes| then
      SoundPlain(s, [], s);
      Ok(LoweredList([], [], s))
    else
      var (k, s1) := GetNextTempNum(false, s);
      var size :- LowerExpr(ctx, e.sizes[i], s1);
      var rest :- LowerSizes(ctx, e, i + 1, size.next);
      var ins := Assign(Temp(k, I32), I32, Copy(size.code));
      SoundPrepend(s, ins, size.next, rest.comp, rest.next);
      assert ([Temp(k, I32)] + rest.values)[1..] == rest.values && ([ins] + rest.comp)[1..] == rest.comp;
      Ok(LoweredList([Temp(k, I32)] + rest.values, [ins] + rest.comp, rest.next))
  }

  /**
   * `visitElementExpr`: the literal's variable is numbered by a fresh label, an array of
   * the literal's length is allocated into a fresh temporary and copied into it, and then
   * each element is lowered and stored at its index.
   */
  function LowerArrayLiteral(ctx: Ctx, e: Expr, s: Counters): (r: Outcome<Lowered>)
    requires e.ElementExpr?
    ensures r.Ok? ==> Sound(s, r.value.comp, r.value.next) && ResultFresh(s, r.value)
    ensures r.Ok? ==> r.value.code == LiteralArray(s.nextLabel) && r.value.next.nextLabel > s.nextLabel
    ensures r.Ok? ==> |r.value.comp| >= 2 + |e.elements|
    ensures r.Ok? ==>
      r.value.comp[0] == Assign(Temp(s.lastTemp + 1, ArrayI32), ArrayI32, Copy(NewArrayOf([IntLit(|e.elements|)]))) &&
      r.value.comp[1] == Assign(LiteralArray(s.nextLabel), ArrayI32, Copy(Temp(s.lastTemp + 1, ArrayI32)))
    decreases e, 2
  {
    var (l, s1) := GetLabel(s);
    var (k, s2) := GetNextTempNum(false, s1);
    var head := [
      Assign(Temp(k, ArrayI32), ArrayI32, Copy(NewArrayOf([IntLit(|e.elements|)]))),
      Assign(LiteralArray(l), ArrayI32, Copy(Temp(k, ArrayI32)))];
    var body :- LowerElements(ctx, e, 0, l, s2);
    SoundPlain(s, head, s2);
    SoundSequence(s, head, s2, body.comp, body.next);
    Ok(Lowered(LiteralArray(l), head + body.comp, body.next))
  }

  /** The element loop of `visitElementExpr`, from element `i` on. */
  function LowerElements(ctx: Ctx, e: Expr, i: nat, l: nat, s: Counters): (r: Outcome<LoweredList>)
    requires e.ElementExpr? && i <= |e.elements|
    ensures r.Ok? ==> Sound(s, r.value.comp, r.value.next)
    ensures r.Ok? ==> |r.value.comp| >= |e.elements| - i
    decreases e, 1, |e.elements| - i
  {
    if i == |e.elements| then
      SoundPlain(s, [], s);
      Ok(LoweredList([], [], s))
    else
      var elem :- LowerExpr(ctx, e.elements[i], s);
      var store := Assign(Indexed(LiteralArray(l), IntLit(i)), I32, Copy(elem.code));
      var rest :- LowerElements(ctx, e, i + 1, l, elem.next);
      SoundPlain(elem.next, [store], elem.next);
      SoundSequence(s, elem.comp, elem.next, [store], elem.next);
      SoundSequence(s, elem.comp + [store], elem.next, rest.comp, rest.next);
      Ok(LoweredList([], elem.comp + [store] + rest.comp, rest.next))
  }

  /** `visitArrayLength`: the array first, then a fresh `int` temporary for its length. */
  function LowerLength(ctx: Ctx, e: Expr, s: Counters): (r: Outcome<Lowered>)
    requires e.ArrayLength?
    ensures r.Ok? ==> Sound(s, r.value.comp, r.value.next) && ResultFresh(s, r.value) && Defines(r.value)
    ensures r.Ok? ==> r.value.code.typ == I32
    ensures r.Ok? ==> r.value.comp[|r.value.comp| - 1].Assign? && r.value.comp[|r.value.comp| - 1].rhs.LengthOf?
    decreases e, 2
  {
    var arr :- LowerExpr(ctx, e.arr, s);
    var (k, s1) := GetNextTempNum(false, arr.next);
    var ins := Assign(Temp(k, I32), I32, LengthOf(arr.code));
    SoundPlain(arr.next, [ins], s1);
    SoundSequence(s, arr.comp, arr.next, [ins], s1);
    var comp := arr.comp + [ins];
    AssignedAt(comp, |comp| - 1);
    Ok(Lowered(Temp(k, I32), comp, s1))
  }

  /**
   * `visitAccessExpr`: a fresh `int` temporary (taken first), the index, then the read of
   * the named array at that index. The array must carry a name and have a type.
   */
  function LowerAccess(ctx: Ctx, e: Expr, s: Counters): (r: Outcome<Lowered>)
    requires e.AccessExpr?
    ensures r.Ok? ==> Sound(s, r.value.comp, r.value.next) && ResultFresh(s, r.value) && Defines(r.value)
    ensures r.Ok? ==> r.value.code == Temp(s.lastTemp + 1, I32)
    ensures r.Ok? ==> NameAttr(e.arr).Some? && TypeOf(ctx, e.arr).Ok?
    ensures r.Ok? ==>
      |r.value.comp| >= 1 && Last(r.value.comp).Assign? && Last(r.value.comp).dest == r.value.code &&
      Last(r.value.comp).rhs.Copy? && Last(r.value.comp).rhs.v.Indexed? &&
      Last(r.value.comp).rhs.v.arr == Var(None, NameAttr(e.arr).value, ToOllirType(TypeOf(ctx, e.arr).value))
    decreases e, 2
  {
    var (k, s1) := GetNextTempNum(false, s);
    var pos :- LowerExpr(ctx, e.index, s1);
    var arrType :- TypeOf(ctx, e.arr);
    var name :- Need(NameAttr(e.arr));
    var ins := Assign(Temp(k, I32), I32, Copy(Indexed(Var(None, name, ToOllirType(arrType)), pos.code)));
    SoundPlain(s, [ins], s1);
    SoundSequence(s, [ins], s1, pos.comp, pos.next);
    var comp := pos.comp + [ins];
    AssignedAt(comp, |comp| - 1);
    Ok(Lowered(Temp(k, I32), comp, pos.next))
  }

  /**
   * The receiver groups of an invocation. The import and superclass branches compare the
   * Java class name of `Type` (not the type's own name) with the imports and the
   * superclass; otherwise the receiver is spelled with `plain`.
   */
  function CallHeads(t: SymbolTable, recv: string, plain: string, resType: Option<Type>, func: string): (hs: seq<Head>)
    ensures |hs| >= 1
    ensures forall h :: h in hs ==> h.receiver == recv && h.func == func
    ensures resType.None? || (JavaTypeClassName !in t.imports && t.superName != JavaTypeClassName) ==>
      hs == [Head(recv, plain, func)]
  {
    if resType.Some? && JavaTypeClassName in t.imports then
      RepeatHead(Head(recv, "." + JavaTypeClassName, func), Occurrences(t.imports, JavaTypeClassName))
    else if resType.Some? && t.superName == JavaTypeClassName then
      [Head(recv, "." + t.superName, func)]
    else
      [Head(recv, plain, func)]
  }

  function RepeatHead(h: Head, n: nat): (hs: seq<Head>)
    ensures |hs| == n
    ensures forall x :: x in hs ==> x == h
  {
    if n == 0 then [] else [h] + RepeatHead(h, n - 1)
  }

  /** `invokestatic` exactly when the receiver's type is named by an import. */
  function KindFor(t: SymbolTable, recvType: Type): (k: InvokeKind)
    ensures k == StaticInvoke <==> recvType.name in t.imports
  {
    if recvType.name in t.imports then StaticInvoke else VirtualInvoke
  }

  /** The invocation a call's computation ends with. */
  function FinalCall(comp: seq<Instr>): (inv: Option<Invocation>)
  {
    if |comp| > 0 && comp[|comp| - 1].Assign? && comp[|comp| - 1].rhs.Call? then Some(comp[|comp| - 1].rhs.inv) else None
  }

  /**
   * `visitInvk`: when the callee takes a variable number of arguments, the trailing
   * arguments are packed first; then the result temporary; then the arguments. The
   * computations of the arguments come first in the output, the last argument's first.
   */
  function LowerCall(ctx: Ctx, e: Expr, s: Counters): (r: Outcome<Lowered>)
    requires e.FunctionCallExpr?
    ensures r.Ok? ==> Sound(s, r.value.comp, r.value.next) && ResultFresh(s, r.value) && Defines(r.value)
    decreases e, 2
  {
    var resType := TypeOf(ctx, e).value;
    var hasVa := MethodHasVarArgs(ctx.table, e.func, |e.args|);
    var va :- if hasVa then GenerateVarArgs(ctx, e, s) else Ok(Lowered(NoValue, [], s));
    var s1 := GetNextTempNum(false, va.next).1;
    var recvType :- TypeOf(ctx, e.receiver);
    var recvT :- NonNull(recvType);
    var recv :- Need(NameAttr(e.receiver));
    var args :- LowerArgs(ctx, e, 0, if hasVa then |ctx.table.Parameters(e.func)| - 1 else |e.args|, hasVa, s1);
    var inv := Invocation(KindFor(ctx.table, recvT), CallHeads(ctx.table, recv, ToOllirType(recvType), resType, e.func),
      if hasVa then args.values + [va.code] else args.values, ToOllirType(resType));
    Ok(CallLowered(s, va, inv, args))
  }

  /**
   * The invocation a call ends with: `invokestatic` exactly when the receiver's type is
   * imported, the return type spelled from the table, and one argument per parameter with
   * the varargs array last when the callee takes varargs, else one per argument.
   */
  lemma LowerCallInvocation(ctx: Ctx, e: Expr, s: Counters)
    requires e.FunctionCallExpr?
    ensures LowerCall(ctx, e, s).Ok? ==> FinalCall(LowerCall(ctx, e, s).value.comp).Some?
    ensures LowerCall(ctx, e, s).Ok? ==>
      TypeOf(ctx, e.receiver).Ok? && TypeOf(ctx, e.receiver).value.Some? &&
      (FinalCall(LowerCall(ctx, e, s).value.comp).value.kind == StaticInvoke <==>
       TypeOf(ctx, e.receiver).value.value.name in ctx.table.imports)
    ensures LowerCall(ctx, e, s).Ok? ==>
      FinalCall(LowerCall(ctx, e, s).value.comp).value.ret == ToOllirType(ctx.table.ReturnType(e.func))
    ensures LowerCall(ctx, e, s).Ok? && MethodHasVarArgs(ctx.table, e.func, |e.args|) ==>
      |FinalCall(LowerCall(ctx, e, s).value.comp).value.args| == |ctx.table.Parameters(e.func)| >= 1 &&
      FinalCall(LowerCall(ctx, e, s).value.comp).value.args[|ctx.table.Parameters(e.func)| - 1].VarargsTemp?
    ensures LowerCall(ctx, e, s).Ok? && !MethodHasVarArgs(ctx.table, e.func, |e.args|) ==>
      |FinalCall(LowerCall(ctx, e, s).value.comp).value.args| == |e.args|
  {
  }

  /**
   * The output of a call once its pieces exist: the arguments' computations, then the
   * varargs packing, then the invocation into the result temporary taken after packing.
   */
  function CallLowered(s: Counters, va: Lowered, inv: Invocation, args: LoweredList): (r: Lowered)
    requires Sound(s, va.comp, va.next) && Sound(va.next.(lastTemp := va.next.lastTemp + 1), args.comp, args.next)
    ensures Sound(s, r.comp, r.next) && Defines(r) && r.next == args.next
    ensures r.code == Temp(va.next.lastTemp + 1, inv.ret)
    ensures FinalCall(r.comp) == Some(inv)
  {
    var (k, s1) := GetNextTempNum(false, va.next);
    var ins := Assign(Temp(k, inv.ret), inv.ret, Call(inv));
    SoundPlain(va.next, [ins], s1);
    SoundSequence(s, va.comp, va.next, [ins], s1);
    SoundSequence(s, va.comp + [ins], s1, args.comp, args.next);
    var comp := args.comp + (va.comp + [ins]);
    AssignedAt(comp, |comp| - 1);
    Lowered(Temp(k, inv.ret), comp, args.next)
  }

  /**
   * The argument loop of `visitInvk`, for arguments `i` to `upTo - 1`. Each argument's type
   * is asked first; an indexed access or a call is lowered and its computation placed
   * before everything produced so far; an array literal likewise, but only when packing
   * varargs; any other argument is spelled from its attributes: a variable (with its `$k.`
   * prefix when a parameter), a literal's text, or nothing, followed by its type.
   */
  function LowerArgs(ctx: Ctx, call: Expr, i: nat, upTo: nat, packing: bool, s: Counters): (r: Outcome<LoweredList>)
    requires call.FunctionCallExpr? && i <= upTo <= |call.args|
    ensures r.Ok? ==> Sound(s, r.value.comp, r.value.next)
    ensures r.Ok? ==> |r.value.values| == upTo - i
    decreases call, 1, upTo - i
  {
    if i == upTo then
      SoundPlain(s, [], s);
      Ok(LoweredList([], [], s))
    else
      var a := call.args[i];
      var ty :- TypeOf(ctx, a);
      var T := ToOllirType(ty);
      SoundPlain(s, [], s);
      var one :-
        if a.AccessExpr? then LowerAccess(ctx, a, s)
        else if a.FunctionCallExpr? || (packing && a.ElementExpr?) then LowerExpr(ctx, a, s)
        else Ok(Lowered(SpelledArg(ctx, a, T), [], s));
      var rest :- LowerArgs(ctx, call, i + 1, upTo, packing, one.next);
      SoundSequence(s, one.comp, one.next, rest.comp, rest.next);
      Ok(LoweredList([one.code] + rest.values, rest.comp + one.comp, rest.next))
  }

  /** `paramName + paramOllirType` for an argument that is not lowered. */
  function SpelledArg(ctx: Ctx, a: Expr, T: string): (v: Value)
    ensures a.VarRefExpr? ==> v == Var(ParamIndex(ctx.decl.params, a.name), a.name, T)
    ensures !a.VarRefExpr? ==> v.Text? && v.typ == T
  {
    if a.VarRefExpr? then Var(ParamIndex(ctx.decl.params, a.name), a.name, T)
    else Text(ValueAttr(a).GetOr(""), T)
  }

  /**
   * `generateVarArgs`: an array with one slot per trailing argument is allocated into a
   * fresh temporary and copied into a fresh `__varargs_array_` variable; each trailing
   * argument is then stored at its index. The stores use the arguments' values but drop
   * their computations.
   */
  function GenerateVarArgs(ctx: Ctx, call: Expr, s: Counters): (r: Outcome<Lowered>)
    requires call.FunctionCallExpr? && MethodHasVarArgs(ctx.table, call.func, |call.args|)
    ensures r.Ok? ==> Sound(s, r.value.comp, r.value.next) && ResultFresh(s, r.value)
    ensures r.Ok? ==>
      r.value.code == VarargsTemp(s.lastTemp + 2) &&
      |r.value.comp| == 2 + Trailing(ctx, call) &&
      r.value.comp[0] == Assign(Temp(s.lastTemp + 1, ArrayI32), ArrayI32, Copy(NewArrayOf([IntLit(Trailing(ctx, call))]))) &&
      r.value.comp[1] == Assign(r.value.code, ArrayI32, Copy(Temp(s.lastTemp + 1, ArrayI32)))
    ensures r.Ok? ==> StoresAt(r.value.comp[2..], r.value.code, 0)
    decreases call, 1
  {
    var P := |ctx.table.Parameters(call.func)|;
    var (k, s1) := GetNextTempNum(false, s);
    var (v, s2) := GetNextTempNum(false, s1);
    var n := Trailing(ctx, call);
    var alloc := Assign(Temp(k, ArrayI32), ArrayI32, Copy(NewArrayOf([IntLit(n)])));
    var copy := Assign(VarargsTemp(v), ArrayI32, Copy(Temp(k, ArrayI32)));
    var stores :- VarargsStores(ctx, call, P - 1, P - 1, v, s2);
    SoundPrepend(s1, copy, s2, stores.comp, stores.next);
    SoundPrepend(s, alloc, s1, [copy] + stores.comp, stores.next);
    assert ([alloc] + ([copy] + stores.comp))[2..] == stores.comp;
    Ok(Lowered(VarargsTemp(v), [alloc] + ([copy] + stores.comp), stores.next))
  }

  /** How many arguments a call packs into its varargs array: the last parameter's and all after it. */
  function Trailing(ctx: Ctx, call: Expr): nat
    requires call.FunctionCallExpr? && MethodHasVarArgs(ctx.table, call.func, |call.args|)
  {
    |call.args| + 1 - |ctx.table.Parameters(call.func)|
  }

  /** The instructions store into `arr` at consecutive indices from `from` on. */
  predicate StoresAt(code: seq<Instr>, arr: Value, from: int)
    decreases |code|
  {
    code == [] ||
    (code[0].Assign? && code[0].dest == Indexed(arr, IntLit(from)) && StoresAt(code[1..], arr, from + 1))
  }

  /** The store loop of `generateVarArgs`, from argument `j` on; `first` is stored at 0. */
  function VarargsStores(ctx: Ctx, call: Expr, first: nat, j: nat, v: int, s: Counters): (r: Outcome<LoweredList>)
    requires call.FunctionCallExpr? && first <= j <= |call.args|
    ensures r.Ok? ==> Sound(s, r.value.comp, r.value.next)
    ensures r.Ok? ==> |r.value.comp| == |call.args| - j
    ensures r.Ok? ==> StoresAt(r.value.comp, VarargsTemp(v), j - first)
    decreases call, 0, |call.args| - j
  {
    if j == |call.args| then
      SoundPlain(s, [], s);
      Ok(LoweredList([], [], s))
    else
      var arg :- LowerExpr(ctx, call.args[j], s);
      var rest :- VarargsStores(ctx, call, first, j + 1, v, arg.next);
      var ins := Assign(Indexed(VarargsTemp(v), IntLit(j - first)), I32, Copy(arg.code));
      SoundPrepend(s, ins, arg.next, rest.comp, rest.next);
      assert ([ins] + rest.comp)[1..] == rest.comp;
      Ok(LoweredList([], [ins] + rest.comp, rest.next))
  }
}

=== FILE: ollir_stmt.dfy ===
/**
 * OllirGeneratorVisitor: lowering of statements, method declarations and the class to
 * OLLIR, on top of the expression lowering of module OllirExpr.
 *
 * Conditions, assigned values and returned values are lowered as expressions; the
 * visitor itself adds the jumps and labels of `if` and `while`, the stores of
 * assignments, the `ret` instructions and the method and class framing. A call that
 * stands as a statement has a lowering of its own, different from the expression one.
 * The counters are threaded in the order the visit methods call `getTemp`/`getLabel`;
 * expression lowerings advance them as module OllirExpr describes, without the visitor
 * framework's further walk over children.
 */
module OllirStmt {
  import opened Wrappers
  import opened Jmm
  import opened OptUtils
  import opened Ollir
  import opened OllirExpr
  import TypeUtils

  /** The instructions a statement emits and the counters after emitting them. */
  datatype Emitted = Emitted(code: seq<Instr>, next: Counters)

  // ---------------------------------------------------------------------------------
  // Calls standing as statements (`visitFunctionInvk`)
  // ---------------------------------------------------------------------------------

  /**
   * Argument kinds the statement-level call lowering has no branch for (operators,
   * negations, parentheses, the alternative indexing and length forms, array creation):
   * such an argument is silently left out of the invocation.
   */
  predicate DroppedArg(a: Expr)
  {
    NameAttr(a).None? && ValueAttr(a).None? && !a.FieldAccess? && !a.AccessExpr? &&
    !a.FunctionCallExpr? && !a.ElementExpr?
  }

  /** How many of the arguments are not dropped. */
  function Kept(args: seq<Expr>): (n: nat)
    ensures n <= |args|
  {
    if args == [] then 0 else (if DroppedArg(args[0]) then 0 else 1) + Kept(args[1..])
  }

  /**
   * One argument of a call statement. A variable is named (with its `$k.` prefix when it
   * is a parameter) and typed; any other node carrying a `name` (`this`, an object
   * creation) is asked for a `value` it does not have, which throws; a literal is its text
   * and type; a field read and an indexed read go through a fresh `int` temporary; a call
   * or an array literal is lowered as an expression; anything else yields no value.
   */
  function StmtArg(ctx: Ctx, a: Expr, s: Counters): (r: Outcome<Lowered>)
    ensures r.Ok? ==> Sound(s, r.value.comp, r.value.next) && ResultFresh(s, r.value)
    ensures r.Ok? ==> (r.value.code == NoValue <==> DroppedArg(a))
    ensures r.Crash? && NameAttr(a).Some? && !a.VarRefExpr? ==> r.fault == MissingAttribute
  {
    SoundPlain(s, [], s);
    if NameAttr(a).Some? then
      if a.VarRefExpr? then
        var ty := TypeOf(ctx, a).value;
        Ok(Lowered(Var(ParamIndex(ctx.decl.params, a.name), a.name, ToOllirType(ty)), [], s))
      else
        Crash(MissingAttribute)
    else if ValueAttr(a).Some? then
      var ty := TypeOf(ctx, a).value;
      Ok(Lowered(Text(ValueAttr(a).value, ToOllirType(ty)), [], s))
    else if a.FieldAccess? then
      StmtFieldArg(a, s)
    else if a.AccessExpr? then
      StmtAccessArg(ctx, a, s)
    else if a.FunctionCallExpr? || a.ElementExpr? then
      LowerExprShape(ctx, a, s);
      LowerExpr(ctx, a, s)
    else
      Ok(Lowered(NoValue, [], s))
  }

  /**
   * A field read as a call argument: a fresh `int` temporary, assigned the array length
   * of the receiver (which must carry a name) for `length`, and assigned nothing (an
   * assignment with an empty right-hand side) for any other field.
   */
  function StmtFieldArg(a: Expr, s: Counters): (r: Outcome<Lowered>)
    requires a.FieldAccess?
    ensures r.Ok? ==> Sound(s, r.value.comp, r.value.next) && Defines(r.value)
    ensures r.Ok? ==> r.value.code == Temp(s.lastTemp + 1, I32) && r.value.next == s.(lastTemp := s.lastTemp + 1)
    ensures r.Crash? <==> a.field == "length" && NameAttr(a.obj).None?
  {
    var (k, s1) := GetNextTempNum(false, s);
    var name :- if a.field == "length" then Need(NameAttr(a.obj)) else Ok("");
    var rhs := if a.field == "length" then LengthOf(Var(None, name, ArrayI32)) else Copy(NoValue);
    var comp := [Assign(Temp(k, I32), I32, rhs)];
    SoundPlain(s, comp, s1);
    AssignedAt(comp, 0);
    Ok(Lowered(Temp(k, I32), comp, s1))
  }

  /**
   * An indexed read as a call argument: the index first, then a fresh `int` temporary
   * assigned the named array (spelled without a type) at that index.
   */
  function StmtAccessArg(ctx: Ctx, a: Expr, s: Counters): (r: Outcome<Lowered>)
    requires a.AccessExpr?
    ensures r.Ok? ==> Sound(s, r.value.comp, r.value.next) && ResultFresh(s, r.value) && Defines(r.value)
    ensures r.Ok? ==>
      NameAttr(a.arr).Some? && LowerExpr(ctx, a.index, s).Ok? && Last(r.value.comp).Assign? &&
      Last(r.value.comp).rhs == Copy(Indexed(Var(None, NameAttr(a.arr).value, ""), LowerExpr(ctx, a.index, s).value.code))
  {
    var pos :- LowerExpr(ctx, a.index, s);
    var (k, s1) := GetNextTempNum(false, pos.next);
    var name :- Need(NameAttr(a.arr));
    var ins := Assign(Temp(k, I32), I32, Copy(Indexed(Var(None, name, ""), pos.code)));
    SoundAppendAssign(s, pos.comp, pos.next, ins);
    Ok(Lowered(Temp(k, I32), pos.comp + [ins], s1))
  }

  /**
   * The argument loop for arguments `i` to `upTo - 1`: each argument's computation is
   * placed in front of everything produced before it, and only the arguments that are not
   * dropped pass a value.
   */
  function StmtArgs(ctx: Ctx, call: Expr, i: nat, upTo: nat, s: Counters): (r: Outcome<LoweredList>)
    requires call.FunctionCallExpr? && i <= upTo <= |call.args|
    ensures r.Ok? ==> Sound(s, r.value.comp, r.value.next)
    decreases upTo - i
  {
    if i == upTo then
      SoundPlain(s, [], s);
      Ok(LoweredList([], [], s))
    else
      var one :- StmtArg(ctx, call.args[i], s);
      var rest :- StmtArgs(ctx, call, i + 1, upTo, one.next);
      SoundSequence(s, one.comp, one.next, rest.comp, rest.next);
      Ok(LoweredList((if one.code == NoValue then [] else [one.code]) + rest.values, rest.comp + one.comp, rest.next))
  }

  /** Exactly the arguments that are not dropped pass a value. */
  lemma {:induction false} StmtArgsPassKept(ctx: Ctx, call: Expr, i: nat, upTo: nat, s: Counters)
    requires call.FunctionCallExpr? && i <= upTo <= |call.args|
    ensures StmtArgs(ctx, call, i, upTo, s).Ok? ==>
      |StmtArgs(ctx, call, i, upTo, s).value.values| == Kept(call.args[i..upTo])
    decreases upTo - i
  {
    if i < upTo && StmtArgs(ctx, call, i, upTo, s).Ok? {
      var one := StmtArg(ctx, call.args[i], s).value;
      StmtArgsPassKept(ctx, call, i + 1, upTo, one.next);
      assert call.args[i..upTo][1..] == call.args[i + 1..upTo];
    }
  }

  /** `invokestatic` exactly when the receiver's name is the name of its own type. */
  function StmtKind(recv: string, recvType: Type): (k: InvokeKind)
    ensures k == StaticInvoke <==> recv == recvType.name
  {
    if recv == recvType.name then StaticInvoke else VirtualInvoke
  }

  /**
   * What a call statement invokes before its arguments: the kind, the receiver groups
   * (spelled without a type when the callee's return type is unknown) and the return type.
   */
  datatype Callee = Callee(kind: InvokeKind, heads: seq<Head>, ret: string)

  function StmtCallee(ctx: Ctx, e: Expr): (r: Outcome<Callee>)
    requires e.FunctionCallExpr?
    ensures r.Ok? <==>
      TypeOf(ctx, e.receiver).Ok? && TypeOf(ctx, e.receiver).value.Some? && NameAttr(e.receiver).Some?
    ensures r.Ok? ==>
      (r.value.kind == StaticInvoke <==> NameAttr(e.receiver).value == TypeOf(ctx, e.receiver).value.value.name)
    ensures r.Ok? ==> r.value.ret == ToOllirType(ctx.table.ReturnType(e.func)) && |r.value.heads| >= 1
  {
    var recvType :- TypeOf(ctx, e.receiver);
    var recvT :- NonNull(recvType);
    var recv :- Need(NameAttr(e.receiver));
    var resType := TypeOf(ctx, e).value;
    var plain := if resType.None? then "" else ToOllirType(recvType);
    Ok(Callee(StmtKind(recv, recvT), CallHeads(ctx.table, recv, plain, resType, e.func), ToOllirType(resType)))
  }

  /**
   * A call statement: the callee, then (when the callee takes a variable number of
   * arguments) the trailing arguments packed into an allocated array as the expression
   * lowering packs them, then the leading arguments, and one invocation whose value is
   * dropped, with the packed array passed last.
   */
  function StmtCall(ctx: Ctx, e: Expr, s: Counters): (r: Outcome<Emitted>)
    requires e.FunctionCallExpr?
    ensures r.Ok? ==> Sound(s, r.value.code, r.value.next)
  {
    var callee :- StmtCallee(ctx, e);
    if MethodHasVarArgs(ctx.table, e.func, |e.args|) then
      var va :- GenerateVarArgs(ctx, e, s);
      var args :- StmtArgs(ctx, e, 0, |ctx.table.Parameters(e.func)| - 1, va.next);
      Ok(PackedCall(s, va, args, callee))
    else
      SoundPlain(s, [], s);
      var args :- StmtArgs(ctx, e, 0, |e.args|, s);
      Ok(InvokeAfter(s, [], s, args, Invocation(callee.kind, callee.heads, args.values, callee.ret)))
  }

  /** The packed array's code, the leading arguments' code, and the array passed last. */
  function PackedCall(s: Counters, va: Lowered, args: LoweredList, callee: Callee): (r: Emitted)
    requires Sound(s, va.comp, va.next) && Sound(va.next, args.comp, args.next) && |va.comp| >= 2
    ensures Sound(s, r.code, r.next)
    ensures |r.code| >= 1 && Last(r.code) == Invoke(Invocation(callee.kind, callee.heads, args.values + [va.code], callee.ret))
    ensures va.comp[1] in r.code
  {
    var r := InvokeAfter(s, va.comp, va.next, args, Invocation(callee.kind, callee.heads, args.values + [va.code], callee.ret));
    assert va.comp[1] in r.code[..|r.code| - 1];
    r
  }

  /** Sound computations in two windows, then the invocation. */
  function InvokeAfter(s: Counters, first: seq<Instr>, s1: Counters, args: LoweredList, inv: Invocation): (r: Emitted)
    requires Sound(s, first, s1) && Sound(s1, args.comp, args.next)
    ensures Sound(s, r.code, r.next) && r.next == args.next
    ensures |r.code| >= 1 && Last(r.code) == Invoke(inv)
    ensures r.code[..|r.code| - 1] == args.comp + first
  {
    SoundSequence(s, first, s1, args.comp, args.next);
    SoundPlain(args.next, [Invoke(inv)], args.next);
    SoundSequence(s, args.comp + first, args.next, [Invoke(inv)], args.next);
    Emitted(args.comp + first + [Invoke(inv)], args.next)
  }

  /**
   * The call statement as the Java code writes it: for a callee with a variable number of
   * arguments, a fresh `__varargs_array_` name is passed first, the array behind it is
   * never created, and only the arguments before the last parameter are visited.
   */
  function StmtCallAsWritten(ctx: Ctx, e: Expr, s: Counters): (r: Outcome<Emitted>)
    requires e.FunctionCallExpr?
    ensures r.Ok? ==> Sound(s, r.value.code, r.value.next)
  {
    var callee :- StmtCallee(ctx, e);
    var hasVa := MethodHasVarArgs(ctx.table, e.func, |e.args|);
    var s1 := if hasVa then GetNextTempNum(false, s).1 else s;
    SoundPlain(s, [], s1);
    var args :- StmtArgs(ctx, e, 0, if hasVa then |ctx.table.Parameters(e.func)| - 1 else |e.args|, s1);
    var inv := Invocation(callee.kind, callee.heads, if hasVa then [VarargsTemp(s1.lastTemp)] + args.values else args.values, callee.ret);
    Ok(InvokeAfter(s, [], s1, args, inv))
  }

  /**
   * `defaultVisit` of an expression statement: a call is lowered as a call statement;
   * any other expression emits only what the calls among its descendants emit, in order.
   */
  function StmtExpr(ctx: Ctx, e: Expr, s: Counters): (r: Outcome<Emitted>)
    ensures r.Ok? ==> Sound(s, r.value.code, r.value.next)
    decreases e, 1
  {
    if e.FunctionCallExpr? then StmtCall(ctx, e, s) else StmtExprChildren(ctx, e, 0, s)
  }

  function StmtExprChildren(ctx: Ctx, e: Expr, i: nat, s: Counters): (r: Outcome<Emitted>)
    requires i <= |Children(e)|
    ensures r.Ok? ==> Sound(s, r.value.code, r.value.next)
    decreases e, 0, |Children(e)| - i
  {
    if i == |Children(e)| then
      SoundPlain(s, [], s);
      Ok(Emitted([], s))
    else
      assert Children(e)[i] in Children(e);
      var c :- StmtExpr(ctx, Children(e)[i], s);
      var rest :- StmtExprChildren(ctx, e, i + 1, c.next);
      SoundSequence(s, c.code, c.next, rest.code, rest.next);
      Ok(Emitted(c.code + rest.code, rest.next))
  }

  // ---------------------------------------------------------------------------------
  // Statements
  // ---------------------------------------------------------------------------------

  /** `visitAssignStmt`, `visitIfStmt`, `visitWhileStmt`, `visitReturn`, and `defaultVisit`. */
  function LowerStmt(ctx: Ctx, st: Stmt, s: Counters): (r: Outcome<Emitted>)
    ensures r.Ok? ==> Sound(s, r.value.code, r.value.next)
    decreases st, 1
  {
    match st
    case AssignStmt(_, _) => LowerAssign(ctx, st, s)
    case IfStmt(_, _, _) => LowerIf(ctx, st, s)
    case WhileStmt(_, _) => LowerWhile(ctx, st, s)
    case ReturnStmt(_) => LowerReturn(ctx, st, s)
    case ExprStmt(e) => StmtExpr(ctx, e, s)
    case BlockStmt(_) => LowerBlock(ctx, st, 0, s)
  }

  /** The statements of a block from position `i` on, one after the other. */
  function LowerBlock(ctx: Ctx, st: Stmt, i: nat, s: Counters): (r: Outcome<Emitted>)
    requires st.BlockStmt? && i <= |st.stmts|
    ensures r.Ok? ==> Sound(s, r.value.code, r.value.next)
    decreases st, 0, |st.stmts| - i
  {
    if i == |st.stmts| then
      SoundPlain(s, [], s);
      Ok(Emitted([], s))
    else
      var one :- LowerStmt(ctx, st.stmts[i], s);
      var rest :- LowerBlock(ctx, st, i + 1, one.next);
      SoundSequence(s, one.code, one.next, rest.code, rest.next);
      Ok(Emitted(one.code + rest.code, rest.next))
  }

  /** The name a non-field assignment target is written with: its `name`, else its `value`. */
  function TargetName(target: Expr): string
  {
    if NameAttr(target).Some? then NameAttr(target).value
    else if ValueAttr(target).Some? then ValueAttr(target).value
    else if target.FieldAccess? then target.field
    else ""
  }

  /**
   * `visitAssignStmt`. A target that is a field access naming a field of the class becomes
   * a `putfield` of the value, typed by the value. Any other target is assigned by name,
   * typed by the target's own type; an indexed target has its index lowered first and is
   * written `array[index]`.
   */
  function LowerAssign(ctx: Ctx, st: Stmt, s: Counters): (r: Outcome<Emitted>)
    requires st.AssignStmt?
    ensures r.Ok? ==> Sound(s, r.value.code, r.value.next)
  {
    var fieldName := if st.target.FieldAccess? then st.target.field else "";
    if FirstSymbol(ctx.table.fields, fieldName).Some? then
      var rhs :- LowerExpr(ctx, st.value, s);
      var ty :- TypeOf(ctx, st.value);
      Ok(StoreAfter(s, [], s, rhs, PutField(fieldName, ToOllirType(ty), rhs.code)))
    else
      SoundPlain(s, [], s);
      var pos :- if st.target.AccessExpr? then LowerExpr(ctx, st.target.index, s) else Ok(Lowered(NoValue, [], s));
      var arrName :- if st.target.AccessExpr? then Need(NameAttr(st.target.arr)) else Ok("");
      var rhs :- LowerExpr(ctx, st.value, pos.next);
      var ty :- TypeOf(ctx, st.target);
      var T := ToOllirType(ty);
      var dest := if st.target.AccessExpr? then Indexed(Var(None, arrName, ""), pos.code) else Var(None, TargetName(st.target), T);
      Ok(StoreAfter(s, pos.comp, pos.next, rhs, Assign(dest, T, Copy(rhs.code))))
  }

  /** An index computation, the value's computation, then the store. */
  function StoreAfter(s: Counters, first: seq<Instr>, s1: Counters, rhs: Lowered, store: Instr): (r: Emitted)
    requires Sound(s, first, s1) && Sound(s1, rhs.comp, rhs.next)
    requires Plain(store) && !(store.Assign? && store.dest.Temp?)
    ensures Sound(s, r.code, r.next) && r.next == rhs.next
    ensures |r.code| >= 1 && Last(r.code) == store
    ensures r.code[..|r.code| - 1] == first + rhs.comp
  {
    SoundSequence(s, first, s1, rhs.comp, rhs.next);
    SoundPlain(rhs.next, [store], rhs.next);
    SoundSequence(s, first + rhs.comp, rhs.next, [store], rhs.next);
    Emitted(first + rhs.comp + [store], rhs.next)
  }

  /** `visitReturn`: the value, then `ret` typed by the enclosing method's return type. */
  function LowerReturn(ctx: Ctx, st: Stmt, s: Counters): (r: Outcome<Emitted>)
    requires st.ReturnStmt?
    ensures r.Ok? ==> Sound(s, r.value.code, r.value.next)
  {
    var T := ToOllirType(ctx.table.ReturnType(ctx.decl.name));
    SoundPlain(s, [], s);
    var ex :- if st.result.Some? then LowerExpr(ctx, st.result.value, s) else Ok(Lowered(NoValue, [], s));
    SoundPlain(ex.next, [Ret(T, ex.code)], ex.next);
    SoundSequence(s, ex.comp, ex.next, [Ret(T, ex.code)], ex.next);
    Ok(Emitted(ex.comp + [Ret(T, ex.code)], ex.next))
  }

  /** The jumps of an `if` before the then-branch: to `ifN` when true, else to `elseN+1`. */
  function IfHead(c: Value, n: nat): seq<Instr>
  {
    [CondGoto(c, Label(IfThen, n)), Goto(Label(IfElse, n + 1)), LabelDef(Label(IfThen, n))]
  }

  /** Between the branches: leave to `endifN+2`, and the else-branch starts. */
  function IfMiddle(n: nat): seq<Instr>
  {
    [Goto(Label(IfEnd, n + 2)), LabelDef(Label(IfElse, n + 1))]
  }

  function IfTail(n: nat): seq<Instr>
  {
    [LabelDef(Label(IfEnd, n + 2))]
  }

  /**
   * `visitIfStmt`: the three labels are taken first, then the condition is lowered, then
   * the then-branch and the else-branch (when present) as statements.
   */
  function LowerIf(ctx: Ctx, st: Stmt, s: Counters): (r: Outcome<Emitted>)
    requires st.IfStmt?
    ensures r.Ok? ==> Sound(s, r.value.code, r.value.next)
    decreases st, 0
  {
    var s3 := GetLabel(GetLabel(GetLabel(s).1).1).1;
    var cond :- LowerExpr(ctx, st.cond, s3);
    var thenC :- LowerStmt(ctx, st.thenBranch, cond.next);
    SoundPlain(thenC.next, [], thenC.next);
    var elseC :- if st.elseBranch.Some? then LowerStmt(ctx, st.elseBranch.value, thenC.next) else Ok(Emitted([], thenC.next));
    IfSound(s, cond.code, cond.comp, cond.next, thenC.code, thenC.next, elseC.code, elseC.next);
    Ok(Emitted(IfCode(s.nextLabel, cond.code, cond.comp, thenC.code, elseC.code), elseC.next))
  }

  function IfCode(n: nat, c: Value, cc: seq<Instr>, tc: seq<Instr>, ec: seq<Instr>): seq<Instr>
  {
    cc + IfHead(c, n) + tc + IfMiddle(n) + ec + IfTail(n)
  }

  lemma IfPiecesFacts(c: Value, n: nat)
    ensures DefinedLabels(IfHead(c, n)) == [Label(IfThen, n)] && AssignedTemps(IfHead(c, n)) == []
    ensures DefinedLabels(IfMiddle(n)) == [Label(IfElse, n + 1)] && AssignedTemps(IfMiddle(n)) == []
    ensures DefinedLabels(IfTail(n)) == [Label(IfEnd, n + 2)] && AssignedTemps(IfTail(n)) == []
  {
    var h, m := IfHead(c, n), IfMiddle(n);
    assert h[1..][1..] == [h[2]] && m[1..] == [m[1]];
    SingleInstr(h[2]);
    SingleInstr(m[1]);
    SingleInstr(IfTail(n)[0]);
  }

  /** The skeleton alone: three distinct labels, and every jump lands on one of them. */
  lemma IfSkeletonSound(s: Counters, c: Value)
    ensures Sound(s, IfHead(c, s.nextLabel) + IfMiddle(s.nextLabel) + IfTail(s.nextLabel), s.(nextLabel := s.nextLabel + 3))
  {
    var n := s.nextLabel;
    var h, m, t := IfHead(c, n), IfMiddle(n), IfTail(n);
    IfPiecesFacts(c, n);
    DefinedLabelsAppend(h, m);
    DefinedLabelsAppend(h + m, t);
    AssignedTempsAppend(h, m);
    AssignedTempsAppend(h + m, t);
    assert DefinedLabels(h + m + t) == [Label(IfThen, n), Label(IfElse, n + 1), Label(IfEnd, n + 2)];
  }

  lemma IfSound(s: Counters, c: Value, cc: seq<Instr>, s1: Counters, tc: seq<Instr>, s2: Counters, ec: seq<Instr>, s3: Counters)
    requires Sound(s.(nextLabel := s.nextLabel + 3), cc, s1) && Sound(s1, tc, s2) && Sound(s2, ec, s3)
    ensures Sound(s, IfCode(s.nextLabel, c, cc, tc, ec), s3)
  {
    IfSkeletonSound(s, c);
    SoundInterleave(s, IfHead(c, s.nextLabel), IfMiddle(s.nextLabel), IfTail(s.nextLabel), s.(nextLabel := s.nextLabel + 3), cc, s1, tc, s2, ec, s3);
  }

  /**
   * Three pieces of sound code from consecutive later windows placed before, between and
   * inside the three parts of a skeleton from an earlier window.
   */
  lemma SoundInterleave(s0: Counters, h: seq<Instr>, m: seq<Instr>, t: seq<Instr>, s1: Counters,
                        cc: seq<Instr>, s2: Counters, tc: seq<Instr>, s3: Counters, ec: seq<Instr>, s4: Counters)
    requires Sound(s0, h + m + t, s1) && Sound(s1, cc, s2) && Sound(s2, tc, s3) && Sound(s3, ec, s4)
    ensures Sound(s0, cc + h + tc + m + ec + t, s4)
  {
    assert [] + (h + m + t) == h + m + t;
    SoundInside(s0, [], h + m + t, s1, cc, s2);
    assert [] + cc + (h + m + t) == (cc + h) + (m + t);
    SoundInside(s0, cc + h, m + t, s2, tc, s3);
    assert cc + h + tc + (m + t) == (cc + h + tc + m) + t;
    SoundInside(s0, cc + h + tc + m, t, s3, ec, s4);
  }

  /** The loop test at the bottom: back to the body when the condition holds. */
  function WhileHead(c: Value, n: nat): seq<Instr>
  {
    [CondGoto(c, Label(WhileBody, n)), Goto(Label(WhileEnd, n + 1)), LabelDef(Label(WhileBody, n))]
  }

  function WhileTail(c: Value, n: nat): seq<Instr>
  {
    [CondGoto(c, Label(WhileBody, n)), LabelDef(Label(WhileEnd, n + 1))]
  }

  /**
   * `visitWhileStmt` with the loop test at the bottom computed afresh: the condition is
   * lowered, the two labels are taken, the body follows, and the condition is lowered a
   * second time (with new temporaries and labels) for the test that jumps back.
   */
  function LowerWhile(ctx: Ctx, st: Stmt, s: Counters): (r: Outcome<Emitted>)
    requires st.WhileStmt?
    ensures r.Ok? ==> Sound(s, r.value.code, r.value.next)
    decreases st, 0
  {
    var cond :- LowerExpr(ctx, st.cond, s);
    var s2 := GetLabel(GetLabel(cond.next).1).1;
    var body :- LowerStmt(ctx, st.body, s2);
    var again :- LowerExpr(ctx, st.cond, body.next);
    WhileSound(s, cond.code, cond.comp, cond.next, body.code, body.next, again.code, again.comp, again.next);
    Ok(Emitted(WhileCode(cond.next.nextLabel, cond.code, cond.comp, body.code, again.code, again.comp), again.next))
  }

  function WhileCode(n: nat, c1: Value, cc1: seq<Instr>, bc: seq<Instr>, c2: Value, cc2: seq<Instr>): seq<Instr>
  {
    cc1 + WhileHead(c1, n) + (bc + cc2) + WhileTail(c2, n)
  }

  lemma WhileSkeletonSound(s: Counters, c1: Value, c2: Value)
    ensures Sound(s, WhileHead(c1, s.nextLabel) + WhileTail(c2, s.nextLabel), s.(nextLabel := s.nextLabel + 2))
  {
    var n := s.nextLabel;
    var h, t := WhileHead(c1, n), WhileTail(c2, n);
    assert h[1..][1..] == [h[2]] && t[1..] == [t[1]];
    SingleInstr(h[2]);
    SingleInstr(t[1]);
    DefinedLabelsAppend(h, t);
    AssignedTempsAppend(h, t);
    assert DefinedLabels(h + t) == [Label(WhileBody, n), Label(WhileEnd, n + 1)];
  }

  lemma WhileSound(s: Counters, c1: Value, cc1: seq<Instr>, s1: Counters, bc: seq<Instr>, s2: Counters, c2: Value, cc2: seq<Instr>, s3: Counters)
    requires Sound(s, cc1, s1) && Sound(s1.(nextLabel := s1.nextLabel + 2), bc, s2) && Sound(s2, cc2, s3)
    ensures Sound(s, WhileCode(s1.nextLabel, c1, cc1, bc, c2, cc2), s3)
  {
    WhileSkeletonSound(s1, c1, c2);
    SoundSequence(s1.(nextLabel := s1.nextLabel + 2), bc, s2, cc2, s3);
    SoundWrap(s, cc1, s1, WhileHead(c1, s1.nextLabel), WhileTail(c2, s1.nextLabel), s1.(nextLabel := s1.nextLabel + 2), bc + cc2, s3);
  }

  /** Sound code, then a skeleton from the next window wrapped around code from a later one. */
  lemma SoundWrap(s0: Counters, pre: seq<Instr>, s1: Counters, h: seq<Instr>, t: seq<Instr>, s2: Counters, mid: seq<Instr>, s3: Counters)
    requires Sound(s0, pre, s1) && Sound(s1, h + t, s2) && Sound(s2, mid, s3)
    ensures Sound(s0, pre + h + mid + t, s3)
  {
    SoundInside(s1, h, t, s2, mid, s3);
    SoundSequence(s0, pre, s1, h + mid + t, s3);
    assert pre + (h + mid + t) == pre + h + mid + t;
  }

  // ---------------------------------------------------------------------------------
  // The loop as written, with its test copied
  // ---------------------------------------------------------------------------------

  /**
   * `visitWhileStmt` as the Java code writes it: the text of the condition's computation
   * and test is built once and emitted twice, before the body and after it.
   */
  function LowerWhileAsWritten(ctx: Ctx, st: Stmt, s: Counters): (r: Outcome<Emitted>)
    requires st.WhileStmt?
    ensures r.Ok? ==> Advanced(s, r.value.next)
  {
    var cond :- LowerExpr(ctx, st.cond, s);
    var s2 := GetLabel(GetLabel(cond.next).1).1;
    var body :- LowerStmt(ctx, st.body, s2);
    Ok(Emitted(WhileCode(cond.next.nextLabel, cond.code, cond.comp, body.code, cond.code, cond.comp), body.next))
  }

  /**
   * Whenever the condition's computation defines a label (a condition with `&&` does),
   * the copied test defines it a second time, so the loop's labels are not distinct and
   * the code cannot be sound.
   */
  lemma WhileAsWrittenRepeatsLabels(ctx: Ctx, st: Stmt, s: Counters)
    requires st.WhileStmt? && LowerWhileAsWritten(ctx, st, s).Ok?
    requires DefinedLabels(LowerExpr(ctx, st.cond, s).value.comp) != []
    ensures !DistinctNumbers(DefinedLabels(LowerWhileAsWritten(ctx, st, s).value.code))
    ensures !Sound(s, LowerWhileAsWritten(ctx, st, s).value.code, LowerWhileAsWritten(ctx, st, s).value.next)
  {
    var cond := LowerExpr(ctx, st.cond, s).value;
    var r := LowerWhileAsWritten(ctx, st, s).value;
    var n := cond.next.nextLabel;
    var body := LowerStmt(ctx, st.body, GetLabel(GetLabel(cond.next).1).1).value;
    var h, t := WhileHead(cond.code, n), WhileTail(cond.code, n);
    assert r.code == cond.comp + h + (body.code + cond.comp) + t;
    DefinedLabelsAppend(cond.comp, h);
    DefinedLabelsAppend(body.code, cond.comp);
    DefinedLabelsAppend(cond.comp + h, body.code + cond.comp);
    DefinedLabelsAppend(cond.comp + h + (body.code + cond.comp), t);
    var lc := DefinedLabels(cond.comp);
    var ls := DefinedLabels(r.code);
    var j := |lc| + |DefinedLabels(h)| + |DefinedLabels(body.code)|;
    assert ls[0] == lc[0] && ls[j] == lc[0] && 0 < j < |ls|;
  }

  /** `while (true && false) {}`: the conjunction's labels `true_N` and `end_N+1`. */
  const AndLoop := WhileStmt(BinaryExpr("&&", BooleanLiteral(true), BooleanLiteral(false)), BlockStmt([]))

  lemma AndConditionLabels(ctx: Ctx, s: Counters)
    ensures LowerExpr(ctx, AndLoop.cond, s).Ok?
    ensures DefinedLabels(LowerExpr(ctx, AndLoop.cond, s).value.comp) == [Label(AndTrue, s.nextLabel), Label(AndEnd, s.nextLabel + 1)]
  {
    AndConditionLowers(ctx, s);
    AndLiteralsLabels(s);
  }

  lemma AndConditionLowers(ctx: Ctx, s: Counters)
    ensures LowerExpr(ctx, AndLoop.cond, s) == Ok(AndLowered(s, Lowered(BoolLit(true), [], s), Lowered(BoolLit(false), [], s)))
  {
    LowerExprShape(ctx, BooleanLiteral(true), s);
    LowerExprShape(ctx, BooleanLiteral(false), s);
  }

  lemma AndLiteralsLabels(s: Counters)
    ensures DefinedLabels(AndLowered(s, Lowered(BoolLit(true), [], s), Lowered(BoolLit(false), [], s)).comp) ==
      [Label(AndTrue, s.nextLabel), Label(AndEnd, s.nextLabel + 1)]
  {
    var res := Temp(s.lastTemp + 1, Bool);
    var pre, post := AndPre(BoolLit(true), res, s.nextLabel, s.nextLabel + 1), AndPost(BoolLit(false), res, s.nextLabel + 1);
    assert [] + (pre + [] + post) == pre + post;
    AndSkeletonSummary(BoolLit(true), res, BoolLit(false), s.nextLabel, s.nextLabel + 1);
  }

  /** So `while (true && false) {}` as written defines `true_N` twice. */
  lemma AndLoopAsWrittenClashes(ctx: Ctx, s: Counters)
    ensures LowerWhileAsWritten(ctx, AndLoop, s).Ok?
    ensures !DistinctNumbers(DefinedLabels(LowerWhileAsWritten(ctx, AndLoop, s).value.code))
  {
    AndConditionLabels(ctx, s);
    EmptyBlock(ctx, GetLabel(GetLabel(LowerExpr(ctx, AndLoop.cond, s).value.next).1).1);
    WhileAsWrittenRepeatsLabels(ctx, AndLoop, s);
  }

  /** The corrected loop lowers the same statement to sound code. */
  lemma AndLoopCorrectedSound(ctx: Ctx, s: Counters)
    ensures LowerWhile(ctx, AndLoop, s).Ok?
    ensures Sound(s, LowerWhile(ctx, AndLoop, s).value.code, LowerWhile(ctx, AndLoop, s).value.next)
  {
    AndConditionLabels(ctx, s);
    var s2 := GetLabel(GetLabel(LowerExpr(ctx, AndLoop.cond, s).value.next).1).1;
    EmptyBlock(ctx, s2);
    AndConditionLabels(ctx, s2);
  }

  /** An empty block emits nothing. */
  lemma EmptyBlock(ctx: Ctx, s: Counters)
    ensures LowerStmt(ctx, BlockStmt([]), s) == Ok(Emitted([], s))
  {
    assert LowerBlock(ctx, BlockStmt([]), 0, s) == Ok(Emitted([], s));
  }

  // ---------------------------------------------------------------------------------
  // What a call statement invokes
  // ---------------------------------------------------------------------------------

  /**
   * The invocation ending a call statement: its kind and its return type; without a
   * variable number of arguments, exactly the kept arguments are passed.
   */
  lemma StmtCallInvocation(ctx: Ctx, e: Expr, s: Counters)
    requires e.FunctionCallExpr?
    ensures StmtCall(ctx, e, s).Ok? ==> Last(StmtCall(ctx, e, s).value.code).Invoke?
    ensures StmtCall(ctx, e, s).Ok? ==>
      (Last(StmtCall(ctx, e, s).value.code).inv.kind == StaticInvoke <==>
       NameAttr(e.receiver).value == TypeOf(ctx, e.receiver).value.value.name)
    ensures StmtCall(ctx, e, s).Ok? ==>
      Last(StmtCall(ctx, e, s).value.code).inv.ret == ToOllirType(ctx.table.ReturnType(e.func))
    ensures StmtCall(ctx, e, s).Ok? && !MethodHasVarArgs(ctx.table, e.func, |e.args|) ==>
      |Last(StmtCall(ctx, e, s).value.code).inv.args| == Kept(e.args)
  {
    if StmtCall(ctx, e, s).Ok? && !MethodHasVarArgs(ctx.table, e.func, |e.args|) {
      StmtArgsPassKept(ctx, e, 0, |e.args|, s);
      assert e.args[0..|e.args|] == e.args;
    }
  }

  /**
   * With a variable number of arguments, the kept leading arguments are passed first and
   * then the array into which the code allocates and copies the trailing ones.
   */
  lemma StmtCallPacksVarargs(ctx: Ctx, e: Expr, s: Counters)
    requires e.FunctionCallExpr? && MethodHasVarArgs(ctx.table, e.func, |e.args|)
    ensures StmtCall(ctx, e, s).Ok? ==> Last(StmtCall(ctx, e, s).value.code).Invoke?
    ensures StmtCall(ctx, e, s).Ok? ==>
      |Last(StmtCall(ctx, e, s).value.code).inv.args| == Kept(e.args[..|ctx.table.Parameters(e.func)| - 1]) + 1
    ensures StmtCall(ctx, e, s).Ok? ==>
      Last(Last(StmtCall(ctx, e, s).value.code).inv.args) == VarargsTemp(s.lastTemp + 2)
    ensures StmtCall(ctx, e, s).Ok? ==>
      Assign(VarargsTemp(s.lastTemp + 2), ArrayI32, Copy(Temp(s.lastTemp + 1, ArrayI32))) in StmtCall(ctx, e, s).value.code
  {
    if StmtCall(ctx, e, s).Ok? {
      var upTo := |ctx.table.Parameters(e.func)| - 1;
      PackedParts(ctx, e, s);
      var va := GenerateVarArgs(ctx, e, s).value;
      PackedArray(ctx, e, s);
      StmtArgsPassKept(ctx, e, 0, upTo, va.next);
      assert e.args[0..upTo] == e.args[..upTo];
    }
  }

  /** A call with a variable number of arguments lowers to the packed form. */
  lemma PackedParts(ctx: Ctx, e: Expr, s: Counters)
    requires e.FunctionCallExpr? && MethodHasVarArgs(ctx.table, e.func, |e.args|)
    ensures StmtCall(ctx, e, s).Ok? ==> GenerateVarArgs(ctx, e, s).Ok?
    ensures StmtCall(ctx, e, s).Ok? ==>
      StmtArgs(ctx, e, 0, |ctx.table.Parameters(e.func)| - 1, GenerateVarArgs(ctx, e, s).value.next).Ok?
    ensures StmtCall(ctx, e, s).Ok? ==> StmtCall(ctx, e, s) == Ok(PackedCall(s, GenerateVarArgs(ctx, e, s).value,
      StmtArgs(ctx, e, 0, |ctx.table.Parameters(e.func)| - 1, GenerateVarArgs(ctx, e, s).value.next).value, StmtCallee(ctx, e).value))
  {
  }

  /** The packed array is the second fresh temporary, copied from the first. */
  lemma PackedArray(ctx: Ctx, e: Expr, s: Counters)
    requires e.FunctionCallExpr? && MethodHasVarArgs(ctx.table, e.func, |e.args|) && GenerateVarArgs(ctx, e, s).Ok?
    ensures GenerateVarArgs(ctx, e, s).value.code == VarargsTemp(s.lastTemp + 2)
    ensures GenerateVarArgs(ctx, e, s).value.comp[1] == Assign(VarargsTemp(s.lastTemp + 2), ArrayI32, Copy(Temp(s.lastTemp + 1, ArrayI32)))
  {
  }

  /**
   * The invocation ending a call statement as written: with a variable number of
   * arguments, a `__varargs_array_` name numbered by a fresh temporary comes first and
   * only the kept arguments before the last parameter follow, so every argument from the
   * last parameter's position on is lost.
   */
  lemma StmtCallAsWrittenInvocation(ctx: Ctx, e: Expr, s: Counters)
    requires e.FunctionCallExpr? && StmtCallAsWritten(ctx, e, s).Ok?
    requires MethodHasVarArgs(ctx.table, e.func, |e.args|)
    ensures Last(StmtCallAsWritten(ctx, e, s).value.code).Invoke?
    ensures Last(StmtCallAsWritten(ctx, e, s).value.code).inv.args[0] == VarargsTemp(s.lastTemp + 1)
    ensures |Last(StmtCallAsWritten(ctx, e, s).value.code).inv.args| == Kept(e.args[..|ctx.table.Parameters(e.func)| - 1]) + 1
  {
    var upTo := |ctx.table.Parameters(e.func)| - 1;
    var s1 := GetNextTempNum(false, s).1;
    assert s1 == s.(lastTemp := s.lastTemp + 1);
    var callee := StmtCallee(ctx, e).value;
    assert StmtArgs(ctx, e, 0, upTo, s1).Ok?;
    var args := StmtArgs(ctx, e, 0, upTo, s1).value;
    var inv := Invocation(callee.kind, callee.heads, [VarargsTemp(s1.lastTemp)] + args.values, callee.ret);
    assert StmtCallAsWritten(ctx, e, s) == Ok(InvokeAfter(s, [], s1, args, inv));
    StmtArgsPassKept(ctx, e, 0, upTo, s1);
    assert e.args[0..upTo] == e.args[..upTo];
  }

  /** A class `Sum` with `int sum(int... xs)`, and the statement `this.sum(1, 2);` in `main`. */
  const SumTable := SymbolTable([], "Sum", "", [], ["sum"], map["sum" := IntType], map["sum" := [Symbol("xs", IntArrayType)]], map[])
  const SumCtx := Ctx(SumTable, MethodDecl("main", true, true, TypeNode(VoidName, false, false), [], []))
  const SumCall := FunctionCallExpr(ThisExpr, "sum", [IntegerLiteral(1), IntegerLiteral(2)])

  /**
   * As written, `this.sum(1, 2);` invokes `sum` with a `__varargs_array_` that no
   * instruction creates, and neither `1` nor `2` appears anywhere in the code.
   */
  lemma SumCallAsWritten(s: Counters)
    ensures StmtCallAsWritten(SumCtx, SumCall, s) ==
      Ok(Emitted([Invoke(Invocation(VirtualInvoke, [Head("this", ".Sum", "sum")], [VarargsTemp(s.lastTemp + 1)], I32))],
        s.(lastTemp := s.lastTemp + 1)))
  {
    assert SumTable.methods[0] == "sum";
    assert SumTable.Parameters("sum") == [Symbol("xs", IntArrayType)];
    assert MethodHasVarArgs(SumTable, "sum", 2);
    assert TypeOf(SumCtx, ThisExpr) == Ok(Some(Type("Sum", false)));
    assert TypeOf(SumCtx, SumCall) == Ok(Some(IntType));
    assert ToOllirType(Some(Type("Sum", false))) == ".Sum" by {
      assert "Sum" !in {"int", "boolean", "int[]", "void", "String", "String[]"};
      assert "." + "Sum" == ".Sum";
    }
    assert CallHeads(SumTable, "this", ".Sum", Some(IntType), "sum") == [Head("this", ".Sum", "sum")];
    assert StmtCallee(SumCtx, SumCall) == Ok(Callee(VirtualInvoke, [Head("this", ".Sum", "sum")], I32));
    var s1 := s.(lastTemp := s.lastTemp + 1);
    assert StmtArgs(SumCtx, SumCall, 0, 0, s1) == Ok(LoweredList([], [], s1));
    var inv := Invocation(VirtualInvoke, [Head("this", ".Sum", "sum")], [VarargsTemp(s.lastTemp + 1)], I32);
    assert [VarargsTemp(s.lastTemp + 1)] + [] == [VarargsTemp(s.lastTemp + 1)];
    assert InvokeAfter(s, [], s1, LoweredList([], [], s1), inv) == Emitted([Invoke(inv)], s1) by {
      assert [] + [] + [Invoke(inv)] == [Invoke(inv)];
    }
  }
}

=== FILE: opt_utils.dfy ===
/**
 * OptUtils: the counters behind fresh OLLIR names, the OLLIR spelling of types, and the
 * test for calls to methods with a variable number of arguments.
 *
 * The Java counters are static fields shared by the whole compilation; here they are a
 * `Counters` value threaded through every lowering function.
 */
module OptUtils {
  import opened Wrappers
  import opened Jmm
  import Strings

  /** Last temporary number handed out (starting at -1) and next label number. */
  datatype Counters = Counters(lastTemp: int, nextLabel: nat)

  const Initial := Counters(-1, 0)

  /** `s2` was reached from `s1`: neither counter ever goes back. */
  predicate Advanced(s1: Counters, s2: Counters)
  {
    s1.lastTemp <= s2.lastTemp && s1.nextLabel <= s2.nextLabel
  }

  /** `getLabel`: the current label number, then the counter moves on. */
  function GetLabel(s: Counters): (r: (nat, Counters))
    ensures r.1.lastTemp == s.lastTemp && r.1.nextLabel == s.nextLabel + 1
    ensures r.0 == s.nextLabel && r.0 < r.1.nextLabel
  {
    (s.nextLabel, s.(nextLabel := s.nextLabel + 1))
  }

  /**
   * `getNextTempNum`: a fresh number, or the last one handed out again when `special`.
   */
  function GetNextTempNum(special: bool, s: Counters): (r: (int, Counters))
    ensures special ==> r.1 == s && r.0 == s.lastTemp
    ensures !special ==> r.0 == s.lastTemp + 1 && r.1 == s.(lastTemp := r.0)
  {
    if special then (s.lastTemp, s) else (s.lastTemp + 1, s.(lastTemp := s.lastTemp + 1))
  }

  /** `getTemp(prefix, special)`: the prefix followed by the decimal temp number. */
  function GetTemp(prefix: string, special: bool, s: Counters): (r: (string, Counters))
    ensures r.1 == GetNextTempNum(special, s).1
    ensures |r.0| > |prefix| && r.0[..|prefix|] == prefix
  {
    var (n, s2) := GetNextTempNum(special, s);
    (prefix + Strings.IntToString(n), s2)
  }

  /**
   * Temporary names never repeat: a fresh name taken after another fresh name (once the
   * counter has moved past it) is different, whatever happened in between.
   */
  lemma TempNamesNeverRepeat(prefix: string, s1: Counters, s2: Counters)
    requires Advanced(GetTemp(prefix, false, s1).1, s2)
    ensures GetTemp(prefix, false, s1).0 != GetTemp(prefix, false, s2).0
  {
    Strings.PrefixedNamesDistinct(prefix, s1.lastTemp + 1, s2.lastTemp + 1);
  }

  /** The `"." + ...` spelling of a source type name. */
  function OllirTypeName(typeName: string): (r: string)
    ensures |r| >= 1 && r[0] == '.'
    ensures typeName == IntName ==> r == ".i32"
    ensures typeName == BoolName ==> r == ".bool"
    ensures typeName == VoidName ==> r == ".V"
    ensures typeName !in {"int", "boolean", "int[]", "void", "String", "String[]"} ==> r == "." + typeName
  {
    "." + (
      match typeName
      case "int" => "i32"
      case "boolean" => "bool"
      case "int[]" => "array.i32"
      case "void" => "V"
      case "String" => "String"
      case "String[]" => "array.String"
      case _ => typeName)
  }

  /** `toOllirType(Type)`: null is `.V`; an array type is `.array` before its element type. */
  function ToOllirType(t: Option<Type>): (r: string)
    ensures t.None? ==> r == ".V"
    ensures t.Some? && t.value.isArray ==> r == ".array" + OllirTypeName(t.value.name)
    ensures t.Some? && !t.value.isArray ==> r == OllirTypeName(t.value.name)
  {
    match t
    case None => ".V"
    case Some(ty) => if ty.isArray then ".array" + OllirTypeName(ty.name) else OllirTypeName(ty.name)
  }

  /** `toOllirType(JmmNode)`: a `Type` node; arrays and varargs append `[]` to the name. */
  function ToOllirTypeNode(tn: TypeNode): (r: string)
    ensures |r| >= 1 && r[0] == '.'
  {
    OllirTypeName(if tn.isArray || tn.isVarArgs then tn.name + "[]" else tn.name)
  }

  /**
   * The two `toOllirType` overloads agree on `int` and `String`, scalar or array (a
   * varargs parameter counting as an array), and on every scalar type.
   */
  lemma TypeSpellingsAgree(tn: TypeNode)
    requires tn.name in {IntName, StringName} || (!tn.isArray && !tn.isVarArgs)
    ensures ToOllirTypeNode(tn) == ToOllirType(Some(Type(tn.name, tn.isArray || tn.isVarArgs)))
  {
    if tn.isArray || tn.isVarArgs {
      if tn.name == IntName {
        assert tn.name + "[]" == "int[]";
      } else {
        assert tn.name + "[]" == "String[]";
      }
    }
  }

  /** They disagree on other array types: a `boolean[]` node is spelled `.boolean[]`. */
  lemma BooleanArraySpellingsDiffer()
    ensures ToOllirTypeNode(TypeNode(BoolName, true, false)) == ".boolean[]"
    ensures ToOllirType(Some(Type(BoolName, true))) == ".array.bool"
  {
  }

  /**
   * `methodHasVarArgs`: the first method of the table with the called name whose
   * parameter count does not exceed the argument count decides: it takes a variable
   * number of arguments when it has parameters and the last one is an array. Parameters
   * are keyed by method name, so every entry with that name has the same parameters.
   */
  function MethodHasVarArgs(t: SymbolTable, func: string, nargs: nat): (r: bool)
    ensures r <==>
      func in t.methods && 0 < |t.Parameters(func)| <= nargs &&
      t.Parameters(func)[|t.Parameters(func)| - 1].typ.isArray
  {
    HasVarArgsFrom(t, func, nargs, 0)
  }

  function HasVarArgsFrom(t: SymbolTable, func: string, nargs: nat, i: nat): (r: bool)
    requires i <= |t.methods|
    ensures r <==>
      func in t.methods[i..] && 0 < |t.Parameters(func)| <= nargs &&
      t.Parameters(func)[|t.Parameters(func)| - 1].typ.isArray
    decreases |t.methods| - i
  {
    if i == |t.methods| then false
    else if t.methods[i] == func && |t.Parameters(t.methods[i])| <= nargs then
      var ps := t.Parameters(t.methods[i]);
      if |ps| == 0 then false else ps[|ps| - 1].typ.isArray
    else
      assert t.methods[i..] == [t.methods[i]] + t.methods[i + 1..];
      HasVarArgsFrom(t, func, nargs, i + 1)
  }
}

=== FILE: reports.dfy ===
/**
 * Diagnostics. Every analysis pass and both code generators append reports to a list and
 * carry on; only the message kind is kept here (line and column are not modelled).
 */
module Reports {

  datatype Stage = Semantic | Generation

  datatype Message =
    // AnalysisVisitor
    | ArrayElementsNotSameType
    // CompatibleTypes
    | OperandNotBoolean
    | OperandNotInteger
    | ArrayArithmetic
    | AssignOperandNotFound
    | AssignNotImported
    | AssignIncompatibleClass
    | AssignIncompatibleTypes
    // ArrayUsageCheck
    | AccessOnNonArray
    | IndexNotInteger
    // MethodCallCheck
    | ObjectNotFound
    | VoidReturn
    | ReturnTypeUnknown
    | ReturnTypeMismatch
    | ArgumentTypeMismatch
    | FewerArguments
    | UndeclaredMethod
    // MethodStructure
    | ReturnNotLast
    | VarArgsNotLast
    | MainHeaderInvalid
    | MainParamCount
    | MainParamType
    // Jasmin generation
    | OperandTypeNotRecognized     // an operand of a type the loads do not handle
    | VarTypeNotRecognized         // a type without descriptor or store, a `new` of another type
    | OperationNotRecognized       // an operation without opcode
    | InvocationNotRecognized      // an invocation kind without emitter
    | ConditionNotRecognized       // a branch condition of an unexpected instruction kind

  datatype Report = Report(stage: Stage, message: Message)

  function Sem(m: Message): Report { Report(Semantic, m) }

  function Gen(m: Message): Report { Report(Generation, m) }

  /** Number of reports with message `m`. */
  function CountOf(rs: seq<Report>, m: Message): (n: nat)
    ensures n <= |rs|
  {
    if rs == [] then 0 else (if rs[0].message == m then 1 else 0) + CountOf(rs[1..], m)
  }

  lemma {:induction false} CountOfAppend(a: seq<Report>, b: seq<Report>, m: Message)
    ensures CountOf(a + b, m) == CountOf(a, m) + CountOf(b, m)
    decreases |a|
  {
    if a == [] {
      assert a + b == b;
    } else {
      assert (a + b)[1..] == a[1..] + b;
      CountOfAppend(a[1..], b, m);
    }
  }
}

=== FILE: strings.dfy ===
/**
 * Decimal rendering of integers, as Java's string concatenation of an `int` does it.
 *
 * Temporary names (`tmp3`), labels (`if0`, `MyLabel2`) and Jasmin operands (`istore 5`,
 * `ldc 42`) are all built by appending a number to a fixed prefix, so the only property
 * the compiler relies on is that different numbers render differently.
 */
module Strings {

  function DigitChar(d: nat): (c: char)
    requires d < 10
    ensures '0' <= c <= '9'
    ensures c as int - '0' as int == d
  {
    ['0', '1', '2', '3', '4', '5', '6', '7', '8', '9'][d]
  }

  predicate IsDigits(s: string)
  {
    forall i :: 0 <= i < |s| ==> '0' <= s[i] <= '9'
  }

  /** Decimal digits of `n`, most significant first, without leading zeros. */
  function NatToString(n: nat): (s: string)
    ensures |s| >= 1 && IsDigits(s)
    ensures n < 10 <==> |s| == 1
    decreases n
  {
    if n < 10 then [DigitChar(n)] else NatToString(n / 10) + [DigitChar(n % 10)]
  }

  /** Java's `"" + i` for an int: a minus sign before the digits of a negative number. */
  function IntToString(i: int): (s: string)
    ensures |s| >= 1
    ensures i < 0 <==> s[0] == '-'
  {
    if i < 0 then "-" + NatToString(-i) else NatToString(i)
  }

  /** Decimal rendering is injective: two numbers with the same text are equal. */
  lemma {:induction false} NatToStringInjective(a: nat, b: nat)
    requires NatToString(a) == NatToString(b)
    ensures a == b
    decreases a
  {
    if a < 10 || b < 10 {
      // the texts have length one, so each is the single digit of its number
      assert |NatToString(a)| == 1 && |NatToString(b)| == 1;
      assert a < 10 && b < 10;
      assert DigitChar(a) == NatToString(a)[0] == NatToString(b)[0] == DigitChar(b);
    } else {
      var sa, sb := NatToString(a), NatToString(b);
      assert sa == NatToString(a / 10) + [DigitChar(a % 10)];
      assert sb == NatToString(b / 10) + [DigitChar(b % 10)];
      assert DigitChar(a % 10) == sa[|sa| - 1] == sb[|sb| - 1] == DigitChar(b % 10);
      assert NatToString(a / 10) == sa[..|sa| - 1] == sb[..|sb| - 1] == NatToString(b / 10);
      NatToStringInjective(a / 10, b / 10);
    }
  }

  lemma IntToStringInjective(a: int, b: int)
    requires IntToString(a) == IntToString(b)
    ensures a == b
  {
    if a < 0 && b < 0 {
      assert NatToString(-a) == IntToString(a)[1..] == IntToString(b)[1..] == NatToString(-b);
      NatToStringInjective(-a, -b);
    } else if a >= 0 && b >= 0 {
      NatToStringInjective(a, b);
    }
  }

  /** Appending different numbers to the same prefix gives different names. */
  lemma PrefixedNamesDistinct(prefix: string, a: int, b: int)
    requires a != b
    ensures prefix + IntToString(a) != prefix + IntToString(b)
  {
    if prefix + IntToString(a) == prefix + IntToString(b) {
      assert IntToString(a) == (prefix + IntToString(a))[|prefix|..];
      assert IntToString(b) == (prefix + IntToString(b))[|prefix|..];
      IntToStringInjective(a, b);
    }
  }
}

=== FILE: type_utils.dfy ===
/**
 * TypeUtils: the expression typing the OLLIR generator relies on.
 *
 * This resolver is independent of the one the semantic analysis uses (module Analysis):
 * it never reports anything, it throws on node kinds it does not know, and it resolves
 * variables in the order imports, parameters, fields, locals, defaulting to `int`.
 */
module TypeUtils {
  import opened Wrappers
  import opened Jmm

  /**
   * `findAncestorOfKind`: `path` lists the node's own kind first and then the kinds of
   * its parent, grandparent, ... up to the root. The result is the position of the nearest
   * strict ancestor of the requested kind, never the node itself.
   */
  method FindAncestorOfKind(path: seq<string>, kind: string) returns (r: Option<nat>)
    requires |path| >= 1
    ensures r.Some? ==> 1 <= r.value < |path| && path[r.value] == kind
    ensures r.Some? ==> forall j :: 1 <= j < r.value ==> path[j] != kind
    ensures r.None? <==> kind !in path[1..]
  {
    var current := 1;
    while current < |path|
      invariant 1 <= current <= |path|
      invariant forall j :: 1 <= j < current ==> path[j] != kind
    {
      if path[current] == kind {
        return Some(current);
      }
      current := current + 1;
    }
    assert forall k :: k in path[1..] ==> k != kind;
    return None;
  }

  /** `getBinExprType`: arithmetic operators give `int`, `&&` and `<` give `boolean`. */
  function BinExprType(op: string): (r: Outcome<Type>)
    ensures r.Ok? <==> op in {"+", "*", "-", "/", "&&", "<"}
    ensures r.Ok? ==> !r.value.isArray
    ensures r.Ok? ==> (r.value == IntType <==> op in {"+", "*", "-", "/"})
    ensures r.Crash? ==> r.fault == UnknownOperator
  {
    if op in {"+", "*", "-", "/"} then Ok(IntType)
    else if op in {"&&", "<"} then Ok(BoolType)
    else Crash(UnknownOperator)
  }

  /**
   * `getVarExprType`: the first import equal to the name (as a non-array type of that
   * name), else the first parameter, field, or local of the enclosing method with that
   * name; `int` when nothing matches.
   */
  function VarExprType(t: SymbolTable, meth: string, name: string): (r: Type)
    ensures name in t.imports ==> r == Type(name, false)
  {
    if name in t.imports then Type(name, false)
    else
      match FirstSymbol(t.Parameters(meth), name)
      case Some(ty) => ty
      case None =>
        match FirstSymbol(t.fields, name)
        case Some(ty) => ty
        case None => FirstSymbol(t.Locals(meth), name).GetOr(IntType)
  }

  /** The imports seen as symbols, each typed by its own name. */
  function ImportSymbols(imports: seq<string>): (r: seq<Symbol>)
    ensures |r| == |imports|
    ensures forall i :: 0 <= i < |r| ==> r[i] == Symbol(imports[i], Type(imports[i], false))
  {
    if imports == [] then [] else [Symbol(imports[0], Type(imports[0], false))] + ImportSymbols(imports[1..])
  }

  /** The scopes `getVarExprType` searches, in the order it searches them. */
  function VarScopes(t: SymbolTable, meth: string): seq<Symbol>
  {
    ImportSymbols(t.imports) + t.Parameters(meth) + t.fields + t.Locals(meth)
  }

  /**
   * Reference definition: a variable reference has the type of the first symbol with its
   * name across imports, parameters, fields and locals, and `int` when there is none.
   */
  lemma VarExprTypeIsFirstMatch(t: SymbolTable, meth: string, name: string)
    ensures VarExprType(t, meth, name) == FirstSymbol(VarScopes(t, meth), name).GetOr(IntType)
  {
    var imps := ImportSymbols(t.imports);
    var ps, fs, ls := t.Parameters(meth), t.fields, t.Locals(meth);
    FirstSymbolAppend(imps + ps + fs, ls, name);
    FirstSymbolAppend(imps + ps, fs, name);
    FirstSymbolAppend(imps, ps, name);
    if name in t.imports {
      var i :| 0 <= i < |t.imports| && t.imports[i] == name;
      assert imps[i].name == name;
      assert FirstSymbol(imps, name).Some?;
    } else {
      assert forall i :: 0 <= i < |imps| ==> imps[i].name != name;
    }
  }

  /**
   * `getExprType`: the type the OLLIR generator attaches to an expression. A call has the
   * declared return type of the called name (None when the table does not know it); node
   * kinds without a case throw.
   */
  function ExprType(t: SymbolTable, meth: string, e: Expr): (r: Outcome<Option<Type>>)
    ensures r.Crash? <==>
      (e.BinaryExpr? && BinExprType(e.op).Crash?) ||
      e.Not? || e.ParenthesesExpr? || e.ArrayAccess? || e.ArrayLength? || e.FieldAccess?
    ensures r.Ok? && r.value.None? ==> e.FunctionCallExpr? && e.func !in t.returnTypes
    ensures e.IntegerLiteral? || e.AccessExpr? ==> r == Ok(Some(IntType))
    ensures e.NewVectorExpr? || e.ElementExpr? ==> r == Ok(Some(IntArrayType))
    ensures e.BinaryExpr? && BinExprType(e.op).Ok? ==> r == Ok(Some(BinExprType(e.op).value))
    ensures e.BooleanLiteral? ==> r == Ok(Some(BoolType))
    ensures e.VarRefExpr? ==> r == Ok(Some(FirstSymbol(VarScopes(t, meth), e.name).GetOr(IntType)))
    ensures e.FunctionCallExpr? ==> r.Ok? && (e.func in t.returnTypes ==> r.value == Some(t.returnTypes[e.func]))
    ensures e.NewObjectExpr? ==> r == Ok(Some(Type(e.className, false)))
    ensures e.ThisExpr? ==> r == Ok(Some(Type(t.className, false)))
  {
    match e
    case BinaryExpr(op, _, _) => var ty :- BinExprType(op); Ok(Some(ty))
    case BooleanLiteral(_) => Ok(Some(BoolType))
    case VarRefExpr(n) => VarExprTypeIsFirstMatch(t, meth, n); Ok(Some(VarExprType(t, meth, n)))
    case IntegerLiteral(_) => Ok(Some(IntType))
    case AccessExpr(_, _) => Ok(Some(IntType))
    case FunctionCallExpr(_, f, _) => Ok(t.ReturnType(f))
    case NewObjectExpr(n) => Ok(Some(Type(n, false)))
    case NewVectorExpr(_, _) => Ok(Some(IntArrayType))
    case ElementExpr(_) => Ok(Some(IntArrayType))
    case ThisExpr => Ok(Some(Type(t.className, false)))
    case _ => Crash(UnsupportedKind)
  }

  /**
   * `areTypesAssignable`: only the names are compared, so a type is assignable to itself
   * and to the array (or element) type of the same name, and to nothing else.
   */
  function AreTypesAssignable(source: Type, destination: Type): (r: bool)
    ensures source == destination ==> r
    ensures source.name == destination.name && source.isArray != destination.isArray ==> r
    ensures r <==> source == destination || source == destination.(isArray := !destination.isArray)
  {
    source.name == destination.name
  }
}

=== FILE: wrappers.dfy ===
/**
 * Option and failure-compatible Outcome shared by every stage of the compiler model.
 *
 * The Java compiler signals a broken invariant by throwing (an unsupported node kind,
 * an attribute that is absent, a method called on a null type, a child index past the
 * end). Each such throw is an `Outcome.Crash` carrying the reason, so that callers can
 * propagate it with `:-` exactly where the Java exception would propagate.
 */
module Wrappers {

  datatype Option<+T> = None | Some(value: T)
  {
    function GetOr(default: T): (r: T)
      ensures Some? ==> r == value
      ensures None? ==> r == default
    {
      if Some? then value else default
    }
  }

  /** Why a compilation stage stops with an exception. */
  datatype Fault =
    | UnsupportedKind   // TypeUtils.getExprType is asked about a node kind it has no case for
    | UnknownOperator   // a binary operator other than + - * / && <
    | MissingAttribute  // JmmNode.get of an attribute the node does not carry
    | NullType          // a method called on a null Type (NullPointerException)
    | MissingChild      // getChild / get(i) past the end of a child list

  datatype Outcome<+T> = Ok(value: T) | Crash(fault: Fault)
  {
    predicate IsFailure() { Crash? }

    function PropagateFailure<U>(): Outcome<U>
      requires Crash?
    {
      Crash(fault)
    }

    function Extract(): T
      requires Ok?
    {
      value
    }
  }
}
